=== FILE: README.md ===
# A travelling game, modelled in Dafny

Players travel along roads between cities, and the cities are grouped into countries. On arrival a
player collects a randomly drawn bonus. In a mafia country the draw can instead be a robbery.
Border and capital cities also charge a toll or take spending. The model covers everything below
the Swing front end:

- **Movement.** The `Position` state machine (`Network.Position`, specified through the `Place`
  value) and the immutable, ordered `Road` value (`Network.Road`). `Road` is a datatype, so its
  getters return exactly the constructor arguments and no operation can change a road.
- **Networks.** `City` and `Country` as classes (`Network.City`, `Network.Country`). A country's
  `TreeMap<City, TreeSet<Road>>` is a sequence of entries kept sorted by city name, because
  `City.compareTo` compares names only. Each road set is a sequence kept sorted by
  (from name, to name, length). That is the order `Road.compareTo` gives as long as no two
  different cities share a name (see "Left out").
- **Revenue.** Every revenue path is a function of the drawn numbers (`Revenue`):
  - `Country.bonus` and `MafiaCountry.bonus`, and `Game.getLoss`.
  - The toll of `BorderCity.arrive(Player)` and the spending of `CapitalCity.arrive(Player)`.
  - The city methods apply these to the city's `value` field.
- **The random generator.** `java.util.Random` is an `Rng` value (`Rand`). Its raw numbers are a
  parameter. Each `nextInt(n)` yields exactly a value in `[0, n)`, takes one draw, and fails with
  `IllegalArgumentException` when `n <= 0`.
- **Players.** One `Player` class with a kind tag (`Players`):
  - the base `step` with its money bookkeeping;
  - the `setPosition` guard;
  - the GUI player's click queue;
  - the random player's r-th road;
  - the greedy player's best ratio;
  - the smart player's bounded depth-first search.
- **The search.** The search (`Search`) is a method proved equal to a recursive specification
  function `Best`. `Best` is itself proved to return a contiguous path within the budget that no
  candidate beats.
- **The game.** The `Game` class (`Games`) covers:
  - the step counter, the abort flag and the settings;
  - adding countries (kept sorted by name), cities and roads;
  - `reset` (reseeding, countries restored, players sorted and placed at random cities);
  - `step` (players sorted, inactive AI players skipped, negative balances cleared).
- **Settings.** The settings (`SettingsFile`): the six-line text format with its printer and
  parser, proved to be a round trip, and its exact error conditions.

## Arrival rules as the code has them

The model follows the code in every case below.

- `BorderCity.arrive(Player)` draws the bonus first, on the city's value before the toll. The toll
  is then added to the value (src/BorderCity.java:23-27), so the bonus is never drawn on a value
  that already includes the toll.
- Neither `BorderCity.arrive(Player)` nor `CapitalCity.arrive(Player)` debits the player. They only
  return the net amount. The spending draw is bounded by `money + b`, where `b` is the border result
  (src/CapitalCity.java:23), not by a post-toll balance.
- The toll uses Java's truncating division, not floor.
- `Player.step` calls the plain `arrive()`, so a step never charges a toll or takes spending
  (src/Player.java:44). `arrive(Player)` is modelled as its own operation.

## Model

| member | source | states |
|---|---|---|
| Network.Position.constructor | src/Position.java:26-31 | the total equals the given distance; from, to and distance are the arguments |
| Network.Position.Move | src/Position.java:58-64 | returns true iff the distance was positive; the distance then drops by exactly 1, otherwise nothing changes |
| Network.Position.TurnAround | src/Position.java:69-74 | from and to are swapped, the distance becomes total − distance, the total is unchanged |
| Network.TurnedTwice | src/PositionTest.java:71-90 | turning around twice restores from, to and distance |
| Network.InRangeKept | src/Position.java:58-74 | 0 ≤ distance ≤ total is preserved by move and turnAround, and neither changes the total |
| Network.ZeroLengthFixed | src/CountryTest.java:90-101 | a zero-length position is a fixed point of move, and turning it around keeps it arrived |
| Network.ArrivesAfterDistanceMoves | src/Position.java:58-82 | k moves lower the distance by min(k, distance); hasArrived holds exactly once distance moves have been made |
| Network.PlaceEqualsEquivalence | src/Position.java:90-102 | Position.equals (same cities, distance and total) is reflexive, symmetric and transitive |
| Network.RoadCompareLaws | src/Road.java:51-88 | structurally equal roads compare 0 and have equal hash codes; swapping the arguments flips the sign |
| Network.RoadCompareIsKeyOrder | src/Road.java:51-59 | where same-named cities are equal, compareTo gives from-name order, then to-name order, then the length difference |
| Network.RoadKeyLaws | src/Road.java:51-59 | the road-set order is zero exactly on same-key roads, and it is antisymmetric |
| Network.RoadKeyLessTransitive | src/Road.java:51-59 | the road-set order is transitive |
| Network.City.constructor | src/City.java:19-24 | value and initialValue are both the argument |
| Network.City.Arrive | src/City.java:31-35 | the result is country.bonus(value) on the same draws; the value drops by exactly the bonus, so a negative bonus raises it |
| Network.City.ChangeValue | src/City.java:73-75 | the value grows by the amount; initialValue is a constant |
| Network.City.Reset | src/City.java:80-82 | the value is back at initialValue, and the frame is this city alone |
| Network.CityOrderVersusEquality | src/City.java:100-118 | compareTo is 0 iff the names match; equals also needs the same country (and class) |
| Network.City.BorderArrive | src/BorderCity.java:21-31 | the bonus is drawn first on the pre-toll value; the result is bonus − toll and the value ends at value − bonus + toll; on an exception the value is unchanged |
| Network.City.CapitalArrive | src/CapitalCity.java:19-27 | the border step, then one spending draw; the result and the final value are those of the capital arrival, and the value is kept when the border step throws |
| Network.Country.constructor | src/Country.java:19-22 | a new country has an empty network |
| Network.Country.AddCity | src/Country.java:39-41 | the network becomes PutCity(network, c): the name maps to an empty road set and every other name is untouched |
| Network.PutCityOwn | src/Country.java:39-41 | after addCity the city's road set is empty, and an already registered key object is kept |
| Network.PutCityOther | src/Country.java:39-41 | addCity changes no other city's roads or key |
| Network.PutCityValid | src/Country.java:39-41 | addCity keeps the map sorted by name and every road set sorted and owned by its key |
| Network.Country.AddRoads | src/Country.java:80-92 | the network becomes WithRoads(network, a, b, length), and the network invariant is kept |
| Network.WithRoadsLookup | src/Country.java:80-92 | for two cities that are not equal, Road(a,b,len) is stored under a only if a is registered, and Road(b,a,len) under b only if b is; when two different cities share a name, both roads go to that one key with the same road-set key, so on a sorted road set only Road(a,b,len) is kept; other cities are unchanged; a country with neither city is unchanged; keys never change |
| Network.WithRoadsValid | src/Country.java:80-92 | addRoads keeps the network sorted, with every stored road at least 1 long |
| Network.WithRoadsIdempotent | src/CountryTest.java:153-162 | adding the same roads twice is the same as adding them once |
| Network.InsertRoadPresent | src/CountryTest.java:153-162 | re-adding a road with the same key leaves the set unchanged |
| Network.InsertRoadAbsent | src/CountryTest.java:153-162 | a road with a new key (e.g. another length) is added as one more element |
| Network.InsertRoadSorted | src/Country.java:88-91 | TreeSet.add keeps the road set sorted |
| Network.Country.GetRoads | src/Country.java:174-176 | empty for an unregistered city; otherwise sorted roads leaving that city, each at least 1 long |
| Network.Country.GetCity | src/Country.java:150-157 | a registered city of that name, or None exactly when no registered city has the name |
| Network.Country.Position | src/Country.java:49-51 | standing at the city with distance and total 0, with no membership check |
| Network.Country.ReadyToTravel | src/Country.java:62-71 | the position is Departure(getRoads(from), from, to) |
| Network.Departure | src/Country.java:62-71 | the position starts at `from` and heads to `from` (no road, or equal cities) or to `to` |
| Network.FirstRoadTo | src/Country.java:66 | the first road in set order whose destination equals `to`, or None iff there is none |
| Network.Country.Reset | src/Country.java:162-166 | every registered city is back at its initial value; only registered cities are in the frame |
| Network.ClosedRoads | src/Country.java:80-83 | in a closed world every stored road joins cities of the world and is at least 1 long |
| Revenue.PlainBonus | src/Country.java:101-106 | 0 with no draw for value ≤ 0; otherwise one draw in [0, value] |
| Revenue.Loss | src/Game.java:158-160 | a value in [minLoss, maxLoss] from one draw; throws iff maxLoss < minLoss |
| Revenue.MafiaBonusCases | src/MafiaCountry.java:21-26 | the first draw is in [0, 100); below the risk the result is −getLoss() on the next draw, otherwise exactly Country.bonus on the next draw |
| Revenue.RobberyRange | src/MafiaCountry.java:22-23 | a robbery lies in [−maxLoss, −minLoss] |
| Revenue.NoRobberyRange | src/MafiaCountry.java:25 | without a robbery the result lies in [0, value], and is 0 for value ≤ 0 |
| Revenue.NoRiskNeverRobs | src/MafiaCountry.java:22 | a risk ≤ 0 never robs |
| Revenue.FullRiskAlwaysRobs | src/MafiaCountry.java:22 | a risk ≥ 100 always robs |
| Revenue.RobberyBeforeGuard | src/MafiaCountry.java:21-26 | a city with value ≤ 0 in a mafia country can still yield a negative amount |
| Revenue.JavaDiv | src/BorderCity.java:26 | Java integer division agrees with Euclidean division on non-negative dividends |
| Revenue.JavaDivTruncates | src/BorderCity.java:26 | division by 100 truncates toward zero and is symmetric in the dividend's sign |
| Revenue.TollExamples | src/BorderCityTest.java:56-67 | 20% of 250 is 50; a negative balance gives a toll truncated toward zero |
| Revenue.BorderArrivalSpec | src/BorderCity.java:21-31 | result bonus − toll and value − bonus + toll, with a toll exactly on a crossing; on the same country the result is the bonus and the value drops by it; the result and the new value add up to the old value |
| Revenue.CapitalArrivalSpec | src/CapitalCity.java:19-27 | spent lies in [0, money + b], the city keeps it, and money + result ≥ 0 whenever money + b ≥ 0 |
| Revenue.CapitalArrivalThrows | src/CapitalCity.java:23 | when money + b < 0 the bound is ≤ 0 and nextInt throws |
| Rand.NextInt | src/Game.java:141-143 | nextInt(n) lies in [0, n) and takes one draw; it throws iff n ≤ 0 |
| Rand.EveryValueDrawable | src/Game.java:141-143 | every value of [0, n) can be drawn |
| Players.Player.constructor | src/Player.java:19-30 | the position and money are the arguments (money 0 for Player(pos)); the queue is empty |
| Players.Player.SetMoney | src/Player.java:35-37 | the money is set and nothing else changes |
| Players.Player.BaseStep | src/Player.java:42-47 | the position moves once; the money grows by the destination's plain arrive() exactly when that move lands; the result is hasArrived |
| Players.StepOutcomeSpec | src/Player.java:42-47 | no gain unless the move lands; a landing step reports arrival and gains the plain bonus in [0, value] (no toll, no spending) |
| Players.StepOutcome | src/Player.java:42-47 | Player.step throws exactly when the move lands in a mafia country, the first draw is a robbery and getLoss has an empty range; otherwise it reports arrival exactly when the moved position has arrived |
| Players.PolicyOutcome | src/RandomPlayer.java:19-32 | a whole step fails iff the base step does, or after an arrival the random player has no road (nextInt(0)) or the smart search throws; arrival is reported as the base step did, and only the random player's draw moves the generator on |
| Players.NoThrowPasses | src/Game.java:158-160 | a GUI or greedy player's step never throws when minRobbery ≤ maxRobbery, whatever the position, draws and roads |
| Players.PolicyTarget | src/GreedyPlayer.java:22-34 | a player sets out only after an arrival step that does not throw; a non-smart player only toward the end of a road out of its city; a random player with a road always sets out; a smart one iff the search succeeds; the GUI player only toward the front of its queue |
| Players.GuiPolicy | src/GUIPlayer.java:76-85 | the GUI policy never throws or draws, and sets out for the queue's front exactly when a road leads there after an arrival |
| Players.GreedyPolicy | src/GreedyPlayer.java:19-38 | the greedy policy never throws or draws, and sets out for the picked road's end after an arrival |
| Players.RandomPolicy | src/RandomPlayer.java:19-32 | after an arrival the random policy throws iff nextInt(roadCount) does; otherwise it takes that one draw and sets out along the drawn road |
| Players.SmartPolicy | src/SmartPlayer.java:19-27 | after an arrival the smart policy throws iff the search does; otherwise it draws nothing and sets out for the next stop |
| Players.LandsOnce | src/Player.java:43 | along a trip the landing move happens exactly once, on move number distance |
| Players.Player.SetPosition | src/Player.java:70-73 | the position is replaced iff the player has arrived or no step has been taken; money and queue unchanged |
| Players.Player.GetCountry | src/Player.java:89-94 | the to-city's country when arrived, the from-city's country while travelling |
| Players.Player.TurnAround | src/Player.java:99-101 | the position is turned around |
| Players.PlayerOrder | src/Player.java:119-121 | players compare by display name: negative iff the name ranks lower, 0 iff the same kind |
| Players.Player.EnqueueCity | src/GUIPlayer.java:45-47 | the city is appended to the queue and nothing else changes |
| Players.Player.TravelTo | src/GUIPlayer.java:56-74 | arrived with a road to the target: readyToTravel and an empty queue; arrived without one: no change; travelling: the from-city turns around, any other city is queued |
| Players.Player.GuiStep | src/GUIPlayer.java:76-85 | the base step; on an arrival step with a non-empty queue the head is dequeued and travelled to; otherwise position and queue unchanged; the player stays within the game's cities |
| Players.Ratios | src/GreedyPlayer.java:27 | each road's destination value divided by its length, exactly |
| Players.PickSpec | src/GreedyPlayer.java:24-32 | none iff no ratio is positive; otherwise the pick is positive, maximal and strictly above every earlier ratio |
| Players.PickUnique | src/GreedyPlayer.java:24-32 | that characterisation determines the pick |
| Players.GreedyIndex | src/GreedyPlayer.java:24-32 | the loop finds exactly the pick over the ratios |
| Players.Player.GreedyTurn | src/GreedyPlayer.java:22-34 | on arrival the player heads for the destination of the road picked over the ratios as they stand when the turn starts, or keeps the position when no ratio qualifies |
| Players.Player.Depart | src/GreedyPlayer.java:33-34 | the player sets out along the chosen road from the city it arrived in; money, queue and every ratio stay as they were |
| Players.Player.GreedyStep | src/GreedyPlayer.java:19-38 | the base step, then the greedy turn only on an arrival step, with the pick taken over the ratios after the step; the player stays within the game's cities |
| Players.Player.RandomStep | src/RandomPlayer.java:19-32 | on an arrival step one draw r in [0, roadCount) picks the r-th road in set order; no roads throws; other steps are the base step; the player stays within the game's cities |
| Players.Player.SmartStep | src/SmartPlayer.java:19-27 | on an arrival step the player heads for the search's next stop (itself or a neighbour) with budget stepsLeft, and a throw of the search is passed on; other steps are the base step; the player stays within the game's cities |
| Players.Player.SmartTurn | src/SmartPlayer.java:21-24 | the next stop is NextStop (maximizeValue), itself or a neighbour; on success the player sets out for it, on a throw the position is kept |
| Players.Player.Step | src/Player.java:42-47 | dispatch on the kind: money and the destination's value follow the base step, the player stays within the world, and a non-arrival step changes nothing more; the result is PolicyOutcome of its kind; on arrival the GUI player travels to the front of its queue, the greedy player along the best-ratio road, the random player along the drawn road, and the smart player toward the search's next stop |
| Search.ExtendSpec | src/SmartPlayer.java:188-201 | addRoad throws iff the road does not end where the top road starts; otherwise the road is the new top, the rest is kept, the length grows by its length, and the path stays a contiguous walk whose length is the sum |
| Search.PlayerPath.constructor | src/SmartPlayer.java:125-130 | an empty stack with length 0 and value 0 |
| Search.PlayerPath.AddRoad | src/SmartPlayer.java:188-201 | the path state follows ExtendSpec, and nothing changes when it throws |
| Search.PlayerPath.GetRoad | src/SmartPlayer.java:144-146 | the top road, and a throw on an empty stack |
| Search.PathCompareLaws | src/SmartPlayer.java:132-138 | higher value, then shorter length, then Road.compareTo; antisymmetric; a throw only on an empty path at a full tie |
| Search.NotWorseTransitive | src/SmartPlayer.java:132-138 | "not worse" under that ordering is transitive |
| Search.KeyIdentity | src/SmartPlayer.java:72-78 | the visit map's key identifies cities exactly as City.equals does |
| Search.MaximizeValue | src/SmartPlayer.java:54-94 | the method's path (or exception) is exactly Best(visits, c, i) |
| Search.TryRoad | src/SmartPlayer.java:66-90 | one loop iteration advances BestFrom by one road |
| Search.CandidatePath | src/SmartPlayer.java:69-82 | a branch's path is the recursive result on a copied map with the destination's count + 1, extended by the road with that count as penalty |
| Search.CandidateStep | src/SmartPlayer.java:72-82 | a candidate is Best on the updated visit map, then addRoad with penalty equal to the new count |
| Search.BestFromStep | src/SmartPlayer.java:66-90 | roads longer than min(200, i) are skipped; a candidate replaces the best only when compareTo returns exactly 1 |
| Search.CandidateShape | src/SmartPlayer.java:69-82 | a candidate is a contiguous walk starting with its road, no longer than the budget |
| Search.BestFromShape | src/SmartPlayer.java:66-90 | the loop keeps the best a walk from c within the budget |
| Search.BestShape | src/SmartPlayer.java:57-81 | the returned path is empty or a walk from c of total length ≤ min(200, i) |
| Search.BestFromOptimal | src/SmartPlayer.java:66-90 | the loop's result is not worse than its start and than every candidate it examines |
| Search.BestOptimal | src/SmartPlayer.java:86 | the best path has a value ≥ 0 and no followed road's candidate beats it |
| Search.NextStopIsNeighbour | src/SmartPlayer.java:36-44 | the next city is c itself or the destination of a road from c |
| Search.MaximizeNext | src/SmartPlayer.java:36-44 | the method returns the specified next stop (c when the best path is empty) |
| Games.RunsFlags | src/Game.java:308-310 | random, greedy and smart players run iff flags 0, 1 and 2 are set; the GUI player always runs |
| Games.Game.constructor | src/Game.java:44-53 | the generator seeded with the seed, no countries or players, 600 steps left, not aborted, and the settings given |
| Games.Game.Create | src/Game.java:44-63 | construction throws NumberFormat exactly when the stored text has a number that does not parse; otherwise a new game whose settings are the parsed stored text, or the defaults when the text is absent or has the wrong number of lines or flags |
| Games.Game.Abort | src/Game.java:125-135 | aborted, the step counter kept, and ongoing() false; every other field of the game is kept |
| Games.Game.SetTotalSteps | src/Game.java:371-373 | the total is set; steps left unchanged; every other field of the game is kept |
| Games.Game.GetLoss | src/Game.java:158-160 | the result is a value in [minRobbery, maxRobbery] from one draw, with the generator past it; when the range is empty it throws and the generator is unchanged; every other field of the game is kept |
| Games.Game.AddCountry | src/Game.java:259-263 | the countries are the old ones plus c, sorted by name (a stable sort of the appended list); every other field of the game is kept |
| Sorting.SortBySorted | src/Game.java:262 | the sort returns a permutation sorted by the name key |
| Sorting.SortByDistinct | src/Game.java:218 | sorting keeps a list free of duplicates |
| Sorting.SortByStable | src/Game.java:218 | Collections.sort is stable: the elements sharing any one name keep their relative order |
| Sorting.InsertNamed | src/Game.java:218 | inserting x into a sorted list puts it after every element of its own name |
| Games.Game.AddCity | src/Game.java:195-202 | a new plain city is added to the first country named by the trimmed argument; nothing changes when there is none; every other field of the game is kept |
| Games.Game.CountryIndex | src/Game.java:196-201 | the loop finds the index of the first country with the trimmed name, and none exactly when no country has it (FirstNamed) |
| Games.Game.AddCityTo | src/Game.java:198 | the country's network gains the city, and the world invariant holds; every other field of the game is kept |
| Games.FirstNamed | src/Game.java:196-197 | the first country with that name, or None iff there is none |
| JavaText.Trim | src/Game.java:197 | String.trim: the result is a slice of the input with only characters at or below U+0020 cut from either end, it has no such character at either end, and it is non-empty iff the input has a character above U+0020 |
| Games.Game.GetCity | src/Game.java:286-295 | the result is FindCity over the countries in order |
| Games.FindCity | src/Game.java:286-295 | a registered city with that name, or None iff no country has one |
| Games.Game.AddRoads | src/Game.java:355-357 | every country's network becomes WithRoads(network, a, b, length) |
| Games.Game.AddRoadsEach | src/Game.java:356 | the forEach over the countries: each listed country's network becomes WithRoads once, even when a country is listed twice, and the world stays valid |
| Games.Game.RoadsAddedTo | src/Game.java:356 | one more country of the forEach done: every country met so far has its network as WithRoads of its original network exactly once (a repeated country stays the same by idempotence), the rest keep their original network |
| Games.Game.AddRoadsTo | src/Game.java:356 | one country gets the roads and the world stays valid |
| Games.Game.SetGUIPlayer | src/Game.java:242-245 | the GUI player is recorded and appended to the players; every other field of the game is kept |
| Games.Game.AddPlayer | src/Game.java:108-110 | the player is appended to the players; every other field of the game is kept |
| Games.GetRandom | src/Game.java:230-236 | the element at index nextInt(size), with one draw; throws iff the collection is empty |
| Games.StartCity | src/Game.java:184-187 | two draws pick a country, then one of its cities; the result lies in one of the countries |
| Games.StartCityFails | src/Game.java:184-187 | the draw throws iff the chosen country has no cities |
| Games.Game.DrawCity | src/Game.java:184-187 | the drawn country and city are StartCity's, with the generator advanced by two draws; when a draw throws, the generator is past the country draw already taken (FailedStart) |
| Games.FailedStart | src/Game.java:184-187 | after a start that throws, the generator is unchanged when there is no country (nextInt(0) takes no draw) and one draw on otherwise |
| Games.Game.GetRandomStartingPosition | src/Game.java:184-187 | a fresh position standing at StartCity's city; it throws exactly when StartCity does, leaving the generator past the draws taken; no other field changes |
| Games.StartsSpec | src/Game.java:219-222 | n placements take 2n draws and each lands in a country's city list; a failed prefix fails the whole |
| Games.StartsAtEach | src/Game.java:219-222 | n placements succeed iff each of the n placements does, and the j-th player gets the city StartAt(j) |
| Games.Game.Reset | src/Game.java:208-223 | reseeded from one draw, stepsLeft = totalSteps, not aborted, every country's registered cities restored and every other city unchanged, players sorted by name, each with money 0 standing at its drawn start city; every player's click queue and the GUI player are kept |
| Games.Game.Reseed | src/Game.java:209-212 | the seed is nextInt(MAX_VALUE) and the generator restarts on it; the counter is reset and the abort cleared; the players and the GUI player are kept |
| Games.Game.Restart | src/Game.java:214-222 | after the reseed: every country's registered cities restored and every other city unchanged, then the players sorted and placed from the new generator; every player's click queue, the seed and the GUI player are kept |
| Games.ResetCountries | src/Game.java:214-216 | every registered city of every listed country is back at its initial value, and every other city keeps its value |
| Games.Game.SortPlayers | src/Game.java:218 | the players are a sorted permutation of the old list; the generator, the seed, the GUI player, the flags and the running players' destinations are kept |
| Games.Game.PlacePlayers | src/Game.java:218-222 | the players are sorted, then placed as ResetPlayers states; every player's click queue, the seed and the GUI player are kept |
| Games.Game.ResetPlayers | src/Game.java:219-222 | the loop succeeds iff every StartAt(j) succeeds, and then player j has money 0 at StartAt(j)'s city; every player's click queue, the seed and the GUI player are kept |
| Games.Game.ResetAt | src/Game.java:220-221 | one iteration places player i at StartAt(i) and keeps the earlier players placed; player i's queue, the seed and the GUI player are kept |
| Games.Game.ResetPlayer | src/Game.java:220-221 | money 0, then setPosition to a random starting position; it fails exactly when StartCity does; the queue, the seed and the GUI player are kept |
| Games.Game.StartAtCity | src/Game.java:221 | the player stands at the city with no money; the queue is kept |
| Games.Game.ClearMoney | src/Game.java:220 | the player's money is 0; its position and queue are kept |
| Games.Game.Move | src/Game.java:311 | the player's step: it passes iff PolicyOutcome of the player's kind succeeds, and then the generator is that outcome's rest and the money grew by the step's gain; the city the player was heading for loses exactly that gain (src/City.java:31-35); a throw carries the outcome's error; a GUI or greedy player with minRobbery ≤ maxRobbery always passes; the other players, the seed and the GUI player are untouched |
| Games.Game.PlayerStep | src/Game.java:311 | p.step() with the game's settings, generator and steps left: the result is PolicyOutcome of p's kind, the money grows by the gain and the city p was heading for loses it, and p sets out for PolicyTarget's city or keeps its moved position |
| Games.Game.Settle | src/Game.java:311 | a step's throw is passed on; after a step that passes, the generator moves on past the step's draws; no player changes, and the seed and the GUI player are kept |
| Games.Game.TakeTurn | src/Game.java:311-314 | the step, then a negative balance is cleared to 0, so the money is max(0, money + gain); the city the player was heading for loses the gain; a throw only comes from a kind that may throw (MayThrow); the seed and the GUI player are kept |
| Games.Game.TurnOf | src/Game.java:307-314 | a player whose flag is off is skipped and passes; a stepped player ends with money ≥ 0 and its old destination loses the step's gain; no other city and no other player's destination changes; a throw only comes from a running player whose kind may throw |
| Games.Game.TakeTurns | src/Game.java:307-315 | every stepped player ends with money ≥ 0; skipped players keep money and position; a city keeps its value unless some running player was heading for it; a throw implies some running player whose kind may throw, so with no such player the loop passes |
| Games.Game.TurnsFrom | src/Game.java:307-315 | the loop on indices: players stepped in list order until one throws; skipped players untouched; no city outside the given destinations changes value |
| Games.Game.UseStep | src/Game.java:316 | stepsLeft drops by exactly 1; the generator, the seed and the GUI player are kept |
| Games.Game.Play | src/Game.java:306-316 | players sorted by name, each active one stepped with money ≥ 0, and stepsLeft lowered by 1; only cities a running player was heading for change value; the world, the seed and the GUI player are kept; a throw implies a running player whose kind may throw |
| Games.Game.Step | src/Game.java:302-317 | when stepsLeft is 0 or the game is aborted it passes and changes nothing: counter, generator, players, their money and positions, and city values; otherwise players sorted, active ones stepped to money ≥ 0, inactive ones untouched, stepsLeft lowered by exactly 1, and only cities a running player was heading for change value; the world, the seed and the GUI player are always kept; a throw implies a running player whose kind may throw (no players, or only GUI and greedy ones with minRobbery ≤ maxRobbery, always pass) |
| SettingsFile.Settings.constructor | src/Settings.java:51-53 | all flags on, toll 20, risk 20, loss 10..50, speed 2 |
| SettingsFile.Settings.Copy | src/Settings.java:36-46 | every field is copied into a fresh flag array, and the source object is unchanged |
| SettingsFile.Settings.Parse | src/Settings.java:79-113 | Settings(String): a fresh object whose fields are exactly ParseFields(text), or exactly the exception ParseFields gives |
| SettingsFile.Settings.CollectStrings | src/Settings.java:65-72 | the lines joined, each followed by CR LF |
| SettingsFile.Settings.ParseFromLines | src/Settings.java:61-63 | Settings(String[]): the parse of the joined lines |
| SettingsFile.Settings.ToString | src/Settings.java:125-139 | the text is Format of the fields: three 0/1 flags, then toll, risk, minLoss, maxLoss and speed, each line ended by CR LF |
| SettingsFile.FlagsText | src/Settings.java:129-130 | one '1' or '0' per flag, in order |
| SettingsFile.Settings.IsActive | src/Settings.java:146-148 | the flag of that player |
| SettingsFile.Settings.SetActive | src/Settings.java:155-158 | that flag alone changes |
| SettingsFile.Settings.SetTollToBePaid | src/Settings.java:172-175 | the toll alone changes |
| SettingsFile.Settings.SetRisk | src/Settings.java:189-192 | the risk alone changes |
| SettingsFile.Settings.SetMinMaxRobbery | src/Settings.java:207-211 | the loss range alone changes |
| SettingsFile.Settings.SetGameSpeed | src/Settings.java:243-246 | the speed alone changes |
| SettingsFile.ParseFormat | src/Settings.java:79-139 | parsing the output of toString reproduces every field |
| SettingsFile.ParseLinesFormat | src/Settings.java:86-112 | the parser loop over the six printed lines reproduces every field |
| SettingsFile.TerminatedSplits | src/Settings.java:81 | stripping CR and splitting on LF (trailing empty pieces dropped) recovers the printed lines |
| SettingsFile.RemoveCRAppend | src/Settings.java:81 | removing CR distributes over concatenation |
| SettingsFile.SplitLinesTerminated | src/Settings.java:81 | split("\n") of LF-terminated lines gives back those lines |
| SettingsFile.WrongLineCountRefused | src/Settings.java:81-84 | input that does not split into exactly 6 lines raises SettingsException |
| SettingsFile.WrongFlagLineRefused | src/Settings.java:89-91 | a first line whose length is not 3 raises SettingsException |
| SettingsFile.ParsedFlags | src/Settings.java:92-94 | player j is active iff character j of the first line is '1' |
| SettingsFile.NonIntegerRefused | src/Settings.java:96-110 | a non-integer on lines 2–6 raises NumberFormatException, not SettingsException |
| SettingsFile.ApplyFromBadInt | src/Settings.java:86-112 | the loop stops at the first line that fails to parse, with NumberFormatException |
| JavaText.ParseInt | src/Settings.java:97 | Integer.parseInt: a 32-bit value, and NumberFormatException for the empty string or text with no digit |
| JavaText.ParseIntToString | src/Settings.java:132-136 | parseInt reads back every 32-bit int as printed |
| JavaText.DigitsRoundTrip | src/Settings.java:132-136 | the decimal digits of n read back as n |
| JavaText.CompareZeroIffEqual | src/City.java:100-102 | String.compareTo is 0 exactly on equal strings |
| JavaText.CompareAntisymmetric | src/City.java:100-102 | String.compareTo flips sign when its arguments are swapped |
| JavaText.StrLessTransitive | src/Game.java:262 | the name order is transitive |
| JavaText.StrLeTotalTransitive | src/Game.java:262 | the name order is total and transitive |

## Left out

- The Swing front end (src/GUI.java), `Game.clickCity`, colours, display names beyond the sort key, pixel positions (`putPosition`/`getPosition`) and every `toString` format except that of `Settings`.
- File I/O:
  - `Game.fromFile` and the `Game.addRoads(String, String, int)` overload it uses. Missing names would make that overload throw a NullPointerException.
  - `Settings.save` is left out, so the setters are plain field updates.
  - The constructor's read of settings.dat is the parameter `stored` of `Games.Game.Create` (`None` when the file cannot be read, which leads to the defaults as the IOException handler does).
- `Settings(boolean[], ...)` is not modelled, and so neither is the aliasing of a caller's flag array.
- `java.util.Random`'s algorithm and seeding:
  - The raw numbers are a parameter: `streamOf(seed)` for `new Random(seed)`.
  - A draw past the end of the supplied numbers reads 0.
  - `nextInt(n)` is the raw number modulo n. That keeps its range and its exception, but not Java's rejection loop or its distribution.
  - The statistical properties (means, robbery frequencies, "every value is hit") are not modelled.
- `Game()` without a seed, which draws the seed from `Math.random`, is not modelled.
- Floating point: the smart player's path value (`valueFrom`/`valueTo` with `Math.pow` and impulsiveness 1.10) and the greedy player's ratio are exact reals. Rounding ties between doubles are not modelled.
- Java's 32-bit `int` arithmetic:
  - Money, values, tolls, lengths and the step counter are unbounded integers.
  - `Road.compareTo`'s `length - o.length` and the toll product could overflow in Java; the model does not.
  - The settings fields are 32-bit only where the text format needs it (`Storable`).
- Worlds where two different cities share a name, whether in one country or in two. `City.compareTo`, and so the TreeMap, goes by name alone. `Road.compareTo` first asks `City.equals`, which also compares the country (src/Road.java:51-59). Two roads whose from-cities share a name but are not equal therefore compare 0 in Java, and `TreeSet.add` drops the second one. The model orders each road set by (from name, to name, length) and keeps both. The two orders agree whenever same-named cities are equal (`Network.RoadCompareIsKeyOrder`).
- Network.InsertRoad: keeps a road that Java's `TreeSet.add` drops when its from-city shares a name with, but is not equal to, the from-city of a road already in the set (see the line above).
- Network.Country.AddRoads: stores roads by the model's road-set order, so with two different same-named cities it can keep a road that Java drops (see above).
- Network.WithRoadsLookup: states the road sets in the model's road-set order. With two different same-named cities, Java can drop a road that this contract keeps (see above).
- Games.Game.AddRoads: every country's road sets follow the model's order, so with two different same-named cities anywhere in the game a country can keep a road that Java drops (see above).
- Games.Game.AddRoadsEach: the same as Games.Game.AddRoads, per listed country.
- Games.Game.AddRoadsTo: the same as Games.Game.AddRoads, for one country.
- `Country.setGame`/`getGame`: every country shares the game's generator and settings, which the model passes as parameters.
- `PlayerPath`'s back reference to its player is not modelled.
- Games.Game.AddCountry: requires that the new country's network already lies within the game's cities. The model keeps the world of countries and cities closed, and that invariant needs this.
- Games.Game.AddRoads: requires both cities to belong to the game. The source would store roads to cities outside the game.
- Games.Game.SetGUIPlayer: requires a player not yet listed and standing within the game's cities. This keeps the invariant that each player is listed once and stands within the game.
- Games.Game.AddPlayer: the same requirement as SetGUIPlayer. This member stands for `getPlayers().add(...)`.
- Games.Game.Reset: the placement of each player is stated through `StartAt`, the j-th pair of draws on the new generator, not through `getRandomStartingPosition` calls on the updated object.
- Games.Game.Step: states money ≥ 0 and the untouched inactive players. It does not state each active player's exact gain; `Games.Game.TakeTurn` states that for one player. A throw is tied only to some running player whose kind may throw (`Players.MayThrow`): which player threw, and what its step result was, is stated per player by `Games.Game.Move`, not for the whole loop.
- Games.Game.Play: the same as Step for a throw.
- Games.Game.TakeTurns: the same as Step for a throw.
- Games.Game.TurnOf: a throw is tied to the stepped player's kind through `Players.MayThrow`; the exact outcome is stated by `Games.Game.Move`.
- Games.Game.ResetPlayer: when the start draw throws, its contract does not state where the generator is left. `Games.Game.GetRandomStartingPosition`, which it calls, states it (`FailedStart`), and so does `Games.Game.DrawCity`; `Games.Game.Reset` likewise says nothing about the generator after a throw.
- Games.Game.Move: a step that throws leaves the game's generator where it was before the step, because the failure carries no generator. Java has by then taken the draws made before the throw: the mafia robbery draw before `getLoss` throws, or the arrival bonus before the random player's `nextInt(0)`. `Games.Game.TakeTurn`, `Games.Game.TurnOf`, `Games.Game.Step`, `Games.Game.Play` and `Games.Game.TakeTurns` pass this on. Move does not restate the player's new position; `Games.Game.PlayerStep`, the call it makes before the generator moves on, states it through `Players.PolicyTarget`.
- JavaText.ParseInt: accepts ASCII digits only, while `Integer.parseInt` also takes other Unicode decimal digits. String lengths, such as the length of the flag line that the settings parser checks, count characters rather than UTF-16 code units. Likewise `String.compareTo` compares UTF-16 code units, while `JavaText.CompareStrings` compares characters (code points), so the two orders differ for names holding characters above U+FFFF.
- Players.Player.Step: a player's step also reads `stepsLeft == totalSteps` (the `setPosition` guard) and the steps left (the smart player's budget). Both are passed in as parameters.

=== FILE: game.dfy ===
/** The game: its countries (kept sorted by name), its players, the settings,
    the shared generator and the step counter. The world the game plays on is
    tracked by two ghost sets: the countries K and the cities C, closed in the
    sense of Network.Closed, with every player standing within C. */
module Games {
  import opened Results
  import opened JavaText
  import opened Sorting
  import opened Rand
  import opened SettingsFile
  import opened Revenue
  import opened Network
  import opened Players
  import opened Search

  /** Integer.MAX_VALUE, the bound of the draw that reseeds the game. */
  const MaxInt: int := 0x7fff_ffff

  /** The number of steps a new game has. */
  const InitialSteps: int := 600

  /** The sort key of Collections.sort(countries, comparing(getName)). */
  function CountryName(k: Country): string { k.name }

  /** The sort key of Player.compareTo. */
  function PlayerName(p: Player): string { DisplayName(p.kind) }

  /** Whether Game.step moves a player of this kind: AI players are skipped
      when their flag (0 random, 1 greedy, 2 smart) is off. */
  predicate Runs(k: Kind, active: seq<bool>)
    requires |active| == 3
  {
    !(k == Random && !active[0]) && !(k == Greedy && !active[1]) && !(k == Smart && !active[2])
  }

  /** The GUI player always moves; an AI player moves exactly when its own flag is on. */
  lemma RunsFlags(k: Kind, active: seq<bool>)
    requires |active| == 3
    ensures k == Gui ==> Runs(k, active)
    ensures k == Random ==> (Runs(k, active) <==> active[0])
    ensures k == Greedy ==> (Runs(k, active) <==> active[1])
    ensures k == Smart ==> (Runs(k, active) <==> active[2])
  {
  }

  /** Game.getRandom: one draw r in [0, |s|), then the element the iteration
      reaches at index r; on an empty collection nextInt throws. */
  method GetRandom<T>(s: seq<T>, g: Rng) returns (r: Result<(T, Rng)>)
    ensures r.Failure? <==> s == []
    ensures r.Failure? ==> r.error == IllegalArgument
    ensures r.Success? ==> r.value.1 == Advance(g) && r.value.0 == s[NextInt(g, |s|).value.amount]
  {
    var d := NextInt(g, |s|);
    if d.Failure? {
      return Failure(d.error);
    }
    return Success((s[d.value.amount], d.value.rest));
  }

  /** The registered cities of each country, in the countries' order. */
  function CityLists(ks: seq<Country>): (cs: seq<seq<City>>)
    reads ks
    ensures |cs| == |ks|
  {
    if ks == [] then [] else [ks[0].Cities()] + CityLists(ks[1..])
  }

  /** The i-th list holds the cities of the i-th country. */
  lemma {:induction false} CityListsAt(ks: seq<Country>, i: nat)
    requires i < |ks|
    ensures CityLists(ks)[i] == ks[i].Cities()
  {
    if i > 0 {
      CityListsAt(ks[1..], i - 1);
    }
  }

  /** The city getRandomStartingPosition stands a player in, given the
      cities of each country: a random country, then a random registered city
      of it; with the generator after those two draws. */
  function StartCity(cs: seq<seq<City>>, g: Rng): (r: Result<(City, Rng)>)
    ensures r.Failure? ==> r.error == IllegalArgument
    ensures cs == [] ==> r.Failure?
    ensures r.Success? ==> r.value.1 == Advance(Advance(g)) && exists i :: 0 <= i < |cs| && r.value.0 in cs[i]
  {
    var d :- NextInt(g, |cs|);
    var cities := cs[d.amount];
    var e :- NextInt(d.rest, |cities|);
    Success((cities[e.amount], e.rest))
  }

  /** The drawn country decides: the draw fails exactly when it has no registered city. */
  lemma StartCityFails(cs: seq<seq<City>>, g: Rng)
    requires cs != []
    ensures StartCity(cs, g).Failure? <==> cs[NextInt(g, |cs|).value.amount] == []
  {
  }

  /** The generator after a start that throws: nextInt(0) on an empty
      country list draws nothing, so only a drawn country without cities
      leaves one draw used. */
  function FailedStart(cs: seq<seq<City>>, g: Rng): (h: Rng)
    ensures h.stream == g.stream && g.used <= h.used <= g.used + 1
    ensures cs != [] ==> h == NextInt(g, |cs|).value.rest
  {
    if cs == [] then g else Advance(g)
  }

  /** The starting cities of n players drawn one after the other, and the
      generator after them. */
  function Starts(cs: seq<seq<City>>, g: Rng, n: nat): (r: Result<(seq<City>, Rng)>)
    ensures r.Success? ==> |r.value.0| == n
  {
    if n == 0 then Success(([], g))
    else
      var before :- Starts(cs, g, n - 1);
      var next :- StartCity(cs, before.1);
      Success((before.0 + [next.0], next.1))
  }

  /** Starting n players takes exactly 2n draws and puts every one of them in
      a registered city of some country; once a draw fails, starting more
      players fails too. */
  lemma {:induction false} StartsSpec(cs: seq<seq<City>>, g: Rng, n: nat)
    ensures Starts(cs, g, n).Success? ==>
              Starts(cs, g, n).value.1 == Rng(g.stream, g.used + 2 * n) &&
              forall i :: 0 <= i < n ==> exists j :: 0 <= j < |cs| && Starts(cs, g, n).value.0[i] in cs[j]
    ensures n > 0 && Starts(cs, g, n - 1).Failure? ==> Starts(cs, g, n).Failure?
  {
    if n > 0 {
      StartsSpec(cs, g, n - 1);
      var r := Starts(cs, g, n);
      if r.Success? {
        var before := Starts(cs, g, n - 1).value;
        assert forall i :: 0 <= i < n - 1 ==> r.value.0[i] == before.0[i];
      }
    }
  }

  lemma {:induction false} StartsFailureGrows(cs: seq<seq<City>>, g: Rng, m: nat, n: nat)
    requires m <= n && Starts(cs, g, m).Failure?
    ensures Starts(cs, g, n).Failure?
    decreases n - m
  {
    if m < n {
      StartsSpec(cs, g, m + 1);
      StartsFailureGrows(cs, g, m + 1, n);
    }
  }

  /** The j-th of several starts drawn one after the other: every start
      takes exactly two draws, so it is drawn after 2j of them. */
  function StartAt(cs: seq<seq<City>>, g: Rng, j: nat): Result<(City, Rng)>
  {
    StartCity(cs, Rng(g.stream, g.used + 2 * j))
  }

  /** Drawn one after the other, the n starts are the starts taken after 2j
      draws, and the generator ends 2n draws on. */
  lemma {:induction false} StartsAtSuccess(cs: seq<seq<City>>, g: Rng, n: nat)
    requires Starts(cs, g, n).Success?
    ensures Starts(cs, g, n).value.1 == Rng(g.stream, g.used + 2 * n)
    ensures forall j :: 0 <= j < n ==> StartAt(cs, g, j).Success? && Starts(cs, g, n).value.0[j] == StartAt(cs, g, j).value.0
  {
    if n > 0 {
      var before := Starts(cs, g, n - 1);
      StartsAtSuccess(cs, g, n - 1);
      assert StartCity(cs, before.value.1) == StartAt(cs, g, n - 1);
    }
  }

  /** When drawing n starts fails, one of the starts taken after 2j draws fails. */
  lemma {:induction false} StartsAtFailure(cs: seq<seq<City>>, g: Rng, n: nat)
    requires Starts(cs, g, n).Failure?
    ensures exists j :: 0 <= j < n && StartAt(cs, g, j).Failure?
  {
    var before := Starts(cs, g, n - 1);
    if before.Failure? {
      StartsAtFailure(cs, g, n - 1);
    } else {
      StartsAtSuccess(cs, g, n - 1);
      assert StartCity(cs, before.value.1) == StartAt(cs, g, n - 1);
    }
  }

  /** Drawing n starts one after the other succeeds exactly when each of the
      n starts taken after 2j draws does, and yields those cities in order. */
  lemma StartsAtEach(cs: seq<seq<City>>, g: Rng, n: nat)
    ensures Starts(cs, g, n).Success? <==> forall j :: 0 <= j < n ==> StartAt(cs, g, j).Success?
    ensures Starts(cs, g, n).Success? ==>
              Starts(cs, g, n).value.1 == Rng(g.stream, g.used + 2 * n) &&
              forall j :: 0 <= j < n ==> Starts(cs, g, n).value.0[j] == StartAt(cs, g, j).value.0
  {
    if Starts(cs, g, n).Success? {
      StartsAtSuccess(cs, g, n);
    } else {
      StartsAtFailure(cs, g, n);
    }
  }

  /** The two draws of getRandomStartingPosition: a random country of the
      list, then a random registered city of it; `after` is the generator
      past the draws taken, also when the city draw throws. */
  method DrawStart(ks: seq<Country>, ghost lists: seq<seq<City>>, g: Rng) returns (r: Result<(Country, City, Rng)>, after: Rng)
    requires lists == CityLists(ks)
    ensures var s := StartCity(lists, g);
            (r.Success? <==> s.Success?) &&
            (s.Success? ==> r.value.0 in ks && r.value.1 in r.value.0.Cities() && r.value.1 == s.value.0 && after == r.value.2 == s.value.1) &&
            (s.Failure? ==> r.error == s.error && after == FailedStart(lists, g))
  {
    var k := GetRandom(ks, g);
    if k.Failure? {
      return Failure(k.error), g;
    }
    var country := k.value.0;
    CityListsAt(ks, NextInt(g, |ks|).value.amount);
    var c := GetRandom(country.Cities(), k.value.1);
    if c.Failure? {
      return Failure(c.error), k.value.1;
    }
    return Success((country, c.value.0, c.value.1)), c.value.1;
  }

  /** getCity over the country list: the first country's city of that name. */
  function FindCity(ks: seq<Country>, name: string): (r: Option<City>)
    reads ks
    ensures r.Some? ==> r.value.name == name && exists k :: k in ks && r.value in k.Cities()
    ensures r.None? <==> forall k :: k in ks ==> k.GetCity(name).None?
  {
    if ks == [] then None
    else if ks[0].GetCity(name).Some? then ks[0].GetCity(name)
    else FindCity(ks[1..], name)
  }

  /** The index of the first country with the given name. */
  function FirstNamed(ks: seq<Country>, n: string): (r: Option<nat>)
    ensures r.Some? ==> r.value < |ks| && ks[r.value].name == n && forall j :: 0 <= j < r.value ==> ks[j].name != n
    ensures r.None? <==> forall k :: k in ks ==> k.name != n
  {
    if ks == [] then None
    else if ks[0].name == n then Some(0)
    else
      match FirstNamed(ks[1..], n)
      case None => None
      case Some(i) => Some(i + 1)
  }

  /** The world K, C is closed and the listed countries belong to it with valid networks. */
  ghost predicate WorldValid(K: set<Country>, C: set<City>, ks: seq<Country>)
    reads K
  {
    Closed(K, C) && forall k :: k in ks ==> k in K && k.Valid()
  }

  /** No player is listed twice and every player stands within C. */
  ghost predicate PlayersIn(ps: seq<Player>, C: set<City>)
    reads ps, set p | p in ps :: p.pos
  {
    Distinct(ps) && forall p :: p in ps ==> p.Placed(C)
  }

  /** The invariant of a game, on the values of its fields: the settings hold
      three flags, the world is valid and the players stand within it. */
  ghost predicate GameValid(s: Settings, K: set<Country>, C: set<City>, ks: seq<Country>, ps: seq<Player>)
    reads s, K, ps, set p | p in ps :: p.pos
  {
    s.Valid() && WorldValid(K, C, ks) && PlayersIn(ps, C)
  }

  /** A player as reset leaves it: no money, standing at the city. */
  ghost predicate Started(p: Player, c: City)
    reads p, p.pos
  {
    p.money == 0 && p.pos.State() == AtCity(c)
  }

  /** Players within C stay within a larger world. */
  lemma PlayersInGrows(ps: seq<Player>, C: set<City>, D: set<City>)
    requires PlayersIn(ps, C) && C <= D
    ensures PlayersIn(ps, D)
  {
  }

  class Game {
    var countries: seq<Country>
    var players: seq<Player>
    var guiPlayer: Option<Player>
    var settings: Settings
    var rng: Rng
    var seed: int
    var totalSteps: int
    var stepsLeft: int
    var aborted: bool
    /** The raw numbers new Random(seed) produces, for every seed. */
    const streamOf: int -> seq<nat>
    /** The countries and the cities of the world. */
    ghost var K: set<Country>
    ghost var C: set<City>

    /** The world is closed, the game's countries belong to it and keep valid
        networks, no player is listed twice and every player stands in it. */
    ghost predicate Valid()
      reads this, settings, K, players, set p | p in players :: p.pos
    {
      GameValid(settings, K, C, countries, players)
    }

    /** The players, as a set. */
    ghost function Players(): set<Player>
      reads this
    {
      set q | q in players
    }

    /** The positions the players stand on. */
    ghost function Positions(): set<Position>
      reads this, players
    {
      set p | p in players :: p.pos
    }

    /** The active flags of the settings. */
    function Flags(): seq<bool>
      reads this, settings, settings.activePlayers
    {
      settings.Data().active
    }

    /** The cities the players whose kind runs under flags are heading for:
        the only cities whose value a step can change. */
    ghost function Destinations(flags: seq<bool>): set<City>
      requires |flags| == 3
      reads this, players, Positions()
    {
      set q | q in players && Runs(q.kind, flags) :: q.pos.to
    }

    /** Game(seed): the generator seeded with `seed`, no countries or
        players, 600 steps, and the given settings. */
    constructor (seed: int, streamOf: int -> seq<nat>, s: Settings)
      requires s.Valid()
      ensures Valid()
      ensures countries == [] && players == [] && guiPlayer == None && settings == s
      ensures this.seed == seed && this.streamOf == streamOf && rng == Rng(streamOf(seed), 0)
      ensures totalSteps == InitialSteps && stepsLeft == InitialSteps && !aborted
    {
      this.seed := seed;
      this.streamOf := streamOf;
      rng := Rng(streamOf(seed), 0);
      countries := [];
      players := [];
      guiPlayer := None;
      settings := s;
      totalSteps := InitialSteps;
      stepsLeft := InitialSteps;
      aborted := false;
      K := {};
      C := {};
    }

    /** new Game(seed) with the text of settings.dat, or None when it cannot
        be read: settings of the wrong shape fall back to the defaults, but
        a number that does not parse makes the construction throw. */
    static method Create(seed: int, streamOf: int -> seq<nat>, stored: Option<string>) returns (r: Result<Game>)
      ensures r.Failure? <==> stored.Some? && ParseFields(stored.value) == Failure(NumberFormat)
      ensures r.Failure? ==> r.error == NumberFormat
      ensures r.Success? ==> fresh(r.value) && fresh(r.value.settings) && r.value.Valid()
      ensures r.Success? ==> r.value.countries == [] && r.value.players == [] && r.value.guiPlayer == None
      ensures r.Success? ==> r.value.seed == seed && r.value.streamOf == streamOf && r.value.rng == Rng(streamOf(seed), 0)
      ensures r.Success? ==> r.value.totalSteps == InitialSteps && r.value.stepsLeft == InitialSteps && !r.value.aborted
      ensures r.Success? && stored.Some? && ParseFields(stored.value).Success? ==> r.value.settings.Data() == ParseFields(stored.value).value
      ensures r.Success? && !(stored.Some? && ParseFields(stored.value).Success?) ==> r.value.settings.Data() == Defaults
    {
      var s: Settings;
      if stored.Some? {
        var parsed := Settings.Parse(stored.value);
        if parsed.Success? {
          s := parsed.value;
        } else if parsed.error == NumberFormat {
          return Failure(NumberFormat);
        } else {
          s := new Settings();
        }
      } else {
        s := new Settings();
      }
      var game := new Game(seed, streamOf, s);
      return Success(game);
    }

    /** abort. */
    method Abort()
      modifies this
      ensures aborted && stepsLeft == old(stepsLeft) && !Ongoing()
      ensures countries == old(countries) && players == old(players) && guiPlayer == old(guiPlayer) && settings == old(settings)
      ensures rng == old(rng) && seed == old(seed) && totalSteps == old(totalSteps) && K == old(K) && C == old(C)
    {
      aborted := true;
    }

    /** ongoing: neither aborted nor out of steps. */
    predicate Ongoing()
      reads this
    {
      !aborted && stepsLeft != 0
    }

    function GetStepsLeft(): int
      reads this
    {
      stepsLeft
    }

    function GetTotalSteps(): int
      reads this
    {
      totalSteps
    }

    /** setTotalSteps: takes effect at the next reset. */
    method SetTotalSteps(totalSteps: int)
      modifies this
      ensures this.totalSteps == totalSteps && stepsLeft == old(stepsLeft) && aborted == old(aborted)
      ensures countries == old(countries) && players == old(players) && guiPlayer == old(guiPlayer) && settings == old(settings)
      ensures rng == old(rng) && seed == old(seed) && K == old(K) && C == old(C)
    {
      this.totalSteps := totalSteps;
    }

    /** getLoss: minLoss plus one draw in [0, maxLoss - minLoss]. */
    method GetLoss() returns (r: Result<int>)
      modifies this
      ensures var l := Loss(settings.Data(), old(rng));
              (r.Success? <==> l.Success?) &&
              (l.Success? ==> r.value == l.value.amount && rng == l.value.rest) &&
              (l.Failure? ==> r.error == l.error && rng == old(rng))
      ensures r.Success? ==> settings.Data().minLoss <= r.value <= settings.Data().maxLoss
      ensures countries == old(countries) && players == old(players) && guiPlayer == old(guiPlayer) && settings == old(settings)
      ensures seed == old(seed) && totalSteps == old(totalSteps) && stepsLeft == old(stepsLeft) && aborted == old(aborted)
      ensures K == old(K) && C == old(C)
    {
      var l := Loss(settings.Data(), rng);
      if l.Failure? {
        return Failure(l.error);
      }
      rng := l.value.rest;
      return Success(l.value.amount);
    }

    /** addCountry: the country joins the list, which is sorted again by name.
        Its roads may only lead to cities of the world. */
    method AddCountry(c: Country)
      requires Valid() && c.Valid() && NetworkIn(c.network, C)
      modifies this
      ensures Valid()
      ensures countries == SortBy(old(countries) + [c], CountryName)
      ensures SortedBy(countries, CountryName) && multiset(countries) == multiset(old(countries)) + multiset{c}
      ensures K == old(K) + {c} && C == old(C)
      ensures players == old(players) && settings == old(settings) && rng == old(rng) && stepsLeft == old(stepsLeft)
      ensures guiPlayer == old(guiPlayer) && seed == old(seed) && totalSteps == old(totalSteps) && aborted == old(aborted)
    {
      var ks := SortBy(countries + [c], CountryName);
      SortBySorted(countries + [c], CountryName);
      WorldJoins(K, C, countries, c, ks);
      countries := ks;
      K := K + {c};
    }

    /** addCity: a new plain city of that name and value in the first country
        whose name equals the trimmed argument; nothing when there is none. */
    method AddCity(name: string, value: int, country: string) returns (ghost added: Option<City>)
      requires Valid()
      modifies this, countries
      ensures Valid()
      ensures countries == old(countries) && players == old(players) && K == old(K) && settings == old(settings)
      ensures rng == old(rng) && stepsLeft == old(stepsLeft)
      ensures guiPlayer == old(guiPlayer) && seed == old(seed) && totalSteps == old(totalSteps) && aborted == old(aborted)
      ensures match FirstNamed(countries, Trim(country))
              case None =>
                added == None && C == old(C) && forall k :: k in countries ==> k.network == old(k.network)
              case Some(i) =>
                added.Some? && fresh(added.value) && C == old(C) + {added.value} &&
                added.value.name == name && added.value.value == value && added.value.initialValue == value &&
                added.value.country == countries[i] && added.value.kind == Plain &&
                countries[i].network == PutCity(old(countries[i].network), added.value) &&
                forall k :: k in countries && k != countries[i] ==> k.network == old(k.network)
    {
      var found := CountryIndex(Trim(country));
      if found.None? {
        return None;
      }
      var k := countries[found.value];
      var city := new City(name, value, k, Plain);
      AddCityTo(k, city);
      return Some(city);
    }

    /** The loop of addCity over the countries: the index of the first one
        with the given name. */
    method CountryIndex(t: string) returns (r: Option<nat>)
      ensures r == FirstNamed(countries, t)
    {
      var i := 0;
      while i < |countries|
        invariant 0 <= i <= |countries|
        invariant forall j :: 0 <= j < i ==> countries[j].name != t
      {
        if countries[i].name == t {
          assert FirstNamed(countries, t) == Some(i);
          return Some(i);
        }
        i := i + 1;
      }
      return None;
    }

    /** Country.addCity on a country of the game, with the city joining the world. */
    method AddCityTo(k: Country, city: City)
      requires Valid() && k in countries && city.country == k && city !in C
      modifies this, k
      ensures Valid()
      ensures countries == old(countries) && players == old(players) && K == old(K) && settings == old(settings)
      ensures rng == old(rng) && stepsLeft == old(stepsLeft)
      ensures guiPlayer == old(guiPlayer) && seed == old(seed) && totalSteps == old(totalSteps) && aborted == old(aborted)
      ensures C == old(C) + {city} && k.network == PutCity(old(k.network), city)
    {
      ghost var C0 := C;
      ghost var before := k.network;
      assert forall x :: x in K ==> NetworkIn(x.network, C0);
      k.AddCity(city);
      C := C + {city};
      NetworkInGrows(before, C0, C);
      PutCityIn(before, city, C);
      forall x | x in K && x != k
        ensures NetworkIn(x.network, C)
      {
        assert x.network == old(x.network);
        NetworkInGrows(x.network, C0, C);
      }
      ClosedAfterChange(K, C, k);
      PlayersInGrows(players, C0, C);
      assert WorldValid(K, C, countries);
    }

    /** getCity: the city of that name in the first country holding one. */
    method GetCity(name: string) returns (city: Option<City>)
      ensures city == FindCity(countries, name)
    {
      var i := 0;
      while i < |countries|
        invariant 0 <= i <= |countries|
        invariant FindCity(countries, name) == FindCity(countries[i..], name)
      {
        var c := countries[i].GetCity(name);
        if c.Some? {
          return c;
        }
        assert countries[i..][1..] == countries[i + 1..];
        i := i + 1;
      }
      return None;
    }

    /** addRoads(City, City, int): every country adds the two roads. */
    method AddRoads(a: City, b: City, length: int)
      requires Valid() && a in C && b in C
      modifies countries
      ensures Valid()
      ensures forall k :: k in countries ==> k.network == WithRoads(old(k.network), a, b, length)
    {
      AddRoadsEach(a, b, length);
    }

    /** The loop of addRoads: Country.addRoads on every country in turn. */
    method AddRoadsEach(a: City, b: City, length: int)
      requires WorldValid(K, C, countries) && a in C && b in C
      modifies countries
      ensures WorldValid(K, C, countries)
      ensures forall k :: k in countries ==> k.network == WithRoads(old(k.network), a, b, length)
    {
      ghost var nets := map x | x in countries :: x.network;
      ghost var done: set<Country> := {};
      for i := 0 to |countries|
        invariant WorldValid(K, C, countries)
        invariant forall j :: 0 <= j < i ==> countries[j] in done
        invariant forall x :: x in countries ==> NetworkValid(nets[x])
        invariant forall x :: x in countries ==>
                    x.network == if x in done then WithRoads(nets[x], a, b, length) else nets[x]
      {
        var k := countries[i];
        ghost var pre := map x | x in countries :: x.network;
        AddRoadsTo(k, a, b, length);
        RoadsAddedTo(i, done, nets, pre, a, b, length);
        done := done + {k};
      }
    }

    /** One more country of the loop of addRoads has its roads: a country
        already done keeps WithRoads by idempotence, and the rest are untouched. */
    lemma RoadsAddedTo(i: nat, done: set<Country>, nets: map<Country, seq<Entry>>,
                       pre: map<Country, seq<Entry>>, a: City, b: City, length: int)
      requires i < |countries| && forall j :: 0 <= j < i ==> countries[j] in done
      requires forall x :: x in countries ==> x in nets && x in pre && NetworkValid(nets[x])
      requires forall x :: x in countries ==>
                 pre[x] == if x in done then WithRoads(nets[x], a, b, length) else nets[x]
      requires forall x :: x in countries && x != countries[i] ==> x.network == pre[x]
      requires countries[i].network == WithRoads(pre[countries[i]], a, b, length)
      ensures forall j :: 0 <= j < i + 1 ==> countries[j] in done + {countries[i]}
      ensures forall x :: x in countries ==>
                x.network == if x in done + {countries[i]} then WithRoads(nets[x], a, b, length) else nets[x]
    {
      var k := countries[i];
      if k in done {
        WithRoadsIdempotent(nets[k], a, b, length);
      }
    }

    /** Country.addRoads on one country of the world, which stays closed. */
    method AddRoadsTo(k: Country, a: City, b: City, length: int)
      requires WorldValid(K, C, countries) && k in countries && a in C && b in C
      modifies k
      ensures WorldValid(K, C, countries)
      ensures k.network == WithRoads(old(k.network), a, b, length)
    {
      ghost var before := k.network;
      assert NetworkIn(before, C);
      assert forall x :: x in K ==> NetworkIn(x.network, C);
      k.AddRoads(a, b, length);
      WithRoadsIn(before, a, b, length, C);
      ClosedAfterChange(K, C, k);
    }

    /** setGUIPlayer: the player becomes the GUI player and joins the list. */
    method SetGUIPlayer(p: Player)
      requires Valid() && p.kind == Gui && p !in players && p.Placed(C)
      modifies this
      ensures Valid()
      ensures guiPlayer == Some(p) && players == old(players) + [p]
      ensures countries == old(countries) && rng == old(rng) && stepsLeft == old(stepsLeft)
      ensures settings == old(settings) && seed == old(seed) && totalSteps == old(totalSteps) && aborted == old(aborted)
      ensures K == old(K) && C == old(C)
    {
      guiPlayer := Some(p);
      players := players + [p];
    }

    /** getPlayers().add(p): an AI player joins the list. */
    method AddPlayer(p: Player)
      requires Valid() && p !in players && p.Placed(C)
      modifies this
      ensures Valid()
      ensures players == old(players) + [p] && guiPlayer == old(guiPlayer)
      ensures countries == old(countries) && rng == old(rng) && stepsLeft == old(stepsLeft)
      ensures settings == old(settings) && seed == old(seed) && totalSteps == old(totalSteps) && aborted == old(aborted)
      ensures K == old(K) && C == old(C)
    {
      players := players + [p];
    }

    /** getRandomStartingPosition: standing at the city StartCity draws from
        the cities of the countries. */
    method GetRandomStartingPosition(ghost lists: seq<seq<City>>) returns (r: Result<Position>)
      requires Valid() && lists == CityLists(countries)
      modifies this
      ensures Valid() && lists == CityLists(countries)
      ensures var s := StartCity(lists, old(rng));
              (r.Success? <==> s.Success?) &&
              (s.Success? ==> fresh(r.value) && r.value.State() == AtCity(s.value.0) && s.value.0 in C && rng == s.value.1) &&
              (s.Failure? ==> r.error == s.error && rng == FailedStart(lists, old(rng)))
      ensures countries == old(countries) && players == old(players) && settings == old(settings)
      ensures K == old(K) && C == old(C) && stepsLeft == old(stepsLeft) && totalSteps == old(totalSteps)
      ensures aborted == old(aborted) && seed == old(seed) && guiPlayer == old(guiPlayer)
    {
      var d := DrawCity(lists);
      if d.Failure? {
        return Failure(d.error);
      }
      var (country, city) := d.value;
      ClosedKeys(K, C, country);
      var p := country.Position(city);
      return Success(p);
    }

    /** The two draws of getRandomStartingPosition on the game's generator. */
    method DrawCity(ghost lists: seq<seq<City>>) returns (r: Result<(Country, City)>)
      requires Valid() && lists == CityLists(countries)
      modifies this
      ensures Valid() && lists == CityLists(countries)
      ensures var s := StartCity(lists, old(rng));
              (r.Success? <==> s.Success?) &&
              (s.Success? ==> r.value.0 in K && r.value.1 in r.value.0.Cities() && r.value.1 == s.value.0 && rng == s.value.1) &&
              (s.Failure? ==> r.error == s.error && rng == FailedStart(lists, old(rng)))
      ensures countries == old(countries) && players == old(players) && settings == old(settings)
      ensures K == old(K) && C == old(C) && stepsLeft == old(stepsLeft) && totalSteps == old(totalSteps)
      ensures aborted == old(aborted) && seed == old(seed) && guiPlayer == old(guiPlayer)
    {
      var d, after := DrawStart(countries, lists, rng);
      rng := after;
      if d.Failure? {
        return Failure(d.error);
      }
      return Success((d.value.0, d.value.1));
    }

    /** reset: reseed from one draw in [0, MAX_VALUE), restore the steps and
        the abort flag, reset every country, sort the players, and give each
        in turn money 0 and a random starting position, the j-th drawn after
        2j draws of the new generator. */
    method Reset() returns (r: Outcome)
      requires Valid()
      modifies this, C, Players()
      ensures Valid()
      ensures countries == old(countries) && K == old(K) && C == old(C) && settings == old(settings)
      ensures totalSteps == old(totalSteps) && stepsLeft == totalSteps && !aborted && guiPlayer == old(guiPlayer)
      ensures seed == NextInt(old(rng), MaxInt).value.amount
      ensures players == SortBy(old(players), PlayerName)
      ensures forall k :: k in countries ==> forall c :: c in k.KeyCities() ==> c.value == c.initialValue
      ensures forall c :: c in C && (forall k :: k in countries ==> c !in k.KeyCities()) ==> c.value == old(c.value)
      ensures var g := Rng(streamOf(seed), 0);
              (r.Pass? <==> forall j :: 0 <= j < |players| ==> StartAt(CityLists(countries), g, j).Success?) &&
              (r.Pass? ==>
                 rng == Rng(g.stream, 2 * |players|) &&
                 forall j :: 0 <= j < |players| ==> Started(players[j], StartAt(CityLists(countries), g, j).value.0))
      ensures forall q :: q in old(players) ==> q.choices == old(q.choices)
    {
      ghost var qs := Players();
      Reseed();
      r := Restart(qs);
    }

    /** The rest of reset once the generator is reseeded: every country
        reset, then the players placed. */
    method Restart(ghost qs: set<Player>) returns (r: Outcome)
      requires Valid() && stepsLeft == totalSteps && Players() <= qs
      modifies this, C, qs
      ensures Valid()
      ensures countries == old(countries) && K == old(K) && C == old(C) && settings == old(settings)
      ensures totalSteps == old(totalSteps) && stepsLeft == old(stepsLeft) && aborted == old(aborted) && seed == old(seed) && guiPlayer == old(guiPlayer)
      ensures players == SortBy(old(players), PlayerName)
      ensures forall k :: k in countries ==> forall c :: c in k.KeyCities() ==> c.value == c.initialValue
      ensures var g := old(rng);
              (r.Pass? <==> forall j :: 0 <= j < |players| ==> StartAt(CityLists(countries), g, j).Success?) &&
              (r.Pass? ==>
                 rng == Rng(g.stream, g.used + 2 * |players|) &&
                 forall j :: 0 <= j < |players| ==> Started(players[j], StartAt(CityLists(countries), g, j).value.0))
      ensures forall q :: q in old(players) ==> q.choices == old(q.choices)
      ensures forall c :: c in C && (forall k :: k in countries ==> c !in k.KeyCities()) ==> c.value == old(c.value)
    {
      ResetCountries(K, C, countries);
      r := PlacePlayers(qs);
    }

    /** The player part of reset: the players sorted by name, then each
        started in turn from the generator as it stands. */
    method PlacePlayers(ghost qs: set<Player>) returns (r: Outcome)
      requires Valid() && stepsLeft == totalSteps && Players() <= qs
      modifies this, qs
      ensures Valid()
      ensures countries == old(countries) && K == old(K) && C == old(C) && settings == old(settings)
      ensures totalSteps == old(totalSteps) && stepsLeft == old(stepsLeft) && aborted == old(aborted) && seed == old(seed) && guiPlayer == old(guiPlayer)
      ensures players == SortBy(old(players), PlayerName)
      ensures var g := old(rng);
              (r.Pass? <==> forall j :: 0 <= j < |players| ==> StartAt(CityLists(countries), g, j).Success?) &&
              (r.Pass? ==>
                 rng == Rng(g.stream, g.used + 2 * |players|) &&
                 forall j :: 0 <= j < |players| ==> Started(players[j], StartAt(CityLists(countries), g, j).value.0))
      ensures forall q :: q in old(players) ==> q.choices == old(q.choices)
    {
      SortPlayers();
      forall j | 0 <= j < |players|
        ensures players[j] in qs
      {
        assert players[j] in players;
        assert players[j] in old(Players());
      }
      r := ResetPlayers(qs);
    }

    /** The first lines of reset: the new seed drawn from the old generator,
        a generator seeded with it, the steps restored and the abort flag cleared. */
    method Reseed()
      requires Valid()
      modifies this
      ensures Valid()
      ensures countries == old(countries) && K == old(K) && C == old(C) && settings == old(settings) && players == old(players)
      ensures totalSteps == old(totalSteps) && stepsLeft == totalSteps && !aborted && guiPlayer == old(guiPlayer)
      ensures seed == NextInt(old(rng), MaxInt).value.amount && rng == Rng(streamOf(seed), 0)
    {
      seed := NextInt(rng, MaxInt).value.amount;
      rng := Rng(streamOf(seed), 0);
      stepsLeft := totalSteps;
      aborted := false;
    }

    /** Collections.sort(players): the same players, ordered by name. */
    method SortPlayers()
      requires Valid()
      modifies this
      ensures Valid()
      ensures players == SortBy(old(players), PlayerName) && SortedBy(players, PlayerName)
      ensures forall q :: q in players <==> q in old(players)
      ensures countries == old(countries) && K == old(K) && C == old(C) && settings == old(settings)
      ensures totalSteps == old(totalSteps) && stepsLeft == old(stepsLeft) && aborted == old(aborted) && seed == old(seed) && guiPlayer == old(guiPlayer)
      ensures rng == old(rng)
      ensures Flags() == old(Flags()) && Destinations(Flags()) == old(Destinations(Flags()))
      ensures Players() == old(Players()) && Positions() == old(Positions())
    {
      var sorted := SortBy(players, PlayerName);
      SortBySorted(players, PlayerName);
      PlayersInPermuted(players, sorted, C);
      PlayersInPermuted(sorted, players, C);
      players := sorted;
      Regrouped(Flags());
    }

    /** A reordering of the same players, none of them changed, keeps the
        player set, their positions and the running players' destinations. */
    twostate lemma Regrouped(flags: seq<bool>)
      requires |flags| == 3
      requires forall q :: q in players <==> q in old(players)
      requires forall q :: q in old(players) ==> unchanged(q) && unchanged(q.pos)
      ensures Players() == old(Players()) && Positions() == old(Positions())
      ensures Destinations(flags) == old(Destinations(flags))
    {
      forall c | c in Destinations(flags)
        ensures c in old(Destinations(flags))
      {
        var q :| q in players && Runs(q.kind, flags) && q.pos.to == c;
        assert q in old(players);
      }
      forall c | c in old(Destinations(flags))
        ensures c in Destinations(flags)
      {
        var q :| q in old(players) && Runs(q.kind, flags) && q.pos.to == c;
        assert q in players;
      }
      forall x | x in old(Positions())
        ensures x in Positions()
      {
        var q :| q in old(players) && old(q.pos) == x;
        assert q in players;
      }
    }

    /** The player loop of reset, on the sorted list. */
    method ResetPlayers(ghost qs: set<Player>) returns (r: Outcome)
      requires Valid() && stepsLeft == totalSteps && forall j :: 0 <= j < |players| ==> players[j] in qs
      modifies this, qs
      ensures Valid()
      ensures countries == old(countries) && K == old(K) && C == old(C) && settings == old(settings) && players == old(players)
      ensures totalSteps == old(totalSteps) && stepsLeft == old(stepsLeft) && aborted == old(aborted) && seed == old(seed) && guiPlayer == old(guiPlayer)
      ensures var g := old(rng);
              (r.Pass? <==> forall j :: 0 <= j < |players| ==> StartAt(CityLists(countries), g, j).Success?) &&
              (r.Pass? ==>
                 rng == Rng(g.stream, g.used + 2 * |players|) &&
                 forall j :: 0 <= j < |players| ==> Started(players[j], StartAt(CityLists(countries), g, j).value.0))
      ensures forall j :: 0 <= j < |players| ==> players[j].choices == old(players[j].choices)
    {
      ghost var g0 := rng;
      ghost var lists := CityLists(countries);
      for i := 0 to |players|
        invariant Valid()
        invariant countries == old(countries) && K == old(K) && C == old(C) && settings == old(settings) && players == old(players)
        invariant totalSteps == old(totalSteps) && stepsLeft == old(stepsLeft) && aborted == old(aborted) && seed == old(seed) && guiPlayer == old(guiPlayer)
        invariant CityLists(countries) == lists
        invariant rng == Rng(g0.stream, g0.used + 2 * i)
        invariant StartedUpTo(lists, g0, i)
        invariant forall j :: 0 <= j < |players| ==> players[j].choices == old(players[j].choices)
      {
        r := ResetAt(i, lists, g0);
        if r.Fail? {
          return;
        }
      }
      return Pass;
    }

    /** The i-th player in the loop of reset, reached after 2i draws of g0:
        it starts at the i-th drawn city, and the other players keep their
        money and positions. */
    method ResetAt(i: nat, ghost lists: seq<seq<City>>, ghost g0: Rng) returns (r: Outcome)
      requires Valid() && i < |players| && stepsLeft == totalSteps && lists == CityLists(countries)
      requires rng == Rng(g0.stream, g0.used + 2 * i) && StartedUpTo(lists, g0, i)
      modifies this, players[i]
      ensures Valid()
      ensures countries == old(countries) && K == old(K) && C == old(C) && settings == old(settings) && players == old(players)
      ensures totalSteps == old(totalSteps) && stepsLeft == old(stepsLeft) && aborted == old(aborted) && seed == old(seed) && guiPlayer == old(guiPlayer)
      ensures lists == CityLists(countries)
      ensures r.Pass? <==> StartAt(lists, g0, i).Success?
      ensures r.Pass? ==> StartedUpTo(lists, g0, i + 1) && rng == Rng(g0.stream, g0.used + 2 * (i + 1))
      ensures players[i].choices == old(players[i].choices)
    {
      r := ResetPlayer(players[i], lists);
      if r.Pass? {
        forall j | 0 <= j < i
          ensures StartAt(lists, g0, j).Success? && Started(players[j], StartAt(lists, g0, j).value.0)
        {
          assert players[j] != players[i];
          assert old(Started(players[j], StartAt(lists, g0, j).value.0));
        }
      }
    }

    /** The first n players have started, the j-th at the j-th city drawn from g0. */
    ghost predicate StartedUpTo(lists: seq<seq<City>>, g0: Rng, n: nat)
      reads this, players, Positions()
    {
      n <= |players| &&
      forall j :: 0 <= j < n ==> StartAt(lists, g0, j).Success? && Started(players[j], StartAt(lists, g0, j).value.0)
    }

    /** One player in the loop of reset: money 0, then a random starting position. */
    method ResetPlayer(p: Player, ghost lists: seq<seq<City>>) returns (r: Outcome)
      requires Valid() && p in players && stepsLeft == totalSteps && lists == CityLists(countries)
      modifies this, p
      ensures Valid()
      ensures countries == old(countries) && K == old(K) && C == old(C) && settings == old(settings) && players == old(players)
      ensures totalSteps == old(totalSteps) && stepsLeft == old(stepsLeft) && aborted == old(aborted) && seed == old(seed) && guiPlayer == old(guiPlayer)
      ensures lists == CityLists(countries)
      ensures var s := StartCity(lists, old(rng));
              (r.Pass? <==> s.Success?) && (r.Pass? ==> Started(p, s.value.0) && rng == s.value.1)
      ensures p.choices == old(p.choices)
    {
      ClearMoney(p);
      var start := GetRandomStartingPosition(lists);
      if start.Failure? {
        return Fail(start.error);
      }
      StartAtCity(p, start.value, StartCity(lists, old(rng)).value.0);
      return Pass;
    }

    /** setPosition in reset, where the game is at its start: the player now
        stands on the new position, at city c of the world, with no money. */
    method StartAtCity(p: Player, pos: Position, ghost c: City)
      requires Valid() && p in players && stepsLeft == totalSteps
      requires p.money == 0 && pos.State() == AtCity(c) && c in C
      modifies p
      ensures Valid() && Started(p, c) && p.choices == old(p.choices)
    {
      p.SetPosition(pos, stepsLeft == totalSteps);
      PlayerPlaced(p);
    }

    /** setMoney(0) in reset: only the player's money changes. */
    method ClearMoney(p: Player)
      requires Valid() && p in players
      modifies p
      ensures Valid() && p.money == 0 && p.pos == old(p.pos) && p.choices == old(p.choices)
    {
      p.SetMoney(0);
      PlayerKept(p);
    }

    /** The other players are untouched when only p changed and p is still placed. */
    twostate lemma PlayerKept(p: Player)
      requires old(PlayersIn(players, C)) && players == old(players) && C == old(C)
      requires p.pos == old(p.pos) && p.choices == old(p.choices) && unchanged(p.pos)
      requires forall q :: q in players && q != p ==> unchanged(q) && unchanged(q.pos)
      ensures PlayersIn(players, C)
    {
      forall q | q in players ensures q.Placed(C) {
        assert old(q.Placed(C));
      }
    }

    /** After SetPosition to a position within the world, all players are placed. */
    twostate lemma PlayerPlaced(p: Player)
      requires old(PlayersIn(players, C)) && players == old(players) && C == old(C) && p in players
      requires p.Placed(C)
      requires forall q :: q in players && q != p ==> unchanged(q) && unchanged(q.pos)
      ensures PlayersIn(players, C)
    {
      forall q | q in players ensures q.Placed(C) {
        if q != p {
          assert old(q.Placed(C));
        }
      }
    }

    /** After p's own step, which may also have moved the position p stood on
        before, all players are still placed when that position stayed within C. */
    twostate lemma PlayerMoved(p: Player)
      requires old(PlayersIn(players, C)) && players == old(players) && C == old(C) && p in players
      requires p.Placed(C) && old(p.pos).from in C && old(p.pos).to in C
      requires forall q :: q in players && q != p ==> unchanged(q) && (unchanged(q.pos) || q.pos == old(p.pos))
      ensures PlayersIn(players, C)
    {
      forall q | q in players ensures q.Placed(C) {
        if q != p {
          assert old(q.Placed(C));
        }
      }
    }

    /** The player's own step with the game's settings, generator and steps
        left; the generator moves on past the draws the step used. */
    method Move(p: Player) returns (r: Outcome)
      requires Valid() && p in players
      modifies this, p, p.pos, p.pos.to
      ensures Valid()
      ensures countries == old(countries) && K == old(K) && C == old(C) && settings == old(settings) && players == old(players)
      ensures totalSteps == old(totalSteps) && stepsLeft == old(stepsLeft) && aborted == old(aborted) && seed == old(seed) && guiPlayer == old(guiPlayer)
      ensures p.pos == old(p.pos) || fresh(p.pos)
      ensures old(p.pos).to == old(p.pos.to)
      ensures old(p.pos.to).value == old(p.pos.to.value) - Gain(old(p.pos.State()), old(p.pos.to.value), settings.Data(), old(rng))
      ensures forall q :: q in players && q != p ==> q.money == old(q.money) && q.pos == old(q.pos)
      ensures r.Pass? ==> p.money == old(p.money) + Gain(old(p.pos.State()), old(p.pos.to.value), settings.Data(), old(rng))
      ensures var here := old(p.pos.to);
              var res := PolicyOutcome(p.kind, StepOutcome(old(p.pos.State()), old(p.pos.to.value), settings.Data(), old(rng)),
                                       here.country.GetRoads(here), NextStop(K, C, here, stepsLeft));
              (r.Pass? <==> res.Success?) && (r.Pass? ==> rng == res.value.rest) && (r.Fail? ==> r.error == res.error)
      ensures old(!MayThrow(settings.Data(), p.kind)) ==> r.Pass?
    {
      var res := PlayerStep(p);
      r := Settle(res);
    }

    /** The end of a turn: a step that threw is passed on, and after one that
        did not the generator moves on past the draws the step used; nothing
        else changes. */
    method Settle(res: Result<Turn>) returns (r: Outcome)
      requires Valid()
      modifies this
      ensures Valid()
      ensures countries == old(countries) && K == old(K) && C == old(C) && settings == old(settings) && players == old(players)
      ensures totalSteps == old(totalSteps) && stepsLeft == old(stepsLeft) && aborted == old(aborted) && seed == old(seed) && guiPlayer == old(guiPlayer)
      ensures forall q :: q in players ==> q.money == old(q.money) && q.pos == old(q.pos)
      ensures (r.Pass? <==> res.Success?) && (r.Pass? ==> rng == res.value.rest) && (r.Fail? ==> r.error == res.error && rng == old(rng))
    {
      if res.Failure? {
        return Fail(res.error);
      }
      rng := res.value.rest;
      return Pass;
    }

    /** p.step(...) itself: the game's fields stay as they are, and the
        result is the step of p's kind. */
    method PlayerStep(p: Player) returns (res: Result<Turn>)
      requires Valid() && p in players
      modifies p, p.pos, p.pos.to
      ensures Valid()
      ensures p.pos == old(p.pos) || fresh(p.pos)
      ensures forall q :: q in players && q != p ==> q.money == old(q.money) && q.pos == old(q.pos)
      ensures p.money == old(p.money) + Gain(old(p.pos.State()), old(p.pos.to.value), settings.Data(), rng)
      ensures var here := old(p.pos.to);
              res == PolicyOutcome(p.kind, StepOutcome(old(p.pos.State()), old(p.pos.to.value), settings.Data(), rng),
                                   here.country.GetRoads(here), NextStop(K, C, here, stepsLeft))
      ensures var here := old(p.pos.to);
              var roads := here.country.GetRoads(here);
              var t := PolicyTarget(p.kind, StepOutcome(old(p.pos.State()), old(p.pos.to.value), settings.Data(), rng),
                                    roads, old(p.choices), Pick(Ratios(roads)), NextStop(K, C, here, stepsLeft));
              if t.Some? then fresh(p.pos) && p.pos.State() == Departure(roads, here, t.value)
              else p.pos == old(p.pos) && p.pos.State() == Moved(old(p.pos.State()))
      ensures old(!MayThrow(settings.Data(), p.kind)) ==> res.Success?
      ensures old(p.pos).to == old(p.pos.to)
      ensures old(p.pos.to).value == old(p.pos.to.value) - Gain(old(p.pos.State()), old(p.pos.to.value), settings.Data(), rng)
    {
      res := p.Step(K, C, settings.Data(), rng, stepsLeft == totalSteps, stepsLeft);
      PlayerMoved(p);
    }

    /** One player's turn in Game.step: its move, then a negative balance set to 0. */
    method TakeTurn(p: Player) returns (r: Outcome)
      requires Valid() && p in players
      modifies this, p, p.pos, p.pos.to
      ensures Valid()
      ensures countries == old(countries) && K == old(K) && C == old(C) && settings == old(settings) && players == old(players)
      ensures totalSteps == old(totalSteps) && stepsLeft == old(stepsLeft) && aborted == old(aborted) && seed == old(seed) && guiPlayer == old(guiPlayer)
      ensures p.pos == old(p.pos) || fresh(p.pos)
      ensures old(p.pos).to == old(p.pos.to)
      ensures old(p.pos.to).value == old(p.pos.to.value) - Gain(old(p.pos.State()), old(p.pos.to.value), settings.Data(), old(rng))
      ensures forall q :: q in players && q != p ==> q.money == old(q.money) && q.pos == old(q.pos)
      ensures r.Pass? ==> p.money >= 0
      ensures var gain := Gain(old(p.pos.State()), old(p.pos.to.value), settings.Data(), old(rng));
              r.Pass? ==> p.money == (if old(p.money) + gain < 0 then 0 else old(p.money) + gain)
      ensures r.Fail? ==> old(MayThrow(settings.Data(), p.kind))
    {
      r := Move(p);
      if r.Pass? && p.money < 0 {
        label moved:
        p.SetMoney(0);
        PlayerKept@moved(p);
      }
    }

    /** The turn of the i-th player in the loop of step: a player whose kind
        is switched off is skipped and keeps its money and position; the
        other players keep theirs in any case. */
    method TurnOf(i: nat, flags: seq<bool>) returns (r: Outcome)
      requires Valid() && i < |players| && flags == Flags()
      modifies this, players[i], players[i].pos, players[i].pos.to
      ensures Valid() && flags == Flags()
      ensures countries == old(countries) && K == old(K) && C == old(C) && settings == old(settings) && players == old(players)
      ensures totalSteps == old(totalSteps) && stepsLeft == old(stepsLeft) && aborted == old(aborted) && seed == old(seed) && guiPlayer == old(guiPlayer)
      ensures players[i].pos == old(players[i].pos) || fresh(players[i].pos)
      ensures old(players[i].pos).to == old(players[i].pos.to)
      ensures forall j :: 0 <= j < |players| && j != i ==> players[j].pos.to == old(players[j].pos.to)
      ensures forall c :: c in C && c != old(players[i].pos.to) ==> c.value == old(c.value)
      ensures var p := players[i];
              old(p.pos.to).value == old(p.pos.to.value) -
                (if Runs(p.kind, flags) then Gain(old(p.pos.State()), old(p.pos.to.value), settings.Data(), old(rng)) else 0)
      ensures forall j :: 0 <= j < |players| && j != i ==> players[j].money == old(players[j].money) && players[j].pos == old(players[j].pos)
      ensures r.Pass? && Runs(players[i].kind, flags) ==> players[i].money >= 0
      ensures !Runs(players[i].kind, flags) ==> r == Pass && players[i].money == old(players[i].money) && players[i].pos == old(players[i].pos)
      ensures r.Fail? ==> Runs(players[i].kind, flags) && old(MayThrow(settings.Data(), players[i].kind))
    {
      var p := players[i];
      if Runs(p.kind, flags) {
        r := TakeTurn(p);
      } else {
        r := Pass;
      }
    }

    /** step: nothing once the game is over or aborted; otherwise the players,
        sorted by name, take their turns (AI players whose flag is off are
        skipped) and one step is used up. A throw ends the step at once. */
    method Step() returns (r: Outcome)
      requires Valid()
      modifies this, Players(), Positions(), C
      ensures Valid()
      ensures countries == old(countries) && settings == old(settings) && aborted == old(aborted) && totalSteps == old(totalSteps)
      ensures K == old(K) && C == old(C) && seed == old(seed) && guiPlayer == old(guiPlayer)
      ensures !old(Ongoing()) ==> r == Pass && stepsLeft == old(stepsLeft) && players == old(players) && rng == old(rng)
      ensures !old(Ongoing()) ==> (forall q :: q in players ==> q.money == old(q.money) && q.pos == old(q.pos)) &&
                                  forall c :: c in C ==> c.value == old(c.value)
      ensures old(Ongoing()) ==> players == SortBy(old(players), PlayerName)
      ensures old(Ongoing()) && r.Pass? ==> stepsLeft == old(stepsLeft) - 1
      ensures r.Fail? ==> stepsLeft == old(stepsLeft)
      ensures old(Ongoing()) && r.Pass? ==> forall q :: q in players && Runs(q.kind, Flags()) ==> q.money >= 0
      ensures forall q :: q in old(players) && !Runs(q.kind, Flags()) ==> q.money == old(q.money) && q.pos == old(q.pos)
      ensures r.Fail? ==> exists q :: q in players && Runs(q.kind, Flags()) && MayThrow(settings.Data(), q.kind)
      ensures forall c :: c in C && c !in old(Destinations(Flags())) ==> c.value == old(c.value)
    {
      if stepsLeft == 0 || aborted {
        return Pass;
      }
      r := Play();
    }

    /** The body of step in a game still on. */
    method Play() returns (r: Outcome)
      requires Valid() && Ongoing()
      modifies this, Players(), Positions(), C
      ensures Valid()
      ensures countries == old(countries) && settings == old(settings) && aborted == old(aborted) && totalSteps == old(totalSteps)
      ensures K == old(K) && C == old(C) && seed == old(seed) && guiPlayer == old(guiPlayer)
      ensures players == SortBy(old(players), PlayerName)
      ensures stepsLeft == if r.Pass? then old(stepsLeft) - 1 else old(stepsLeft)
      ensures r.Pass? ==> forall q :: q in players && Runs(q.kind, Flags()) ==> q.money >= 0
      ensures forall q :: q in old(players) && !Runs(q.kind, Flags()) ==> q.money == old(q.money) && q.pos == old(q.pos)
      ensures r.Fail? ==> exists q :: q in players && Runs(q.kind, Flags()) && MayThrow(settings.Data(), q.kind)
      ensures forall c :: c in C && c !in old(Destinations(Flags())) ==> c.value == old(c.value)
    {
      ghost var qs, ps := Players(), Positions();
      SortPlayers();
      label sorted:
      r := TakeTurns(qs, ps);
      forall q | q in old(players) && !Runs(q.kind, Flags())
        ensures q.money == old(q.money) && q.pos == old(q.pos)
      {
        assert q in qs;
        assert old@sorted(q.money) == old(q.money) && old@sorted(q.pos) == old(q.pos);
      }
      if r.Pass? {
        UseStep();
      }
    }

    /** The decrement at the end of step: one step fewer left, nothing else changes. */
    method UseStep()
      requires Valid()
      modifies this
      ensures Valid() && stepsLeft == old(stepsLeft) - 1 && Flags() == old(Flags())
      ensures countries == old(countries) && K == old(K) && C == old(C) && settings == old(settings) && players == old(players)
      ensures totalSteps == old(totalSteps) && aborted == old(aborted) && rng == old(rng) && seed == old(seed) && guiPlayer == old(guiPlayer)
    {
      stepsLeft := stepsLeft - 1;
    }

    /** The loop of step: every player whose kind runs takes its turn, in list order. */
    method TakeTurns(ghost qs: set<Player>, ghost ps: set<Position>) returns (r: Outcome)
      requires Valid() && Players() == qs && Positions() == ps
      modifies this, qs, ps, C
      ensures Valid()
      ensures countries == old(countries) && K == old(K) && C == old(C) && settings == old(settings) && players == old(players)
      ensures totalSteps == old(totalSteps) && stepsLeft == old(stepsLeft) && aborted == old(aborted) && seed == old(seed) && guiPlayer == old(guiPlayer)
      ensures r.Pass? ==> forall q :: q in players && Runs(q.kind, Flags()) ==> q.money >= 0
      ensures forall q :: q in qs && !Runs(q.kind, Flags()) ==> q.money == old(q.money) && q.pos == old(q.pos)
      ensures r.Fail? ==> exists q :: q in players && Runs(q.kind, Flags()) && MayThrow(settings.Data(), q.kind)
      ensures forall c :: c in C && c !in old(Destinations(Flags())) ==> c.value == old(c.value)
    {
      var flags := settings.Data().active;
      ghost var dest := Destinations(flags);
      forall j | 0 <= j < |players|
        ensures players[j] in qs && players[j].pos in ps
        ensures Runs(players[j].kind, flags) ==> players[j].pos.to in dest
      {
        assert players[j] in players;
      }
      r := TurnsFrom(flags, qs, ps, dest);
      forall q | q in qs
        ensures r.Pass? && Runs(q.kind, flags) ==> q.money >= 0
        ensures !Runs(q.kind, flags) ==> q.money == old(q.money) && q.pos == old(q.pos)
      {
        var j :| 0 <= j < |players| && players[j] == q;
      }
      if r.Fail? {
        var j :| 0 <= j < |players| && Runs(players[j].kind, flags) && MayThrow(settings.Data(), players[j].kind);
        assert players[j] in players;
      }
    }

    /** The loop itself, on indices: the cities outside dest keep their value. */
    method TurnsFrom(flags: seq<bool>, ghost qs: set<Player>, ghost ps: set<Position>, ghost dest: set<City>) returns (r: Outcome)
      requires Valid() && flags == Flags()
      requires forall j :: 0 <= j < |players| ==> players[j] in qs && players[j].pos in ps
      requires forall j :: 0 <= j < |players| && Runs(players[j].kind, flags) ==> players[j].pos.to in dest
      modifies this, qs, ps, C
      ensures Valid() && flags == Flags()
      ensures countries == old(countries) && K == old(K) && C == old(C) && settings == old(settings) && players == old(players)
      ensures totalSteps == old(totalSteps) && stepsLeft == old(stepsLeft) && aborted == old(aborted) && seed == old(seed) && guiPlayer == old(guiPlayer)
      ensures r.Pass? ==> forall j :: 0 <= j < |players| && Runs(players[j].kind, flags) ==> players[j].money >= 0
      ensures forall j :: 0 <= j < |players| && !Runs(players[j].kind, flags) ==> players[j].money == old(players[j].money) && players[j].pos == old(players[j].pos)
      ensures r.Fail? ==> exists j :: 0 <= j < |players| && Runs(players[j].kind, flags) && MayThrow(settings.Data(), players[j].kind)
      ensures forall c :: c in C && c !in dest ==> c.value == old(c.value)
    {
      ghost var cfg := settings.Data();
      r := Pass;
      var i := 0;
      while i < |players| && r.Pass?
        invariant 0 <= i <= |players|
        invariant Valid() && Flags() == flags && settings.Data() == cfg
        invariant r.Fail? ==> 0 < i && Runs(players[i-1].kind, flags) && MayThrow(cfg, players[i-1].kind)
        invariant countries == old(countries) && K == old(K) && C == old(C) && settings == old(settings) && players == old(players)
        invariant totalSteps == old(totalSteps) && stepsLeft == old(stepsLeft) && aborted == old(aborted) && seed == old(seed) && guiPlayer == old(guiPlayer)
        invariant forall j :: 0 <= j < |players| ==> players[j].pos in ps || fresh(players[j].pos)
        invariant r.Pass? ==> forall j :: 0 <= j < i && Runs(players[j].kind, flags) ==> players[j].money >= 0
        invariant forall j :: 0 <= j < |players| && !Runs(players[j].kind, flags) ==> players[j].money == old(players[j].money) && players[j].pos == old(players[j].pos)
        invariant forall j :: i <= j < |players| && Runs(players[j].kind, flags) ==> players[j].pos.to in dest
        invariant forall c :: c in C && c !in dest ==> c.value == old(c.value)
      {
        assert players[i].Placed(C);
        r := TurnOf(i, flags);
        i := i + 1;
      }
    }
  }

  /** A valid country whose network lies within C joins the world: a list
      holding the old countries and it is valid in the grown world. */
  lemma WorldJoins(K: set<Country>, C: set<City>, ks: seq<Country>, c: Country, sorted: seq<Country>)
    requires WorldValid(K, C, ks) && c.Valid() && NetworkIn(c.network, C)
    requires multiset(sorted) == multiset(ks) + multiset{c}
    ensures WorldValid(K + {c}, C, sorted)
  {
    forall k | k in sorted
      ensures k in ks || k == c
    {
      assert k in multiset(sorted);
    }
  }

  /** Closedness after one country's network changed: the cities still
      belong to K and every network of K, the changed one included, lies within C. */
  lemma ClosedAfterChange(K: set<Country>, C: set<City>, k: Country)
    requires forall c :: c in C ==> c.country in K
    requires k in K && NetworkIn(k.network, C)
    requires forall x :: x in K && x != k ==> NetworkIn(x.network, C)
    ensures Closed(K, C)
  {
  }

  /** The country loop of reset: every key city of every listed country is
      back at its initial value. */
  method ResetCountries(ghost K: set<Country>, ghost C: set<City>, ks: seq<Country>)
    requires WorldValid(K, C, ks)
    modifies C
    ensures forall k :: k in ks ==> forall c :: c in k.KeyCities() ==> c.value == c.initialValue
    ensures forall c :: c in C && (forall k :: k in ks ==> c !in k.KeyCities()) ==> c.value == old(c.value)
  {
    for i := 0 to |ks|
      invariant forall j :: 0 <= j < i ==> forall c :: c in ks[j].KeyCities() ==> c.value == c.initialValue
      invariant forall c :: c in C && (forall j :: 0 <= j < i ==> c !in ks[j].KeyCities()) ==> c.value == old(c.value)
    {
      ClosedKeys(K, C, ks[i]);
      ks[i].Reset();
    }
  }

  /** The same players in another order are still distinct and placed. */
  lemma PlayersInPermuted(ps: seq<Player>, qs: seq<Player>, C: set<City>)
    requires PlayersIn(ps, C) && multiset(ps) == multiset(qs)
    ensures PlayersIn(qs, C) && forall q :: q in qs ==> q in ps
  {
    forall i, j | 0 <= i < j < |qs| ensures qs[i] != qs[j] {
      if qs[i] == qs[j] {
        RepeatCounts(qs, i, j);
        DistinctCounts(ps, qs[i]);
        assert false;
      }
    }
    forall q | q in qs ensures q in ps {
      assert q in multiset(qs);
    }
  }

}

=== FILE: java_text.dfy ===
/** The Java library primitives on text and 32-bit integers that the game
    relies on: String.compareTo (the order of cities, roads, countries and
    players), String.trim, Integer.toString and Integer.parseInt. */
module JavaText {
  import opened Results

  const MIN_INT: int := -0x8000_0000
  const MAX_INT: int := 0x7fff_ffff

  predicate IsInt32(n: int) { MIN_INT <= n <= MAX_INT }

  /** The 32-bit two's-complement value congruent to n: Java's int arithmetic
      on results that overflow. */
  function Wrap32(n: int): (w: int)
    ensures IsInt32(w)
    ensures IsInt32(n) ==> w == n
  {
    (n - MIN_INT) % 0x1_0000_0000 + MIN_INT
  }

  /** String.hashCode: s[0]*31^(n-1) + ... + s[n-1] in 32-bit arithmetic. */
  function StringHash(s: string): (h: int)
    ensures IsInt32(h)
  {
    if s == [] then 0 else Wrap32(31 * StringHash(s[..|s| - 1]) + s[|s| - 1] as int)
  }

  // ---------------------------------------------------------------------
  // String.compareTo
  // ---------------------------------------------------------------------

  /** String.compareTo: the difference of the first differing characters,
      or the difference of the lengths when one string is a prefix of the other. */
  function CompareStrings(a: string, b: string): int
    decreases |a|
  {
    if a == [] || b == [] then |a| - |b|
    else if a[0] != b[0] then a[0] as int - b[0] as int
    else CompareStrings(a[1..], b[1..])
  }

  /** "a sorts strictly before b" under String.compareTo. */
  predicate StrLess(a: string, b: string) { CompareStrings(a, b) < 0 }

  /** "a sorts before b or equals it" under String.compareTo. */
  predicate StrLe(a: string, b: string) { CompareStrings(a, b) <= 0 }

  /** compareTo returns 0 exactly on equal strings. */
  lemma {:induction false} CompareZeroIffEqual(a: string, b: string)
    ensures CompareStrings(a, b) == 0 <==> a == b
    decreases |a|
  {
    if a != [] && b != [] && a[0] == b[0] {
      CompareZeroIffEqual(a[1..], b[1..]);
      assert a == [a[0]] + a[1..];
      assert b == [b[0]] + b[1..];
    }
  }

  /** Swapping the arguments negates the result. */
  lemma {:induction false} CompareAntisymmetric(a: string, b: string)
    ensures CompareStrings(b, a) == -CompareStrings(a, b)
    decreases |a|
  {
    if a != [] && b != [] && a[0] == b[0] {
      CompareAntisymmetric(a[1..], b[1..]);
    }
  }

  /** The strict order is transitive. */
  lemma {:induction false} StrLessTransitive(a: string, b: string, c: string)
    requires StrLess(a, b) && StrLess(b, c)
    ensures StrLess(a, c)
    decreases |a|
  {
    if a != [] && b != [] && c != [] && a[0] == b[0] && b[0] == c[0] {
      StrLessTransitive(a[1..], b[1..], c[1..]);
    }
  }

  /** Any two strings are comparable, and at most one sorts strictly before the other. */
  lemma StrTrichotomy(a: string, b: string)
    ensures StrLess(a, b) || a == b || StrLess(b, a)
    ensures !(StrLess(a, b) && StrLess(b, a))
    ensures !StrLess(a, a)
  {
    CompareZeroIffEqual(a, b);
    CompareAntisymmetric(a, b);
    CompareZeroIffEqual(a, a);
  }

  /** The non-strict order is total and transitive: a total preorder for sorting. */
  lemma StrLeTotalTransitive(a: string, b: string, c: string)
    ensures StrLe(a, b) || StrLe(b, a)
    ensures StrLe(a, b) && StrLe(b, c) ==> StrLe(a, c)
  {
    CompareAntisymmetric(a, b);
    CompareZeroIffEqual(a, b);
    CompareZeroIffEqual(b, c);
    CompareZeroIffEqual(a, c);
    if StrLess(a, b) && StrLess(b, c) {
      StrLessTransitive(a, b, c);
    }
  }

  // ---------------------------------------------------------------------
  // String.trim
  // ---------------------------------------------------------------------

  /** String.trim: drops every leading and trailing character at or below
      U+0020; what is left is a slice of the input, blank only where nothing
      is left. */
  function Trim(s: string): (t: string)
    ensures exists i, j :: 0 <= i <= j <= |s| && t == s[i..j] && BlankOutside(s, i, j)
    ensures t != [] ==> t[0] > ' ' && t[|t| - 1] > ' '
    ensures t != [] <==> exists i :: 0 <= i < |s| && s[i] > ' '
    decreases |s|
  {
    if s == [] then
      assert BlankOutside(s, 0, 0);
      []
    else if s[0] <= ' ' then
      var t := Trim(s[1..]);
      TrimSliceFront(s, t);
      t
    else if s[|s| - 1] <= ' ' then
      var t := Trim(s[..|s| - 1]);
      TrimSliceBack(s, s[..|s| - 1], t);
      t
    else
      assert s == s[0..|s|];
      s
  }

  /** Every character before index i and from index j on is at or below U+0020. */
  ghost predicate BlankOutside(s: string, i: int, j: int)
    requires 0 <= i <= j <= |s|
  {
    (forall k :: 0 <= k < i ==> s[k] <= ' ') && (forall k :: j <= k < |s| ==> s[k] <= ' ')
  }

  /** A blank-bounded slice of s[1..], with s[0] blank, is one of s. */
  lemma TrimSliceFront(s: string, t: string)
    requires s != [] && s[0] <= ' '
    requires exists i, j :: 0 <= i <= j <= |s[1..]| && t == s[1..][i..j] && BlankOutside(s[1..], i, j)
    ensures exists i, j :: 0 <= i <= j <= |s| && t == s[i..j] && BlankOutside(s, i, j)
  {
    var i, j :| 0 <= i <= j <= |s[1..]| && t == s[1..][i..j] && BlankOutside(s[1..], i, j);
    assert t == s[i + 1..j + 1];
    forall k | 0 <= k < i + 1 ensures s[k] <= ' ' {
      if k > 0 {
        assert s[k] == s[1..][k - 1];
      }
    }
    forall k | j + 1 <= k < |s| ensures s[k] <= ' ' {
      assert s[k] == s[1..][k - 1];
    }
    assert BlankOutside(s, i + 1, j + 1);
  }

  /** A blank-bounded slice of s without its last character, itself blank, is one of s. */
  lemma TrimSliceBack(s: string, u: string, t: string)
    requires s != [] && s[|s| - 1] <= ' ' && u == s[..|s| - 1]
    requires exists i, j :: 0 <= i <= j <= |u| && t == u[i..j] && BlankOutside(u, i, j)
    ensures exists i, j :: 0 <= i <= j <= |s| && t == s[i..j] && BlankOutside(s, i, j)
  {
    var i, j :| 0 <= i <= j <= |u| && t == u[i..j] && BlankOutside(u, i, j);
    assert t == s[i..j];
    forall k | j <= k < |s| ensures s[k] <= ' ' {
      if k < |s| - 1 {
        assert s[k] == u[k];
      }
    }
    assert BlankOutside(s, i, j);
  }

  // ---------------------------------------------------------------------
  // Integer.toString and Integer.parseInt
  // ---------------------------------------------------------------------

  predicate IsDigit(c: char) { '0' <= c <= '9' }

  function DigitChar(d: nat): (c: char)
    requires d < 10
    ensures IsDigit(c) && c as int - '0' as int == d
  {
    ('0' as int + d) as char
  }

  /** Decimal digits of n, most significant first, with no leading zero. */
  function Digits(n: nat): (s: string)
    ensures 1 <= |s|
    ensures forall i :: 0 <= i < |s| ==> IsDigit(s[i])
  {
    if n < 10 then [DigitChar(n)] else Digits(n / 10) + [DigitChar(n % 10)]
  }

  /** Integer.toString. */
  function IntToString(n: int): (s: string)
    ensures s != []
    ensures forall i :: 0 <= i < |s| ==> IsDigit(s[i]) || (i == 0 && s[i] == '-')
  {
    if n < 0 then "-" + Digits(-n) else Digits(n)
  }

  /** The number a string of decimal digits denotes. */
  function DigitsValue(s: string): nat
    requires forall i :: 0 <= i < |s| ==> IsDigit(s[i])
  {
    if s == [] then 0
    else
      var last := s[|s| - 1];
      assert IsDigit(last);
      DigitsValue(s[..|s| - 1]) * 10 + (last as int - '0' as int)
  }

  predicate AllDigits(s: string) { forall i :: 0 <= i < |s| ==> IsDigit(s[i]) }

  /** Integer.parseInt: an optional sign followed by at least one decimal digit,
      denoting a value that fits in 32 bits; anything else is a NumberFormatException. */
  function ParseInt(s: string): (r: Result<int>)
    ensures r.Success? ==> IsInt32(r.value)
    ensures r.Failure? ==> r.error == NumberFormat
    ensures s == [] ==> r.Failure?
    ensures r.Success? ==> exists i :: 0 <= i < |s| && IsDigit(s[i])
  {
    if s == [] then Failure(NumberFormat)
    else
      var body := if s[0] == '-' || s[0] == '+' then s[1..] else s;
      if body == [] || !AllDigits(body) then Failure(NumberFormat)
      else
        var magnitude: int := DigitsValue(body);
        var v: int := if s[0] == '-' then -magnitude else magnitude;
        if IsInt32(v) then
          assert IsDigit(s[|s| - 1]);
          Success(v)
        else Failure(NumberFormat)
  }

  lemma {:induction false} DigitsRoundTrip(n: nat)
    ensures DigitsValue(Digits(n)) == n
  {
    if n >= 10 {
      DigitsRoundTrip(n / 10);
      var s := Digits(n);
      assert s[..|s| - 1] == Digits(n / 10);
    }
  }

  /** Integer.parseInt reads back what Integer.toString writes, for every 32-bit int. */
  lemma ParseIntToString(n: int)
    requires IsInt32(n)
    ensures ParseInt(IntToString(n)) == Success(n)
  {
    var s := IntToString(n);
    if n < 0 {
      DigitsRoundTrip(-n);
      assert s[1..] == Digits(-n);
    } else {
      DigitsRoundTrip(n);
      assert s[0] == Digits(n)[0];
    }
  }
}

=== FILE: network.dfy ===
/** The map of the game: cities (plain, border and capital), the roads
    between them, countries holding a network of cities and road sets, and the
    positions players occupy on it. */
module Network {
  import opened Results
  import opened JavaText
  import opened Rand
  import opened SettingsFile
  import opened Revenue

  /** The class of a city object: City, BorderCity or CapitalCity. */
  datatype CityKind = Plain | Border | Capital

  // ---------------------------------------------------------------------
  // Cities
  // ---------------------------------------------------------------------

  class City {
    const name: string
    const kind: CityKind
    const country: Country
    const initialValue: int
    var value: int

    /** City, BorderCity and CapitalCity constructors: value and initial value
        both start at the given value. */
    constructor (name: string, value: int, country: Country, kind: CityKind)
      ensures this.name == name && this.kind == kind && this.country == country
      ensures this.value == value && initialValue == value
    {
      this.name := name;
      this.kind := kind;
      this.country := country;
      this.initialValue := value;
      this.value := value;
    }

    /** City.arrive(): the country's bonus on the current value, which the
        city then loses (a negative bonus raises it). */
    method Arrive(cfg: Fields, g: Rng) returns (r: Result<Drawn>)
      modifies this
      ensures r == Bonus(country.mafia, old(value), cfg, g)
      ensures value == old(value) - (if r.Success? then r.value.amount else 0)
    {
      r := Bonus(country.mafia, value, cfg, g);
      if r.Success? {
        value := value - r.value.amount;
      }
    }

    /** City.changeValue: adds the amount to the value. */
    method ChangeValue(amount: int)
      modifies this
      ensures value == old(value) + amount
    {
      value := value + amount;
    }

    /** City.reset: back to the initial value. */
    method Reset()
      modifies this
      ensures value == initialValue
    {
      value := initialValue;
    }

    /** BorderCity.arrive(Player), given the player's from-country and money:
        the plain arrival, then a toll when the player comes from another country. */
    method BorderArrive(from: Country, money: int, cfg: Fields, g: Rng) returns (r: Result<Drawn>)
      requires kind != Plain
      modifies this
      ensures var a := BorderArrival(country.mafia, old(value), !CountryEquals(from, country), money, cfg, g);
              (r.Success? <==> a.Success?) &&
              (a.Success? ==> r.value == Drawn(a.value.net, a.value.rest) && value == a.value.valueAfter) &&
              (a.Failure? ==> r.error == a.error && value == old(value))
    {
      var b := Arrive(cfg, g);
      if b.Failure? {
        return Failure(b.error);
      }
      var toll := 0;
      if !CountryEquals(from, country) {
        toll := Toll(money, cfg.toll);
        ChangeValue(toll);
      }
      return Success(Drawn(b.value.amount - toll, b.value.rest));
    }

    /** CapitalCity.arrive(Player): the border arrival, then one draw of money
        spent in the city, which the city keeps. */
    method CapitalArrive(from: Country, money: int, cfg: Fields, g: Rng) returns (r: Result<Drawn>)
      requires kind == Capital
      modifies this
      ensures var b := BorderArrival(country.mafia, old(value), !CountryEquals(from, country), money, cfg, g);
              var a := CapitalArrival(country.mafia, old(value), !CountryEquals(from, country), money, cfg, g);
              (r.Success? <==> a.Success?) &&
              (a.Success? ==> r.value == Drawn(a.value.net, a.value.rest) && value == a.value.valueAfter) &&
              (a.Failure? ==> r.error == a.error) &&
              (b.Failure? ==> value == old(value)) &&
              (b.Success? && a.Failure? ==> value == b.value.valueAfter)
    {
      var b := BorderArrive(from, money, cfg, g);
      if b.Failure? {
        return Failure(b.error);
      }
      var spent := NextInt(b.value.rest, money + b.value.amount + 1);
      if spent.Failure? {
        return Failure(spent.error);
      }
      ChangeValue(spent.value.amount);
      return Success(Drawn(b.value.amount - spent.value.amount, spent.value.rest));
    }
  }

  /** Country.equals: the same class and the same name. */
  predicate CountryEquals(a: Country, b: Country)
  {
    a.mafia == b.mafia && a.name == b.name
  }

  /** City.equals: the same class, the same name and equal countries. */
  predicate CityEquals(a: City, b: City)
  {
    a.kind == b.kind && a.name == b.name && CountryEquals(a.country, b.country)
  }

  /** City.compareTo: the names alone. */
  function CityCompare(a: City, b: City): int
  {
    CompareStrings(a.name, b.name)
  }

  /** Cities compare as equal exactly when their names agree; equal cities
      have equal names, but equal names do not make cities equal. */
  lemma CityOrderVersusEquality(a: City, b: City)
    ensures CityCompare(a, b) == 0 <==> a.name == b.name
    ensures CityEquals(a, b) ==> CityCompare(a, b) == 0
    ensures CityEquals(a, b) <==> CityCompare(a, b) == 0 && a.kind == b.kind && CountryEquals(a.country, b.country)
  {
    CompareZeroIffEqual(a.name, b.name);
  }

  /** Country.hashCode and City.hashCode. */
  function CountryHash(k: Country): int { StringHash(k.name) }

  function CityHash(c: City): int
  {
    Wrap32(11 * StringHash(c.name) + 13 * CountryHash(c.country))
  }

  // ---------------------------------------------------------------------
  // Roads
  // ---------------------------------------------------------------------

  /** A road: an immutable value whose getters are its fields. */
  datatype Road = Road(from: City, to: City, length: int)

  /** Road.compareTo. */
  function RoadCompare(r: Road, s: Road): int
  {
    if CityEquals(r.from, s.from) then
      if CityEquals(r.to, s.to) then r.length - s.length else CityCompare(r.to, s.to)
    else CityCompare(r.from, s.from)
  }

  /** Road.equals. */
  predicate RoadEquals(r: Road, s: Road)
  {
    CityEquals(r.from, s.from) && CityEquals(r.to, s.to) && r.length == s.length
  }

  /** Road.hashCode; Java's wrapping int arithmetic agrees with one final wrap. */
  function RoadHash(r: Road): int
  {
    Wrap32(11 * CityHash(r.from) + 13 * CityHash(r.to) + 17 * r.length)
  }

  /** compareTo is 0 on equal roads, negates when its arguments are swapped,
      and equal roads have equal hash codes. */
  lemma RoadCompareLaws(r: Road, s: Road)
    ensures RoadEquals(r, s) ==> RoadCompare(r, s) == 0 && RoadHash(r) == RoadHash(s)
    ensures RoadCompare(s, r) == -RoadCompare(r, s)
  {
    CompareAntisymmetric(r.from.name, s.from.name);
    CompareAntisymmetric(r.to.name, s.to.name);
  }

  /** The order in which a road set keeps its roads: from-name, then to-name, then length. */
  function RoadKeyCompare(r: Road, s: Road): int
  {
    if r.from.name != s.from.name then CompareStrings(r.from.name, s.from.name)
    else if r.to.name != s.to.name then CompareStrings(r.to.name, s.to.name)
    else r.length - s.length
  }

  predicate RoadKeyLess(r: Road, s: Road) { RoadKeyCompare(r, s) < 0 }

  /** Two roads a road set treats as the same element. */
  predicate SameKey(r: Road, s: Road)
  {
    r.from.name == s.from.name && r.to.name == s.to.name && r.length == s.length
  }

  /** Same-named cities are equal cities: the world in which the map's names identify cities. */
  predicate Coherent(a: City, b: City) { a.name == b.name ==> CityEquals(a, b) }

  /** Where same-named cities are equal, Road.compareTo is exactly the key order. */
  lemma RoadCompareIsKeyOrder(r: Road, s: Road)
    requires Coherent(r.from, s.from) && Coherent(r.to, s.to)
    ensures RoadCompare(r, s) == RoadKeyCompare(r, s)
  {
  }

  lemma RoadKeyLaws(r: Road, s: Road)
    ensures RoadKeyCompare(r, s) == 0 <==> SameKey(r, s)
    ensures RoadKeyCompare(s, r) == -RoadKeyCompare(r, s)
  {
    CompareZeroIffEqual(r.from.name, s.from.name);
    CompareZeroIffEqual(r.to.name, s.to.name);
    CompareAntisymmetric(r.from.name, s.from.name);
    CompareAntisymmetric(r.to.name, s.to.name);
  }

  lemma RoadKeyLessTransitive(a: Road, b: Road, c: Road)
    requires RoadKeyLess(a, b) && RoadKeyLess(b, c)
    ensures RoadKeyLess(a, c)
  {
    if a.from.name != b.from.name && b.from.name != c.from.name {
      StrLessTransitive(a.from.name, b.from.name, c.from.name);
      StrTrichotomy(a.from.name, c.from.name);
    } else if a.from.name == b.from.name && b.from.name == c.from.name {
      if a.to.name != b.to.name && b.to.name != c.to.name {
        StrLessTransitive(a.to.name, b.to.name, c.to.name);
        StrTrichotomy(a.to.name, c.to.name);
      }
    }
  }

  /** A road set: strictly increasing in the key order. */
  predicate RoadsSorted(s: seq<Road>)
  {
    forall i, j :: 0 <= i < j < |s| ==> RoadKeyLess(s[i], s[j])
  }

  /** TreeSet.add: nothing when a road with the same key is present, otherwise
      the road in its place in the order. */
  function InsertRoad(r: Road, s: seq<Road>): (t: seq<Road>)
    ensures forall x :: x in t ==> x in s || x == r
    ensures forall x :: x in s ==> x in t
  {
    if s == [] then [r]
    else if RoadKeyCompare(r, s[0]) == 0 then s
    else if RoadKeyCompare(r, s[0]) < 0 then [r] + s
    else
      assert s == [s[0]] + s[1..];
      [s[0]] + InsertRoad(r, s[1..])
  }

  lemma {:induction false} InsertRoadSorted(r: Road, s: seq<Road>)
    requires RoadsSorted(s)
    ensures RoadsSorted(InsertRoad(r, s))
  {
    if s != [] {
      RoadKeyLaws(r, s[0]);
      if RoadKeyCompare(r, s[0]) < 0 {
        forall j | 0 < j < |s| ensures RoadKeyLess(r, s[j]) {
          RoadKeyLessTransitive(r, s[0], s[j]);
        }
      } else if RoadKeyCompare(r, s[0]) > 0 {
        InsertRoadSorted(r, s[1..]);
        var t := InsertRoad(r, s);
        forall j | 0 < j < |t| ensures RoadKeyLess(t[0], t[j]) {
          assert t[j] in InsertRoad(r, s[1..]);
          if t[j] != r {
            var k :| 0 <= k < |s[1..]| && s[1..][k] == t[j];
            assert s[k + 1] == t[j];
          }
        }
      }
    }
  }

  /** Re-adding a road whose key is present (an identical road, say) changes nothing. */
  lemma {:induction false} InsertRoadPresent(r: Road, s: seq<Road>, i: nat)
    requires RoadsSorted(s)
    requires i < |s| && SameKey(s[i], r)
    ensures InsertRoad(r, s) == s
  {
    RoadKeyLaws(r, s[0]);
    RoadKeyLaws(s[i], r);
    if i > 0 {
      if RoadKeyCompare(r, s[0]) < 0 {
        assert false;
      }
      if RoadKeyCompare(r, s[0]) > 0 {
        InsertRoadPresent(r, s[1..], i - 1);
        assert s == [s[0]] + s[1..];
      }
    }
  }

  /** A road whose key is absent is added: the set grows by exactly that road. */
  lemma {:induction false} InsertRoadAbsent(r: Road, s: seq<Road>)
    requires forall x :: x in s ==> !SameKey(x, r)
    ensures multiset(InsertRoad(r, s)) == multiset(s) + multiset{r}
  {
    if s != [] {
      RoadKeyLaws(r, s[0]);
      assert s[0] in s;
      assert s == [s[0]] + s[1..];
      if RoadKeyCompare(r, s[0]) > 0 {
        InsertRoadAbsent(r, s[1..]);
        assert multiset(s) == multiset{s[0]} + multiset(s[1..]);
        assert InsertRoad(r, s) == [s[0]] + InsertRoad(r, s[1..]);
      }
    }
  }

  // ---------------------------------------------------------------------
  // The network of a country: TreeMap<City, TreeSet<Road>> in key order
  // ---------------------------------------------------------------------

  /** A key city and the road set stored under it. */
  datatype Entry = Entry(key: City, roads: seq<Road>)

  /** Keys strictly increasing by name (City.compareTo). */
  predicate KeysSorted(es: seq<Entry>)
  {
    forall i, j :: 0 <= i < j < |es| ==> StrLess(es[i].key.name, es[j].key.name)
  }

  /** Every stored road leaves a city of the key's name and is at least 1 long. */
  predicate RoadsUnder(n: string, rs: seq<Road>)
  {
    RoadsSorted(rs) && forall r :: r in rs ==> r.from.name == n && r.length >= 1
  }

  predicate NetworkValid(es: seq<Entry>)
  {
    KeysSorted(es) && forall e :: e in es ==> RoadsUnder(e.key.name, e.roads)
  }

  /** The position of the key with the given name. */
  function Find(es: seq<Entry>, name: string): (r: Option<nat>)
    ensures r.Some? ==> r.value < |es| && es[r.value].key.name == name
    ensures r.None? <==> forall e :: e in es ==> e.key.name != name
  {
    if es == [] then None
    else if es[0].key.name == name then Some(0)
    else
      match Find(es[1..], name)
      case None => None
      case Some(i) => Some(i + 1)
  }

  /** TreeMap.getOrDefault(city, empty set): the roads stored under the city's name. */
  function RoadsAt(es: seq<Entry>, name: string): seq<Road>
  {
    match Find(es, name)
    case None => []
    case Some(i) => es[i].roads
  }

  /** The key object stored under a name, if any. */
  function KeyAt(es: seq<Entry>, name: string): Option<City>
  {
    match Find(es, name)
    case None => None
    case Some(i) => Some(es[i].key)
  }

  /** TreeMap.put(c, new TreeSet()): an existing key of that name keeps its key
      object and gets an empty set; otherwise c is inserted in name order. */
  function PutCity(es: seq<Entry>, c: City): (r: seq<Entry>)
    ensures r != [] && (r[0].key.name == c.name || (es != [] && r[0].key == es[0].key))
    ensures forall e :: e in r ==> e in es || e.key.name == c.name
  {
    if es == [] then [Entry(c, [])]
    else if es[0].key.name == c.name then [Entry(es[0].key, [])] + es[1..]
    else if StrLess(c.name, es[0].key.name) then [Entry(c, [])] + es
    else [es[0]] + PutCity(es[1..], c)
  }

  /** An entry below every key of a sorted network can go in front of it. */
  lemma ConsSorted(e: Entry, rest: seq<Entry>)
    requires KeysSorted(rest)
    requires forall x :: x in rest ==> StrLess(e.key.name, x.key.name)
    ensures KeysSorted([e] + rest)
  {
    var r := [e] + rest;
    forall i, j | 0 <= i < j < |r| ensures StrLess(r[i].key.name, r[j].key.name) {
      assert r[j] == rest[j - 1];
      if i == 0 {
        assert rest[j - 1] in rest;
      } else {
        assert r[i] == rest[i - 1];
      }
    }
  }

  /** In a sorted network the first key is below all the others. */
  lemma HeadBelow(es: seq<Entry>)
    requires KeysSorted(es) && es != []
    ensures KeysSorted(es[1..])
    ensures forall x :: x in es[1..] ==> StrLess(es[0].key.name, x.key.name)
  {
    forall x | x in es[1..] ensures StrLess(es[0].key.name, x.key.name) {
      var k :| 0 <= k < |es[1..]| && es[1..][k] == x;
      assert es[k + 1] == x;
    }
  }

  lemma {:induction false} PutCityValid(es: seq<Entry>, c: City)
    requires NetworkValid(es)
    ensures NetworkValid(PutCity(es, c))
  {
    if es != [] {
      HeadBelow(es);
      var added := Entry(c, []);
      if es[0].key.name == c.name {
        ConsSorted(Entry(es[0].key, []), es[1..]);
      } else if StrLess(c.name, es[0].key.name) {
        forall x | x in es ensures StrLess(c.name, x.key.name) {
          if x != es[0] {
            assert x in es[1..];
            StrLessTransitive(c.name, es[0].key.name, x.key.name);
          }
        }
        ConsSorted(added, es);
      } else {
        var rest := PutCity(es[1..], c);
        PutCityValid(es[1..], c);
        StrTrichotomy(c.name, es[0].key.name);
        ConsSorted(es[0], rest);
      }
    }
  }

  /** Find returns the only key of that name in a valid network. */
  lemma FindUnique(es: seq<Entry>, name: string, i: nat)
    requires KeysSorted(es) && i < |es| && es[i].key.name == name
    ensures Find(es, name) == Some(i)
  {
    var f := Find(es, name);
    if f != Some(i) {
      var j := f.value;
      StrTrichotomy(es[i].key.name, es[j].key.name);
    }
  }

  /** Lookups in a network with one more entry in front. */
  lemma AtCons(e: Entry, es: seq<Entry>, name: string)
    ensures RoadsAt([e] + es, name) == (if e.key.name == name then e.roads else RoadsAt(es, name))
    ensures KeyAt([e] + es, name) == (if e.key.name == name then Some(e.key) else KeyAt(es, name))
  {
    assert ([e] + es)[1..] == es;
  }

  lemma AtSplit(es: seq<Entry>, name: string)
    requires es != []
    ensures RoadsAt(es, name) == (if es[0].key.name == name then es[0].roads else RoadsAt(es[1..], name))
    ensures KeyAt(es, name) == (if es[0].key.name == name then Some(es[0].key) else KeyAt(es[1..], name))
  {
    AtCons(es[0], es[1..], name);
    assert [es[0]] + es[1..] == es;
  }

  /** A name below the first key of a sorted network is not in it. */
  lemma BelowFirstKey(es: seq<Entry>, name: string)
    requires KeysSorted(es) && es != [] && StrLess(name, es[0].key.name)
    ensures Find(es, name).None?
  {
    forall e | e in es ensures e.key.name != name {
      var j :| 0 <= j < |es| && es[j] == e;
      if j > 0 {
        StrLessTransitive(name, es[0].key.name, e.key.name);
      }
      StrTrichotomy(name, e.key.name);
    }
  }

  /** addCity: the city's name now maps to an empty road set, under the old key
      object when the name was present and under c otherwise. */
  lemma {:induction false} PutCityOwn(es: seq<Entry>, c: City)
    requires KeysSorted(es)
    ensures RoadsAt(PutCity(es, c), c.name) == []
    ensures KeyAt(PutCity(es, c), c.name) == (if KeyAt(es, c.name).Some? then KeyAt(es, c.name) else Some(c))
  {
    if es == [] {
      AtCons(Entry(c, []), [], c.name);
    } else if es[0].key.name == c.name {
      AtCons(Entry(es[0].key, []), es[1..], c.name);
      AtSplit(es, c.name);
    } else if StrLess(c.name, es[0].key.name) {
      AtCons(Entry(c, []), es, c.name);
      BelowFirstKey(es, c.name);
    } else {
      PutCityOwn(es[1..], c);
      AtCons(es[0], PutCity(es[1..], c), c.name);
      AtSplit(es, c.name);
    }
  }

  /** addCity leaves every other name with its key and its roads. */
  lemma {:induction false} PutCityOther(es: seq<Entry>, c: City, name: string)
    requires name != c.name
    ensures RoadsAt(PutCity(es, c), name) == RoadsAt(es, name)
    ensures KeyAt(PutCity(es, c), name) == KeyAt(es, name)
  {
    if es == [] {
      AtCons(Entry(c, []), [], name);
    } else if es[0].key.name == c.name {
      AtCons(Entry(es[0].key, []), es[1..], name);
      AtSplit(es, name);
    } else if StrLess(c.name, es[0].key.name) {
      AtCons(Entry(c, []), es, name);
    } else {
      PutCityOther(es[1..], c, name);
      AtCons(es[0], PutCity(es[1..], c), name);
      AtSplit(es, name);
    }
  }

  /** The roads under name n with r added to that set. */
  function AddUnder(es: seq<Entry>, n: string, r: Road): (t: seq<Entry>)
    ensures |t| == |es|
    ensures forall i :: 0 <= i < |t| ==> t[i].key == es[i].key
    ensures forall i :: 0 <= i < |t| ==> t[i].roads == (if es[i].key.name == n then InsertRoad(r, es[i].roads) else es[i].roads)
  {
    if es == [] then []
    else [if es[0].key.name == n then Entry(es[0].key, InsertRoad(r, es[0].roads)) else es[0]] + AddUnder(es[1..], n, r)
  }

  /** Country.addRoads: nothing for a non-positive length or equal cities;
      otherwise a -> b under a's name and b -> a under b's name, each only
      when that name is a key of this network. */
  function WithRoads(es: seq<Entry>, a: City, b: City, length: int): seq<Entry>
  {
    if length <= 0 || CityEquals(a, b) then es
    else AddUnder(AddUnder(es, a.name, Road(a, b, length)), b.name, Road(b, a, length))
  }

  lemma AddUnderValid(es: seq<Entry>, n: string, r: Road)
    requires NetworkValid(es)
    requires r.from.name == n && r.length >= 1
    ensures NetworkValid(AddUnder(es, n, r))
  {
    var t := AddUnder(es, n, r);
    forall e | e in t ensures RoadsUnder(e.key.name, e.roads) {
      var i :| 0 <= i < |t| && t[i] == e;
      assert es[i] in es;
      if es[i].key.name == n {
        InsertRoadSorted(r, es[i].roads);
      }
    }
  }

  lemma WithRoadsValid(es: seq<Entry>, a: City, b: City, length: int)
    requires NetworkValid(es)
    ensures NetworkValid(WithRoads(es, a, b, length))
  {
    if !(length <= 0 || CityEquals(a, b)) {
      AddUnderValid(es, a.name, Road(a, b, length));
      AddUnderValid(AddUnder(es, a.name, Road(a, b, length)), b.name, Road(b, a, length));
    }
  }

  lemma FindAddUnder(es: seq<Entry>, n: string, r: Road, name: string)
    ensures Find(AddUnder(es, n, r), name) == Find(es, name)
  {
    if es != [] {
      FindAddUnder(es[1..], n, r, name);
    }
  }

  /** addRoads stores a -> b under a only when a's name is registered and
      b -> a under b only when b's name is. When two different cities share a
      name, both roads go to that one key and have the same road-set key, so
      on a road set in order only a -> b is kept. Other names keep their
      roads, and a country holding neither city is unchanged. */
  lemma WithRoadsLookup(es: seq<Entry>, a: City, b: City, length: int, name: string)
    requires length > 0 && !CityEquals(a, b)
    ensures name == a.name == b.name ==>
              RoadsAt(WithRoads(es, a, b, length), name) ==
              (if Find(es, name).Some? then InsertRoad(Road(b, a, length), InsertRoad(Road(a, b, length), RoadsAt(es, name))) else [])
    ensures name == a.name == b.name && RoadsSorted(RoadsAt(es, name)) ==>
              RoadsAt(WithRoads(es, a, b, length), name) ==
              (if Find(es, name).Some? then InsertRoad(Road(a, b, length), RoadsAt(es, name)) else [])
    ensures name == a.name != b.name ==>
              RoadsAt(WithRoads(es, a, b, length), name) ==
              (if Find(es, name).Some? then InsertRoad(Road(a, b, length), RoadsAt(es, name)) else [])
    ensures name == b.name != a.name ==>
              RoadsAt(WithRoads(es, a, b, length), name) ==
              (if Find(es, name).Some? then InsertRoad(Road(b, a, length), RoadsAt(es, name)) else [])
    ensures name != a.name && name != b.name ==> RoadsAt(WithRoads(es, a, b, length), name) == RoadsAt(es, name)
    ensures Find(es, a.name).None? && Find(es, b.name).None? ==> WithRoads(es, a, b, length) == es
    ensures KeyAt(WithRoads(es, a, b, length), name) == KeyAt(es, name)
  {
    var ab := Road(a, b, length);
    var t1 := AddUnder(es, a.name, ab);
    FindAddUnder(es, a.name, ab, name);
    FindAddUnder(t1, b.name, Road(b, a, length), name);
    if Find(es, a.name).None? && Find(es, b.name).None? {
      assert t1 == es;
      assert AddUnder(t1, b.name, Road(b, a, length)) == es;
    }
    if name == a.name == b.name && RoadsSorted(RoadsAt(es, name)) {
      var s1 := InsertRoad(ab, RoadsAt(es, name));
      InsertRoadSorted(ab, RoadsAt(es, name));
      InsertRoadHolds(ab, RoadsAt(es, name));
      var x :| x in s1 && SameKey(x, ab);
      var i :| 0 <= i < |s1| && s1[i] == x;
      InsertRoadPresent(Road(b, a, length), s1, i);
    }
  }

  // ---------------------------------------------------------------------
  // Countries
  // ---------------------------------------------------------------------

  class Country {
    const name: string
    const mafia: bool
    /** The TreeMap from cities to road sets, in key order. */
    var network: seq<Entry>

    ghost predicate Valid()
      reads this
    {
      NetworkValid(network)
    }

    /** Country and MafiaCountry constructors: an empty network. */
    constructor (name: string, mafia: bool)
      ensures this.name == name && this.mafia == mafia && network == [] && Valid()
    {
      this.name := name;
      this.mafia := mafia;
      network := [];
    }

    /** The cities of the network, in key order (getCities). */
    function Cities(): (cs: seq<City>)
      reads this
      ensures |cs| == |network| && forall i :: 0 <= i < |cs| ==> cs[i] == network[i].key
    {
      KeysOf(network)
    }

    /** addCity: the city gets a fresh empty road set. */
    method AddCity(c: City)
      requires Valid()
      modifies this
      ensures Valid() && network == PutCity(old(network), c)
    {
      PutCityValid(network, c);
      network := PutCity(network, c);
    }

    /** addRoads. */
    method AddRoads(a: City, b: City, length: int)
      requires Valid()
      modifies this
      ensures Valid() && network == WithRoads(old(network), a, b, length)
    {
      WithRoadsValid(network, a, b, length);
      if length <= 0 {
        return;
      }
      if CityEquals(a, b) {
        return;
      }
      network := AddUnder(network, a.name, Road(a, b, length));
      network := AddUnder(network, b.name, Road(b, a, length));
    }

    /** getRoads: the set stored under the city's name, empty for an unregistered city. */
    function GetRoads(city: City): (rs: seq<Road>)
      reads this
      ensures Find(network, city.name).None? ==> rs == []
      ensures Valid() ==> forall r :: r in rs ==> r.from.name == city.name && r.length >= 1
      ensures Valid() ==> RoadsSorted(rs)
    {
      RoadsAt(network, city.name)
    }

    /** getCity: the registered city of that name, if any. */
    function GetCity(name: string): (c: Option<City>)
      reads this
      ensures c.Some? ==> c.value.name == name && c.value in Cities()
      ensures c.None? ==> forall k :: k in Cities() ==> k.name != name
    {
      KeyAt(network, name)
    }

    /** position: standing at the city, with no membership check. */
    method Position(city: City) returns (p: Position)
      ensures fresh(p) && p.State() == AtCity(city)
    {
      p := new Position(city, city, 0);
    }

    /** readyToTravel: at `from` when the cities are equal or no road of
        `from` reaches `to`; otherwise on the way to `to` along the first such road. */
    method ReadyToTravel(from: City, to: City) returns (p: Position)
      ensures fresh(p) && p.State() == Departure(GetRoads(from), from, to)
    {
      if CityEquals(from, to) {
        p := Position(from);
        return;
      }
      var road := FirstRoadTo(GetRoads(from), to);
      if road.None? {
        p := Position(from);
        return;
      }
      p := new Position(from, to, road.value.length);
    }

    /** The cities reset resets. */
    function KeyCities(): set<City>
      reads this
    {
      set e | e in network :: e.key
    }

    /** reset: every registered city back to its initial value, and no other city touched. */
    method Reset()
      modifies KeyCities()
      ensures forall c :: c in KeyCities() ==> c.value == c.initialValue
    {
      var i := 0;
      while i < |network|
        invariant 0 <= i <= |network|
        invariant forall j :: 0 <= j < i ==> network[j].key.value == network[j].key.initialValue
      {
        network[i].key.Reset();
        i := i + 1;
      }
      forall c | c in KeyCities() ensures c.value == c.initialValue {
        var e :| e in network && e.key == c;
      }
    }
  }

  function KeysOf(es: seq<Entry>): (cs: seq<City>)
    ensures |cs| == |es| && forall i :: 0 <= i < |cs| ==> cs[i] == es[i].key
  {
    if es == [] then [] else [es[0].key] + KeysOf(es[1..])
  }

  /** The first road of the set that ends in a city equal to `to`. */
  function FirstRoadTo(roads: seq<Road>, to: City): (r: Option<Road>)
    ensures r.Some? ==> r.value in roads && CityEquals(r.value.to, to)
    ensures r.None? <==> forall x :: x in roads ==> !CityEquals(x.to, to)
    ensures r.Some? ==> exists i :: 0 <= i < |roads| && roads[i] == r.value &&
                          forall j :: 0 <= j < i ==> !CityEquals(roads[j].to, to)
  {
    if roads == [] then None
    else if CityEquals(roads[0].to, to) then Some(roads[0])
    else
      var r := FirstRoadTo(roads[1..], to);
      if r.Some? then
        var i :| 0 <= i < |roads[1..]| && roads[1..][i] == r.value &&
                 forall j :: 0 <= j < i ==> !CityEquals(roads[1..][j].to, to);
        assert roads[i + 1] == r.value;
        r
      else r
  }

  /** After inserting r, the set holds a road with r's key. */
  lemma {:induction false} InsertRoadHolds(r: Road, s: seq<Road>)
    ensures exists x :: x in InsertRoad(r, s) && SameKey(x, r)
  {
    if s == [] {
      assert r in InsertRoad(r, s);
    } else if RoadKeyCompare(r, s[0]) == 0 {
      RoadKeyLaws(s[0], r);
      assert s[0] in InsertRoad(r, s);
    } else if RoadKeyCompare(r, s[0]) < 0 {
      assert r in InsertRoad(r, s);
    } else {
      InsertRoadHolds(r, s[1..]);
      var x :| x in InsertRoad(r, s[1..]) && SameKey(x, r);
      assert x in InsertRoad(r, s);
    }
  }

  /** Every road set stored under name n holds a road with r's key. */
  predicate HoldsUnder(es: seq<Entry>, n: string, r: Road)
  {
    forall e :: e in es && e.key.name == n ==> exists x :: x in e.roads && SameKey(x, r)
  }

  lemma AddUnderHolds(es: seq<Entry>, n: string, r: Road)
    ensures HoldsUnder(AddUnder(es, n, r), n, r)
  {
    var t := AddUnder(es, n, r);
    forall e | e in t && e.key.name == n
      ensures exists x :: x in e.roads && SameKey(x, r)
    {
      var i :| 0 <= i < |t| && t[i] == e;
      InsertRoadHolds(r, es[i].roads);
    }
  }

  lemma AddUnderKeepsHolding(es: seq<Entry>, n: string, r: Road, m: string, q: Road)
    requires HoldsUnder(es, m, q)
    ensures HoldsUnder(AddUnder(es, n, r), m, q)
  {
    var t := AddUnder(es, n, r);
    forall e | e in t && e.key.name == m
      ensures exists x :: x in e.roads && SameKey(x, q)
    {
      var i :| 0 <= i < |t| && t[i] == e;
      assert es[i] in es;
      var x :| x in es[i].roads && SameKey(x, q);
      assert x in t[i].roads;
    }
  }

  lemma AddUnderHeld(es: seq<Entry>, n: string, r: Road)
    requires NetworkValid(es) && HoldsUnder(es, n, r)
    ensures AddUnder(es, n, r) == es
  {
    var t := AddUnder(es, n, r);
    forall i | 0 <= i < |es|
      ensures t[i] == es[i]
    {
      if es[i].key.name == n {
        assert es[i] in es;
        var x :| x in es[i].roads && SameKey(x, r);
        var k :| 0 <= k < |es[i].roads| && es[i].roads[k] == x;
        InsertRoadPresent(r, es[i].roads, k);
      }
    }
  }

  /** addRoads twice with the same arguments is addRoads once: after the
      first call every registered end already holds its road. */
  lemma WithRoadsIdempotent(es: seq<Entry>, a: City, b: City, length: int)
    requires NetworkValid(es)
    ensures WithRoads(WithRoads(es, a, b, length), a, b, length) == WithRoads(es, a, b, length)
  {
    if !(length <= 0 || CityEquals(a, b)) {
      var ab, ba := Road(a, b, length), Road(b, a, length);
      var t1 := AddUnder(es, a.name, ab);
      var t2 := AddUnder(t1, b.name, ba);
      WithRoadsValid(es, a, b, length);
      AddUnderHolds(es, a.name, ab);
      AddUnderKeepsHolding(t1, b.name, ba, a.name, ab);
      AddUnderHolds(t1, b.name, ba);
      AddUnderHeld(t2, a.name, ab);
      AddUnderHeld(t2, b.name, ba);
    }
  }

  // ---------------------------------------------------------------------
  // Positions
  // ---------------------------------------------------------------------

  /** The state of a Position: the cities, the distance left and the road's total. */
  datatype Place = Place(from: City, to: City, distance: int, total: int)

  /** Country.position: standing at a city. */
  function AtCity(c: City): Place { Place(c, c, 0, 0) }

  /** Where readyToTravel puts a player. */
  function Departure(roads: seq<Road>, from: City, to: City): (p: Place)
    ensures p.from == from && (p.to == from || p.to == to)
  {
    if CityEquals(from, to) then AtCity(from)
    else match FirstRoadTo(roads, to)
      case None => AtCity(from)
      case Some(r) => Place(from, to, r.length, r.length)
  }

  /** Position.move: one step closer when not yet there. */
  function Moved(p: Place): Place
  {
    if p.distance > 0 then p.(distance := p.distance - 1) else p
  }

  /** Position.turnAround: the cities swap and the distance left becomes the distance covered. */
  function Turned(p: Place): Place
  {
    Place(p.to, p.from, p.total - p.distance, p.total)
  }

  predicate Arrived(p: Place) { p.distance == 0 }

  predicate InRange(p: Place) { 0 <= p.distance <= p.total }

  /** Position.equals: equal cities, distance and total. */
  predicate PlaceEquals(p: Place, q: Place)
  {
    CityEquals(p.from, q.from) && CityEquals(p.to, q.to) && p.distance == q.distance && p.total == q.total
  }

  /** Turning around twice restores the position. */
  lemma TurnedTwice(p: Place)
    ensures Turned(Turned(p)) == p
  {
  }

  /** 0 <= distance <= total is kept by moving and turning around. */
  lemma InRangeKept(p: Place)
    requires InRange(p)
    ensures InRange(Moved(p)) && InRange(Turned(p))
    ensures Moved(p).total == p.total && Turned(p).total == p.total
  {
  }

  /** A zero-length position is a fixed point: it does not move, and turning
      around keeps the distance 0. */
  lemma ZeroLengthFixed(p: Place)
    requires p.distance == 0 && p.total == 0
    ensures Moved(p) == p && Turned(p).distance == 0 && Arrived(Turned(p))
  {
  }

  function MovedTimes(p: Place, k: nat): Place
  {
    if k == 0 then p else Moved(MovedTimes(p, k - 1))
  }

  /** A position in range arrives after exactly `distance` moves and stays there. */
  lemma {:induction false} ArrivesAfterDistanceMoves(p: Place, k: nat)
    requires InRange(p)
    ensures k <= p.distance ==> MovedTimes(p, k) == p.(distance := p.distance - k)
    ensures k >= p.distance ==> Arrived(MovedTimes(p, k)) && MovedTimes(p, k) == p.(distance := 0)
  {
    if k > 0 {
      ArrivesAfterDistanceMoves(p, k - 1);
    }
  }

  /** Position.equals is an equivalence. */
  lemma PlaceEqualsEquivalence(p: Place, q: Place, s: Place)
    ensures PlaceEquals(p, p)
    ensures PlaceEquals(p, q) ==> PlaceEquals(q, p)
    ensures PlaceEquals(p, q) && PlaceEquals(q, s) ==> PlaceEquals(p, s)
  {
  }

  class Position {
    var from: City
    var to: City
    var distance: int
    var total: int

    function State(): Place
      reads this
    {
      Place(from, to, distance, total)
    }

    /** The total is the given distance. */
    constructor (from: City, to: City, distance: int)
      ensures State() == Place(from, to, distance, distance)
    {
      this.from := from;
      this.to := to;
      this.distance := distance;
      this.total := distance;
    }

    /** move: true and one step closer when the distance is positive; otherwise false and no change. */
    method Move() returns (moved: bool)
      modifies this
      ensures moved <==> old(distance) > 0
      ensures State() == Moved(old(State()))
    {
      if distance > 0 {
        distance := distance - 1;
        return true;
      }
      return false;
    }

    /** turnAround. */
    method TurnAround()
      modifies this
      ensures State() == Turned(old(State()))
    {
      from, to := to, from;
      distance := total - distance;
    }

    /** hasArrived. */
    predicate HasArrived()
      reads this
    {
      Arrived(State())
    }

    /** equals. */
    predicate Equals(other: Position)
      reads this, other
    {
      PlaceEquals(State(), other.State())
    }
  }

  // ---------------------------------------------------------------------
  // The world
  // ---------------------------------------------------------------------

  /** Every key and road endpoint of the network is a city of C, and every
      road is at least 1 long. */
  predicate NetworkIn(es: seq<Entry>, C: set<City>)
  {
    forall e :: e in es ==> e.key in C && forall r :: r in e.roads ==> r.from in C && r.to in C && r.length >= 1
  }

  /** Every city of C belongs to a country of K, and the network of every
      country of K lies within C. */
  ghost predicate Closed(K: set<Country>, C: set<City>)
    reads K
  {
    (forall c :: c in C ==> c.country in K) && (forall k :: k in K ==> NetworkIn(k.network, C))
  }

  /** In a closed world the roads of a city lead to cities of the world. */
  lemma ClosedRoads(K: set<Country>, C: set<City>, k: Country, c: City)
    requires Closed(K, C) && k in K
    ensures forall r :: r in k.GetRoads(c) ==> r.from in C && r.to in C && r.length >= 1
  {
    var f := Find(k.network, c.name);
    if f.Some? {
      assert k.network[f.value] in k.network;
    }
  }

  /** The registered cities of a country of the world are cities of the world. */
  lemma ClosedKeys(K: set<Country>, C: set<City>, k: Country)
    requires Closed(K, C) && k in K
    ensures k.KeyCities() <= C
    ensures forall c :: c in k.Cities() ==> c in C
  {
    forall c | c in k.Cities() ensures c in C {
      var i :| 0 <= i < |k.Cities()| && k.Cities()[i] == c;
      assert k.network[i] in k.network;
    }
  }

  /** A network within C stays within C when a city of C is put in it. */
  lemma PutCityIn(es: seq<Entry>, c: City, C: set<City>)
    requires NetworkIn(es, C) && c in C
    ensures NetworkIn(PutCity(es, c), C)
  {
  }

  /** A network within C stays within C when roads between cities of C are added. */
  lemma WithRoadsIn(es: seq<Entry>, a: City, b: City, length: int, C: set<City>)
    requires NetworkIn(es, C) && a in C && b in C
    ensures NetworkIn(WithRoads(es, a, b, length), C)
  {
    if length > 0 && !CityEquals(a, b) {
      var ab, ba := Road(a, b, length), Road(b, a, length);
      var t1 := AddUnder(es, a.name, ab);
      forall e | e in t1 ensures e.key in C && forall r :: r in e.roads ==> r.from in C && r.to in C && r.length >= 1 {
        var i :| 0 <= i < |t1| && t1[i] == e;
        assert es[i] in es;
      }
      var t2 := AddUnder(t1, b.name, ba);
      forall e | e in t2 ensures e.key in C && forall r :: r in e.roads ==> r.from in C && r.to in C && r.length >= 1 {
        var i :| 0 <= i < |t2| && t2[i] == e;
        assert t1[i] in t1;
      }
    }
  }

  /** A world stays closed when C grows. */
  lemma NetworkInGrows(es: seq<Entry>, C: set<City>, D: set<City>)
    requires NetworkIn(es, C) && C <= D
    ensures NetworkIn(es, D)
  {
  }
}

=== FILE: players.dfy ===
/** The players: the common step of Player (move, and on landing collect the
    destination's plain bonus), the setPosition guard, and the four policies
    that choose the next destination once a player stands in a city: the GUI
    player's queue of clicked cities, the greedy, the random and the smart
    player. The subclasses are one class with a kind tag. */
module Players {
  import opened Results
  import opened JavaText
  import opened Rand
  import opened SettingsFile
  import opened Revenue
  import opened Network
  import opened Search

  /** The subclass of a player. */
  datatype Kind = Gui | Greedy | Random | Smart

  /** getName of each subclass. */
  function DisplayName(k: Kind): string
  {
    match k
    case Gui => "GUI Player"
    case Greedy => "Greedy Player"
    case Random => "Random Player"
    case Smart => "Smart Player"
  }

  /** The place of each kind in name order. */
  function Rank(k: Kind): nat
  {
    match k
    case Gui => 0
    case Greedy => 1
    case Random => 2
    case Smart => 3
  }

  /** Player.compareTo: the display names under String.compareTo. */
  function PlayerCompare(a: Kind, b: Kind): int
  {
    CompareStrings(DisplayName(a), DisplayName(b))
  }

  /** Sorting players by name puts the GUI player first, then the greedy,
      the random and the smart player; only equal kinds compare as 0. */
  lemma PlayerOrder(a: Kind, b: Kind)
    ensures PlayerCompare(a, b) < 0 <==> Rank(a) < Rank(b)
    ensures PlayerCompare(a, b) == 0 <==> a == b
  {
    CompareZeroIffEqual(DisplayName(a), DisplayName(b));
    CompareAntisymmetric(DisplayName(a), DisplayName(b));
  }

  // ---------------------------------------------------------------------
  // The common step
  // ---------------------------------------------------------------------

  /** What a step returns: whether the player stands in a city afterwards,
      and the generator. */
  datatype Turn = Turn(arrived: bool, rest: Rng)

  /** The move of this step covers the last unit of the road. */
  predicate Lands(p: Place) { p.distance == 1 }

  /** The draw of a step: the destination's plain arrive() when the player
      lands, nothing otherwise. */
  function Landing(p: Place, value: int, cfg: Fields, g: Rng): Result<Drawn>
  {
    if Lands(p) then Bonus(p.to.country.mafia, value, cfg, g) else Success(Drawn(0, g))
  }

  /** The money a step adds (and the destination's value loses). */
  function Gain(p: Place, value: int, cfg: Fields, g: Rng): int
  {
    var l := Landing(p, value, cfg, g);
    if l.Success? then l.value.amount else 0
  }

  /** The result of Player.step from place p with destination value `value`.
      It throws exactly when the step lands in a mafia country, the first draw
      is a robbery and getLoss has no range to draw from. */
  function StepOutcome(p: Place, value: int, cfg: Fields, g: Rng): (r: Result<Turn>)
    ensures r.Failure? <==> Lands(p) && p.to.country.mafia && RiskDraw(g) < cfg.risk && cfg.maxLoss < cfg.minLoss
    ensures r.Success? ==> r.value.arrived == Arrived(Moved(p))
  {
    MafiaBonusCases(value, cfg, g);
    var l :- Landing(p, value, cfg, g);
    Success(Turn(Arrived(Moved(p)), l.rest))
  }

  /** A step draws only when it lands; it reports arrival exactly when the
      distance was 0 or 1; outside mafia countries it never fails and the
      gain lies in [0, value] (0 for a value that is not positive). */
  lemma StepOutcomeSpec(p: Place, value: int, cfg: Fields, g: Rng)
    ensures !Lands(p) ==> StepOutcome(p, value, cfg, g) == Success(Turn(p.distance == 0, g)) && Gain(p, value, cfg, g) == 0
    ensures Lands(p) ==> StepOutcome(p, value, cfg, g).Success? ==> StepOutcome(p, value, cfg, g).value.arrived
    ensures Lands(p) && !p.to.country.mafia ==>
              StepOutcome(p, value, cfg, g) == Success(Turn(true, PlainBonus(value, g).rest)) &&
              Gain(p, value, cfg, g) == PlainBonus(value, g).amount &&
              0 <= Gain(p, value, cfg, g) <= (if value <= 0 then 0 else value)
  {
    if Lands(p) && !p.to.country.mafia {
      assert Landing(p, value, cfg, g) == Success(PlainBonus(value, g));
    }
  }

  /** A player set on a road of length L >= 1 lands on exactly one step:
      the L-th. */
  lemma {:induction false} LandsOnce(p: Place, k: nat)
    requires InRange(p) && p.distance >= 1
    ensures Lands(MovedTimes(p, k)) <==> k == p.distance - 1
  {
    ArrivesAfterDistanceMoves(p, k);
  }

  /** The result of a whole step of a player of the given kind, from the
      result `base` of Player.step, the roads out of the city it stands in,
      and the smart choice `next`. Only a step that arrives goes on to the
      policy: RandomPlayer draws a road and throws when there is none, and
      SmartPlayer throws when maximizeValue does; the GUI and greedy policies
      never throw and draw nothing. */
  function PolicyOutcome(kind: Kind, base: Result<Turn>, roads: seq<Road>, next: Result<City>): (r: Result<Turn>)
    ensures r.Failure? <==>
              base.Failure? ||
              (base.value.arrived && ((kind == Random && roads == []) || (kind == Smart && next.Failure?)))
    ensures r.Success? ==> r.value.arrived == base.value.arrived
    ensures r.Success? && !(kind == Random && base.value.arrived) ==> r == base
    ensures r.Success? && kind == Random && base.value.arrived ==> r.value.rest == Advance(base.value.rest)
  {
    if base.Failure? || !base.value.arrived then base
    else match kind
      case Gui => base
      case Greedy => base
      case Random =>
        var d :- NextInt(base.value.rest, |roads|);
        Success(Turn(true, d.rest))
      case Smart => if next.Failure? then Failure(next.error) else base
  }

  /** The kinds of player whose step can throw under the settings cfg:
      every kind when getLoss has no range to draw from, and the random and
      smart players in any case. */
  predicate MayThrow(cfg: Fields, kind: Kind)
  {
    cfg.maxLoss < cfg.minLoss || kind == Random || kind == Smart
  }

  /** A step of a kind that cannot throw passes, wherever the player stands,
      whatever the draws and whatever roads lead out. */
  lemma NoThrowPasses(kind: Kind, p: Place, value: int, cfg: Fields, g: Rng, roads: seq<Road>, next: Result<City>)
    requires !MayThrow(cfg, kind)
    ensures PolicyOutcome(kind, StepOutcome(p, value, cfg, g), roads, next).Success?
  {
  }

  /** The city a player of the given kind sets out for after a step, or None
      when it keeps its position: the front of the GUI queue when a road
      leads there, the greedy pick, the random road's end, or the smart
      choice. A player sets out only after a step that arrives and does not
      throw. */
  function PolicyTarget(kind: Kind, base: Result<Turn>, roads: seq<Road>, choices: seq<City>,
                        pick: Option<nat>, next: Result<City>): (t: Option<City>)
    ensures t.Some? ==> PolicyOutcome(kind, base, roads, next).Success? && base.value.arrived
    ensures t.Some? && kind != Smart ==> exists r :: r in roads && CityEquals(r.to, t.value)
    ensures base.Success? && base.value.arrived && roads != [] && kind == Random ==> t.Some?
    ensures base.Success? && base.value.arrived && kind == Smart ==> (t.Some? <==> next.Success?)
    ensures t.Some? && kind == Gui ==> choices != [] && t.value == choices[0]
  {
    if base.Failure? || !base.value.arrived then None
    else match kind
      case Gui =>
        if choices != [] && FirstRoadTo(roads, choices[0]).Some? then Some(choices[0]) else None
      case Greedy =>
        if pick.Some? && pick.value < |roads| then
          assert roads[pick.value] in roads;
          Some(roads[pick.value].to)
        else None
      case Random =>
        var d := NextInt(base.value.rest, |roads|);
        if d.Success? then
          assert roads[d.value.amount] in roads;
          Some(roads[d.value.amount].to)
        else None
      case Smart => if next.Success? then Some(next.value) else None
  }

  /** The GUI and greedy policies never throw and draw nothing; the GUI
      player sets out for the front of its queue when a road leads there. */
  lemma GuiPolicy(base: Result<Turn>, roads: seq<Road>, choices: seq<City>, pick: Option<nat>, next: Result<City>)
    ensures PolicyOutcome(Gui, base, roads, next) == base
    ensures PolicyTarget(Gui, base, roads, choices, pick, next) ==
              if base.Success? && base.value.arrived && choices != [] && FirstRoadTo(roads, choices[0]).Some?
              then Some(choices[0]) else None
  {
  }

  /** The greedy player sets out for the picked road's end after an arrival. */
  lemma GreedyPolicy(base: Result<Turn>, roads: seq<Road>, choices: seq<City>, pick: Option<nat>, next: Result<City>)
    requires pick.Some? ==> pick.value < |roads|
    ensures PolicyOutcome(Greedy, base, roads, next) == base
    ensures PolicyTarget(Greedy, base, roads, choices, pick, next) ==
              if base.Success? && base.value.arrived && pick.Some? then Some(roads[pick.value].to) else None
  {
  }

  /** After an arrival the random player draws a road, and throws when there is none. */
  lemma RandomPolicy(base: Result<Turn>, roads: seq<Road>, choices: seq<City>, pick: Option<nat>, next: Result<City>)
    requires base.Success? && base.value.arrived
    ensures var d := NextInt(base.value.rest, |roads|);
            var t := PolicyTarget(Random, base, roads, choices, pick, next);
            if d.Failure? then PolicyOutcome(Random, base, roads, next) == Failure(d.error) && t.None?
            else PolicyOutcome(Random, base, roads, next) == Success(Turn(true, d.value.rest)) &&
                 t == Some(roads[d.value.amount].to)
  {
  }

  /** After an arrival the smart player sets out for its next stop, and
      throws when the search does. */
  lemma SmartPolicy(base: Result<Turn>, roads: seq<Road>, choices: seq<City>, pick: Option<nat>, next: Result<City>)
    requires base.Success? && base.value.arrived
    ensures var t := PolicyTarget(Smart, base, roads, choices, pick, next);
            if next.Failure? then PolicyOutcome(Smart, base, roads, next) == Failure(next.error) && t.None?
            else PolicyOutcome(Smart, base, roads, next) == base && t == Some(next.value)
  {
  }

  // ---------------------------------------------------------------------
  // The greedy choice
  // ---------------------------------------------------------------------

  /** The ratio of a road: its destination's value over its length. */
  function Ratios(roads: seq<Road>): (xs: seq<real>)
    requires forall r :: r in roads ==> r.length >= 1
    reads set r | r in roads :: r.to
    ensures |xs| == |roads|
    ensures forall i :: 0 <= i < |roads| ==> xs[i] == roads[i].to.value as real / roads[i].length as real
  {
    if roads == [] then []
    else Ratios(roads[..|roads| - 1]) + [roads[|roads| - 1].to.value as real / roads[|roads| - 1].length as real]
  }

  /** The loop of GreedyPlayer.step over the ratios, in set order: `best`
      starts at 0 and a road is taken when its ratio is strictly greater. */
  function Pick(xs: seq<real>): (r: Option<nat>)
    ensures r.Some? ==> r.value < |xs|
  {
    if xs == [] then None
    else
      var a := Pick(xs[..|xs| - 1]);
      var best := if a.Some? then xs[a.value] else 0.0;
      if xs[|xs| - 1] > best then Some(|xs| - 1) else a
  }

  /** The greedy choice is the first road with the largest ratio, provided that
      ratio is positive; there is none exactly when no ratio is positive. */
  lemma {:induction false} PickSpec(xs: seq<real>)
    ensures Pick(xs).None? <==> forall j :: 0 <= j < |xs| ==> xs[j] <= 0.0
    ensures Pick(xs).Some? ==>
              var i := Pick(xs).value;
              xs[i] > 0.0 && (forall j :: 0 <= j < |xs| ==> xs[j] <= xs[i]) && (forall j :: 0 <= j < i ==> xs[j] < xs[i])
  {
    if xs != [] {
      var init := xs[..|xs| - 1];
      PickSpec(init);
      assert forall j :: 0 <= j < |init| ==> init[j] == xs[j];
    }
  }

  /** Conversely, the first positive maximum is the greedy choice. */
  lemma PickUnique(xs: seq<real>, i: nat)
    requires i < |xs| && xs[i] > 0.0
    requires forall j :: 0 <= j < |xs| ==> xs[j] <= xs[i]
    requires forall j :: 0 <= j < i ==> xs[j] < xs[i]
    ensures Pick(xs) == Some(i)
  {
    PickSpec(xs);
    var k := Pick(xs).value;
    assert xs[k] <= xs[i] && xs[i] <= xs[k];
  }

  /** The loop of GreedyPlayer.step: the index of the chosen road, if any. */
  method GreedyIndex(roads: seq<Road>) returns (bestIndex: Option<nat>)
    requires forall r :: r in roads ==> r.length >= 1
    ensures bestIndex == Pick(Ratios(roads))
  {
    var best := 0.0;
    bestIndex := None;
    for k := 0 to |roads|
      invariant bestIndex == Pick(Ratios(roads)[..k])
      invariant best == if bestIndex.Some? then Ratios(roads)[bestIndex.value] else 0.0
    {
      assert roads[k] in roads;
      var value := roads[k].to.value as real / roads[k].length as real;
      assert Ratios(roads)[..k + 1][..k] == Ratios(roads)[..k];
      if value > best {
        bestIndex := Some(k);
        best := value;
      }
    }
    assert Ratios(roads)[..|roads|] == Ratios(roads);
  }

  // ---------------------------------------------------------------------
  // Players
  // ---------------------------------------------------------------------

  class Player {
    const kind: Kind
    var pos: Position
    var money: int
    /** GUIPlayer's queue of pending cities, front first (empty for the other kinds). */
    var choices: seq<City>

    /** The position and the queue lie in the world C. */
    ghost predicate Placed(C: set<City>)
      reads this, pos
    {
      pos.from in C && pos.to in C && forall c :: c in choices ==> c in C
    }

    /** Player(pos, money), and Player(pos) with money 0; the queue starts empty. */
    constructor (kind: Kind, pos: Position, money: int)
      ensures this.kind == kind && this.pos == pos && this.money == money && choices == []
    {
      this.kind := kind;
      this.pos := pos;
      this.money := money;
      choices := [];
    }

    /** setMoney. */
    method SetMoney(money: int)
      modifies this
      ensures this.money == money && pos == old(pos) && choices == old(choices)
    {
      this.money := money;
    }

    /** setPosition: the new position is taken only when the player has
        arrived or the game has not made a step yet (`atStart`, that is
        stepsLeft == totalSteps). */
    method SetPosition(newPos: Position, atStart: bool)
      modifies this
      ensures pos == (if old(pos.HasArrived()) || atStart then newPos else old(pos))
      ensures money == old(money) && choices == old(choices)
    {
      if pos.HasArrived() || atStart {
        pos := newPos;
      }
    }

    /** getFromCountry. */
    function GetFromCountry(): Country
      reads this, pos
    {
      pos.from.country
    }

    /** getCountry: the destination's country once arrived, the origin's while travelling. */
    function GetCountry(): (k: Country)
      reads this, pos
      ensures pos.HasArrived() ==> k == pos.to.country
      ensures !pos.HasArrived() ==> k == GetFromCountry()
    {
      if pos.HasArrived() then pos.to.country else pos.from.country
    }

    /** turnAround. */
    method TurnAround()
      modifies pos
      ensures pos.State() == Turned(old(pos.State()))
    {
      pos.TurnAround();
    }

    /** Player.step: move, and when this move lands, add the destination's
        plain arrive() to the money; report whether the player now stands in
        a city. The position moves even when the draw throws. */
    method BaseStep(cfg: Fields, g: Rng) returns (res: Result<Turn>)
      modifies this, pos, pos.to
      ensures pos == old(pos) && choices == old(choices)
      ensures pos.State() == Moved(old(pos.State()))
      ensures res == StepOutcome(old(pos.State()), old(pos.to.value), cfg, g)
      ensures money == old(money) + Gain(old(pos.State()), old(pos.to.value), cfg, g)
      ensures pos.to.value == old(pos.to.value) - Gain(old(pos.State()), old(pos.to.value), cfg, g)
    {
      var moved := pos.Move();
      if moved && pos.HasArrived() {
        var b := pos.to.Arrive(cfg, g);
        if b.Failure? {
          return Failure(b.error);
        }
        money := money + b.value.amount;
        return Success(Turn(pos.HasArrived(), b.value.rest));
      }
      return Success(Turn(pos.HasArrived(), g));
    }

    /** GUIPlayer.enqueueCity. */
    method EnqueueCity(city: City)
      modifies this
      ensures choices == old(choices) + [city] && pos == old(pos) && money == old(money)
    {
      choices := choices + [city];
    }

    /** GUIPlayer.travelTo. Standing in a city: for every road of it that
        ends in `city`, set the position to readyToTravel(here, city) and clear
        the queue. Travelling: turn around when `city` is the origin, else
        queue it. The country asked is the arrival city's throughout, since
        every position readyToTravel gives starts there. */
    method TravelTo(city: City, atStart: bool)
      modifies this, pos
      ensures money == old(money)
      ensures old(pos.HasArrived()) ==>
                var here := old(pos.to);
                var roads := here.country.GetRoads(here);
                old(pos).State() == old(pos.State()) &&
                if FirstRoadTo(roads, city).Some? then
                  fresh(pos) && pos.State() == Departure(roads, here, city) && choices == []
                else
                  pos == old(pos) && choices == old(choices)
      ensures !old(pos.HasArrived()) ==>
                pos == old(pos) &&
                if CityEquals(city, old(pos.from)) then
                  pos.State() == Turned(old(pos.State())) && choices == old(choices)
                else
                  pos.State() == old(pos.State()) && choices == old(choices) + [city]
    {
      var here := pos.to;
      if pos.HasArrived() {
        var country := here.country;
        var roads := country.GetRoads(here);
        ghost var matched := false;
        for k := 0 to |roads|
          modifies this
          invariant matched <==> exists j :: 0 <= j < k && CityEquals(roads[j].to, city)
          invariant matched ==> fresh(pos) && pos.State() == Departure(roads, here, city) && choices == []
          invariant !matched ==> pos == old(pos) && choices == old(choices)
          invariant money == old(money)
        {
          if CityEquals(roads[k].to, city) {
            var next := country.ReadyToTravel(here, city);
            SetPosition(next, atStart);
            choices := [];
            matched := true;
          }
        }
      } else if CityEquals(city, pos.from) {
        TurnAround();
      } else {
        choices := choices + [city];
      }
    }

    /** GUIPlayer.step: the common step; on a step that reports arrival, the
        front of the queue (if any) is removed and travelled to. */
    method GuiStep(ghost C: set<City>, cfg: Fields, g: Rng, atStart: bool) returns (res: Result<Turn>)
      requires Placed(C)
      modifies this, pos, pos.to
      ensures Placed(C)
      ensures res == StepOutcome(old(pos.State()), old(pos.to.value), cfg, g)
      ensures money == old(money) + Gain(old(pos.State()), old(pos.to.value), cfg, g)
      ensures old(pos).to.value == old(pos.to.value) - Gain(old(pos.State()), old(pos.to.value), cfg, g)
      ensures old(pos).State() == Moved(old(pos.State()))
      ensures if res.Success? && res.value.arrived && old(choices) != [] then
                var here := old(pos.to);
                var roads := here.country.GetRoads(here);
                var c := old(choices)[0];
                if FirstRoadTo(roads, c).Some? then
                  fresh(pos) && pos.State() == Departure(roads, here, c) && choices == []
                else
                  pos == old(pos) && choices == old(choices)[1..]
              else
                pos == old(pos) && choices == old(choices)
    {
      res := BaseStep(cfg, g);
      if res.Success? && res.value.arrived && choices != [] {
        var c := choices[0];
        choices := choices[1..];
        TravelTo(c, atStart);
      }
    }

    /** GreedyPlayer.step: the common step; on a step that reports arrival,
        travel toward the destination of the road with the largest positive
        value/length ratio (the first such road in set order), if any. */
    method GreedyStep(ghost K: set<Country>, ghost C: set<City>, cfg: Fields, g: Rng, atStart: bool)
      returns (res: Result<Turn>)
      requires Closed(K, C) && Placed(C)
      modifies this, pos, pos.to
      ensures Placed(C)
      ensures choices == old(choices)
      ensures res == StepOutcome(old(pos.State()), old(pos.to.value), cfg, g)
      ensures money == old(money) + Gain(old(pos.State()), old(pos.to.value), cfg, g)
      ensures old(pos).to.value == old(pos.to.value) - Gain(old(pos.State()), old(pos.to.value), cfg, g)
      ensures old(pos).State() == Moved(old(pos.State()))
      ensures if res.Success? && res.value.arrived then
                var here := old(pos.to);
                var roads := here.country.GetRoads(here);
                (forall r :: r in roads ==> r.length >= 1 && r.to in C) &&
                var pick := Pick(Ratios(roads));
                if pick.Some? then
                  fresh(pos) && pos.State() == Departure(roads, here, roads[pick.value].to)
                else
                  pos == old(pos)
              else
                pos == old(pos)
    {
      res := BaseStep(cfg, g);
      if res.Success? && res.value.arrived {
        GreedyTurn(K, C, atStart);
      }
    }

    /** The part of GreedyPlayer.step after an arrival: travel toward the
        destination of the road with the largest positive ratio, if any. */
    method GreedyTurn(ghost K: set<Country>, ghost C: set<City>, atStart: bool)
      requires Closed(K, C) && pos.to in C && pos.HasArrived()
      modifies this
      ensures choices == old(choices) && money == old(money)
      ensures var here := old(pos.to);
              var roads := here.country.GetRoads(here);
              (forall r :: r in roads ==> r.length >= 1 && r.to in C) &&
              var pick := Pick(Ratios(roads));
              if pick.Some? then
                fresh(pos) && pos.State() == Departure(roads, here, roads[pick.value].to)
              else
                pos == old(pos)
    {
      var here := pos.to;
      var country := here.country;
      var roads := country.GetRoads(here);
      ClosedRoads(K, C, country, here);
      var bestIndex := GreedyIndex(roads);
      if bestIndex.Some? {
        Depart(roads, bestIndex.value, atStart);
      }
    }

    /** The greedy player sets out along the i-th road out of the city it
        has arrived in; the cities, and so the ratios, stay as they are. */
    method Depart(roads: seq<Road>, i: nat, atStart: bool)
      requires pos.HasArrived() && i < |roads| && roads == pos.to.country.GetRoads(pos.to)
      requires forall r :: r in roads ==> r.length >= 1
      modifies this
      ensures fresh(pos) && pos.State() == Departure(roads, old(pos.to), roads[i].to)
      ensures choices == old(choices) && money == old(money)
      ensures Ratios(roads) == old(Ratios(roads))
    {
      ghost var ratios := Ratios(roads);
      var next := pos.to.country.ReadyToTravel(pos.to, roads[i].to);
      SetPosition(next, atStart);
      forall j | 0 <= j < |roads| ensures Ratios(roads)[j] == ratios[j] {
        assert roads[j] in roads;
      }
    }

    /** RandomPlayer.step: the common step; on a step that reports arrival,
        one draw r in [0, number of roads) picks the r-th road in set order and
        the player travels toward its destination; with no roads the draw throws. */
    method RandomStep(ghost K: set<Country>, ghost C: set<City>, cfg: Fields, g: Rng, atStart: bool)
      returns (res: Result<Turn>)
      requires Closed(K, C) && Placed(C)
      modifies this, pos, pos.to
      ensures Placed(C)
      ensures choices == old(choices)
      ensures money == old(money) + Gain(old(pos.State()), old(pos.to.value), cfg, g)
      ensures old(pos).to.value == old(pos.to.value) - Gain(old(pos.State()), old(pos.to.value), cfg, g)
      ensures old(pos).State() == Moved(old(pos.State()))
      ensures var base := StepOutcome(old(pos.State()), old(pos.to.value), cfg, g);
              if base.Success? && base.value.arrived then
                var here := old(pos.to);
                var roads := here.country.GetRoads(here);
                var d := NextInt(base.value.rest, |roads|);
                (forall r :: r in roads ==> r.to in C) &&
                if d.Failure? then
                  res == Failure(d.error) && pos == old(pos)
                else
                  res == Success(Turn(true, d.value.rest)) && fresh(pos) &&
                  pos.State() == Departure(roads, here, roads[d.value.amount].to)
              else
                res == base && pos == old(pos)
    {
      res := BaseStep(cfg, g);
      if res.Success? && res.value.arrived {
        var here := pos.to;
        var country := here.country;
        var roads := country.GetRoads(here);
        ClosedRoads(K, C, country, here);
        var d := NextInt(res.value.rest, |roads|);
        if d.Failure? {
          return Failure(d.error);
        }
        var next := country.ReadyToTravel(here, roads[d.value.amount].to);
        SetPosition(next, atStart);
        res := Success(Turn(true, d.value.rest));
      }
    }

    /** SmartPlayer.step: the common step; on a step that reports arrival,
        travel toward maximizeValue(here, stepsLeft). */
    method SmartStep(ghost K: set<Country>, ghost C: set<City>, cfg: Fields, g: Rng, atStart: bool, stepsLeft: int)
      returns (res: Result<Turn>)
      requires Closed(K, C) && Placed(C)
      modifies this, pos, pos.to
      ensures Placed(C)
      ensures choices == old(choices)
      ensures money == old(money) + Gain(old(pos.State()), old(pos.to.value), cfg, g)
      ensures old(pos).to.value == old(pos.to.value) - Gain(old(pos.State()), old(pos.to.value), cfg, g)
      ensures old(pos).State() == Moved(old(pos.State()))
      ensures var base := StepOutcome(old(pos.State()), old(pos.to.value), cfg, g);
              if base.Success? && base.value.arrived then
                var here := old(pos.to);
                var next := NextStop(K, C, here, stepsLeft);
                if next.Failure? then
                  res == Failure(next.error) && pos == old(pos)
                else
                  res == base && fresh(pos) &&
                  pos.State() == Departure(here.country.GetRoads(here), here, next.value) &&
                  (next.value == here || exists r :: r in here.country.GetRoads(here) && r.to == next.value)
              else
                res == base && pos == old(pos)
    {
      res := BaseStep(cfg, g);
      if res.Success? && res.value.arrived {
        var next := SmartTurn(K, C, atStart, stepsLeft);
        if next.Failure? {
          return Failure(next.error);
        }
      }
    }

    /** The part of SmartPlayer.step after an arrival: the search picks the
        next stop, itself or a neighbour, and the player sets out for it; a
        throw of the search is passed on with the position kept. */
    method SmartTurn(ghost K: set<Country>, ghost C: set<City>, atStart: bool, stepsLeft: int) returns (next: Result<City>)
      requires Closed(K, C) && Placed(C) && pos.HasArrived()
      modifies this
      ensures Placed(C) && choices == old(choices) && money == old(money)
      ensures next == NextStop(K, C, old(pos.to), stepsLeft)
      ensures var here := old(pos.to);
              if next.Failure? then
                pos == old(pos)
              else
                fresh(pos) && pos.State() == Departure(here.country.GetRoads(here), here, next.value) &&
                (next.value == here || exists r :: r in here.country.GetRoads(here) && r.to == next.value)
    {
      var here := pos.to;
      next := MaximizeNext(K, C, here, stepsLeft);
      if next.Failure? {
        return;
      }
      NextStopIsNeighbour(K, C, here, stepsLeft);
      var p := here.country.ReadyToTravel(here, next.value);
      SetPosition(p, atStart);
    }

    /** The step of the player's own class. Whatever the policy, the move of
        Player.step happens on the old position object and the money grows by
        its gain; the position is kept or replaced by a fresh one, and the
        player stays within the world. A step that does not report arrival
        is just Player.step. */
    method Step(ghost K: set<Country>, ghost C: set<City>, cfg: Fields, g: Rng, atStart: bool, stepsLeft: int)
      returns (res: Result<Turn>)
      requires Closed(K, C) && Placed(C)
      modifies this, pos, pos.to
      ensures Placed(C)
      ensures pos == old(pos) || fresh(pos)
      ensures old(pos).State() == Moved(old(pos.State()))
      ensures money == old(money) + Gain(old(pos.State()), old(pos.to.value), cfg, g)
      ensures old(pos).to.value == old(pos.to.value) - Gain(old(pos.State()), old(pos.to.value), cfg, g)
      ensures kind != Gui ==> choices == old(choices)
      ensures var base := StepOutcome(old(pos.State()), old(pos.to.value), cfg, g);
              !(base.Success? && base.value.arrived) ==> res == base && pos == old(pos)
      ensures var here := old(pos.to);
              var roads := here.country.GetRoads(here);
              var base := StepOutcome(old(pos.State()), old(pos.to.value), cfg, g);
              var next := NextStop(K, C, here, stepsLeft);
              res == PolicyOutcome(kind, base, roads, next)
      ensures kind == Gui ==>
                var base := StepOutcome(old(pos.State()), old(pos.to.value), cfg, g);
                if base.Success? && base.value.arrived && old(choices) != [] then
                  var here := old(pos.to);
                  var roads := here.country.GetRoads(here);
                  var c := old(choices)[0];
                  if FirstRoadTo(roads, c).Some? then
                    fresh(pos) && pos.State() == Departure(roads, here, c) && choices == []
                  else
                    pos == old(pos) && choices == old(choices)[1..]
                else
                  pos == old(pos) && choices == old(choices)
      ensures kind == Greedy ==>
                var base := StepOutcome(old(pos.State()), old(pos.to.value), cfg, g);
                base.Success? && base.value.arrived ==>
                  var here := old(pos.to);
                  var roads := here.country.GetRoads(here);
                  var pick := Pick(Ratios(roads));
                  if pick.Some? then
                    fresh(pos) && pos.State() == Departure(roads, here, roads[pick.value].to)
                  else
                    pos == old(pos)
      ensures kind == Random ==>
                var base := StepOutcome(old(pos.State()), old(pos.to.value), cfg, g);
                base.Success? && base.value.arrived ==>
                  var here := old(pos.to);
                  var roads := here.country.GetRoads(here);
                  var d := NextInt(base.value.rest, |roads|);
                  if d.Failure? then
                    pos == old(pos)
                  else
                    fresh(pos) && pos.State() == Departure(roads, here, roads[d.value.amount].to)
      ensures kind == Smart ==>
                var base := StepOutcome(old(pos.State()), old(pos.to.value), cfg, g);
                base.Success? && base.value.arrived ==>
                  var here := old(pos.to);
                  var next := NextStop(K, C, here, stepsLeft);
                  if next.Failure? then
                    pos == old(pos)
                  else
                    fresh(pos) && pos.State() == Departure(here.country.GetRoads(here), here, next.value)
    {
      var here := pos.to;
      ClosedRoads(K, C, here.country, here);
      ghost var roads := here.country.GetRoads(here);
      match kind {
        case Gui =>
          res := GuiStep(C, cfg, g, atStart);
        case Greedy =>
          res := GreedyStep(K, C, cfg, g, atStart);
        case Random =>
          res := RandomStep(K, C, cfg, g, atStart);
        case Smart =>
          res := SmartStep(K, C, cfg, g, atStart, stepsLeft);
          assert here.country.GetRoads(here) == roads;
      }
    }
  }
}

=== FILE: random.dfy ===
/** The game's java.util.Random, seen only through nextInt(n). The raw
    numbers the generator produces are a parameter of the model (`stream`,
    as many of them as a run takes; a draw past its end reads 0); `used`
    counts the draws taken so far. */
module Rand {
  import opened Results

  datatype Rng = Rng(stream: seq<nat>, used: nat)

  /** A drawn amount and the generator after the draw. */
  datatype Drawn = Drawn(amount: int, rest: Rng)

  /** The generator once one more draw has been taken. */
  function Advance(g: Rng): Rng { Rng(g.stream, g.used + 1) }

  /** The raw number of the next draw. */
  function Raw(g: Rng): nat
  {
    if g.used < |g.stream| then g.stream[g.used] else 0
  }

  /** Random.nextInt(n): a value in [0, n) that consumes one draw, or
      IllegalArgumentException when the bound is not positive. */
  function NextInt(g: Rng, n: int): (r: Result<Drawn>)
    ensures r.Failure? <==> n <= 0
    ensures r.Failure? ==> r.error == IllegalArgument
    ensures r.Success? ==> 0 <= r.value.amount < n && r.value.rest == Advance(g)
  {
    if n <= 0 then Failure(IllegalArgument)
    else Success(Drawn(Raw(g) % n, Advance(g)))
  }

  /** The generator that answers k to its next draw. */
  function Answering(k: nat): Rng { Rng([k], 0) }

  /** Every value of the range can be drawn: nextInt(n) is not narrower than [0, n). */
  lemma EveryValueDrawable(n: int, k: int)
    requires 0 <= k < n
    ensures NextInt(Answering(k), n).Success? && NextInt(Answering(k), n).value.amount == k
  {
  }
}

=== FILE: results.dfy ===
/** Failure-carrying results for the operations of the game whose Java
    counterparts throw: the generator's illegal bound, a path spliced onto a
    road that does not join it, and the settings parser's two exceptions. */
module Results {

  /** The exceptions the modelled code can raise. */
  datatype Error =
    | IllegalArgument          // Random.nextInt with a bound <= 0
    | InvalidRoad              // PlayerPath.addRoad on a road that does not join the path
    | EmptyStack               // Stack.peek on an empty path
    | WrongLineCount(n: int)   // SettingsException: not exactly six lines
    | WrongFlagCount(n: int)   // SettingsException: first line not three characters long
    | NumberFormat             // NumberFormatException from Integer.parseInt

  datatype Result<+T> = Success(value: T) | Failure(error: Error) {
    predicate IsFailure() { Failure? }
    function PropagateFailure<U>(): Result<U>
      requires Failure?
    {
      Failure(error)
    }
    function Extract(): T
      requires Success?
    {
      value
    }
  }

  /** The result of an operation that returns nothing but may throw. */
  datatype Outcome = Pass | Fail(error: Error)

  /** A reference that may be null. */
  datatype Option<+T> = None | Some(value: T)
}

=== FILE: revenue.dfy ===
/** The revenue protocol as functions of the values involved and of the
    generator: Country.bonus, MafiaCountry.bonus, Game.getLoss, and the
    arithmetic of BorderCity.arrive(Player) and CapitalCity.arrive(Player).
    The City class applies these to its `value` field. */
module Revenue {
  import opened Results
  import opened Rand
  import opened SettingsFile

  /** Country.bonus: nothing for a value that is not positive (and no draw),
      otherwise one draw in [0, value]. */
  function PlainBonus(value: int, g: Rng): (r: Drawn)
    ensures value <= 0 ==> r == Drawn(0, g)
    ensures value > 0 ==> 0 <= r.amount <= value && r.rest == Advance(g)
  {
    if value <= 0 then Drawn(0, g)
    else NextInt(g, value + 1).value
  }

  /** Game.getLoss: minLoss plus one draw in [0, maxLoss - minLoss]; the draw
      throws when maxLoss < minLoss. */
  function Loss(cfg: Fields, g: Rng): (r: Result<Drawn>)
    ensures r.Success? <==> cfg.minLoss <= cfg.maxLoss
    ensures r.Failure? ==> r.error == IllegalArgument
    ensures r.Success? ==> cfg.minLoss <= r.value.amount <= cfg.maxLoss && r.value.rest == Advance(g)
  {
    var d :- NextInt(g, cfg.maxLoss - cfg.minLoss + 1);
    Success(Drawn(cfg.minLoss + d.amount, d.rest))
  }

  /** MafiaCountry.bonus: a draw in [0, 100) below the risk is a robbery of
      getLoss(); otherwise the plain bonus on the following draw. */
  function MafiaBonus(value: int, cfg: Fields, g: Rng): Result<Drawn>
  {
    var r := NextInt(g, 100).value;
    if r.amount < cfg.risk then
      var loss :- Loss(cfg, r.rest);
      Success(Drawn(-loss.amount, loss.rest))
    else Success(PlainBonus(value, r.rest))
  }

  /** country.bonus(value), dispatched on the country's class. */
  function Bonus(mafia: bool, value: int, cfg: Fields, g: Rng): Result<Drawn>
  {
    if mafia then MafiaBonus(value, cfg, g) else Success(PlainBonus(value, g))
  }

  /** The first draw of MafiaCountry.bonus. */
  function RiskDraw(g: Rng): int
  {
    NextInt(g, 100).value.amount
  }

  /** The first draw decides: below the risk it is a robbery of
      -(minLoss + d) with d in [0, maxLoss - minLoss] drawn next; otherwise it
      is exactly Country.bonus on the next draw, which lies in [0, value]. */
  lemma MafiaBonusCases(value: int, cfg: Fields, g: Rng)
    ensures 0 <= RiskDraw(g) < 100
    ensures RiskDraw(g) < cfg.risk ==>
              MafiaBonus(value, cfg, g) == (
                match Loss(cfg, Advance(g))
                case Failure(e) => Failure(e)
                case Success(d) => Success(Drawn(-d.amount, d.rest)))
    ensures RiskDraw(g) >= cfg.risk ==>
              MafiaBonus(value, cfg, g) == Success(PlainBonus(value, Advance(g)))
  {
  }

  /** A robbery always lies in [-maxLoss, -minLoss]. */
  lemma RobberyRange(value: int, cfg: Fields, g: Rng)
    requires RiskDraw(g) < cfg.risk
    requires cfg.minLoss <= cfg.maxLoss
    ensures MafiaBonus(value, cfg, g).Success?
    ensures -cfg.maxLoss <= MafiaBonus(value, cfg, g).value.amount <= -cfg.minLoss
  {
  }

  /** Without a robbery the mafia bonus is a plain bonus, in [0, value] or 0. */
  lemma NoRobberyRange(value: int, cfg: Fields, g: Rng)
    requires RiskDraw(g) >= cfg.risk
    ensures MafiaBonus(value, cfg, g).Success?
    ensures 0 <= MafiaBonus(value, cfg, g).value.amount
    ensures value <= 0 ==> MafiaBonus(value, cfg, g).value.amount == 0
    ensures value > 0 ==> MafiaBonus(value, cfg, g).value.amount <= value
  {
  }

  /** A risk of 0 or less never robs: the result is the plain bonus on the second draw. */
  lemma NoRiskNeverRobs(value: int, cfg: Fields, g: Rng)
    requires cfg.risk <= 0
    ensures MafiaBonus(value, cfg, g) == Success(PlainBonus(value, Advance(g)))
  {
    assert RiskDraw(g) >= 0;
  }

  /** A risk of 100 or more always robs. */
  lemma FullRiskAlwaysRobs(value: int, cfg: Fields, g: Rng)
    requires cfg.risk >= 100
    requires cfg.minLoss <= cfg.maxLoss
    ensures MafiaBonus(value, cfg, g).Success?
    ensures -cfg.maxLoss <= MafiaBonus(value, cfg, g).value.amount <= -cfg.minLoss
  {
    assert RiskDraw(g) < 100;
    RobberyRange(value, cfg, g);
  }

  /** The robbery check comes before the guard on the value, so a city worth
      nothing in a mafia country can still yield a negative amount. */
  lemma RobberyBeforeGuard(value: int, cfg: Fields)
    requires value <= 0
    requires cfg.risk > 0 && 0 < cfg.minLoss <= cfg.maxLoss
    ensures exists g: Rng :: MafiaBonus(value, cfg, g).Success? && MafiaBonus(value, cfg, g).value.amount < 0
  {
    var g := Answering(0);
    assert RiskDraw(g) == 0;
    RobberyRange(value, cfg, g);
  }

  // ---------------------------------------------------------------------
  // Tolls and the border and capital arrivals
  // ---------------------------------------------------------------------

  /** Java's int division by a positive divisor, which truncates toward zero. */
  function JavaDiv(a: int, b: int): (q: int)
    requires b > 0
    ensures a >= 0 ==> q == a / b
  {
    if a >= 0 then a / b else -((-a) / b)
  }

  /** Truncation toward zero, for the divisor the toll uses: the quotient is
      symmetric in the sign of the dividend, and 100 times it lies between 0
      and the dividend. */
  lemma JavaDivTruncates(a: int)
    ensures JavaDiv(-a, 100) == -JavaDiv(a, 100)
    ensures a >= 0 ==> 0 <= JavaDiv(a, 100) * 100 <= a
    ensures a < 0 ==> a <= JavaDiv(a, 100) * 100 <= 0
  {
  }

  /** The toll: money times the toll percentage, divided by 100 with truncation. */
  function Toll(money: int, percent: int): int
  {
    JavaDiv(money * percent, 100)
  }

  /** 20% of 250 is 50, and a negative balance gives a toll truncated toward zero. */
  lemma TollExamples()
    ensures Toll(250, 20) == 50
    ensures Toll(-7, 20) == -1
  {
  }

  /** The outcome of an arrival: the net amount returned, the city's value
      afterwards, and the generator. */
  datatype Arrival = Arrival(net: int, valueAfter: int, rest: Rng)

  /** BorderCity.arrive(Player): the plain arrival first (bonus drawn on the
      pre-toll value, value lowered by it), then a toll added to the value when
      the player's from-country differs from the city's country. */
  function BorderArrival(mafia: bool, value: int, crossing: bool, money: int, cfg: Fields, g: Rng): Result<Arrival>
  {
    var b :- Bonus(mafia, value, cfg, g);
    var toll := if crossing then Toll(money, cfg.toll) else 0;
    Success(Arrival(b.amount - toll, value - b.amount + toll, b.rest))
  }

  /** CapitalCity.arrive(Player): the border arrival, then one more draw in
      [0, money + b] of money spent in the city, where b is the border result. */
  function CapitalArrival(mafia: bool, value: int, crossing: bool, money: int, cfg: Fields, g: Rng): Result<Arrival>
  {
    var a :- BorderArrival(mafia, value, crossing, money, cfg, g);
    var s :- NextInt(a.rest, money + a.net + 1);
    Success(Arrival(a.net - s.amount, a.valueAfter + s.amount, s.rest))
  }

  /** The border arrival in terms of the bonus: the result is bonus - toll and
      the value ends at value - bonus + toll, where a toll is charged exactly on
      a crossing; on the same country the result is the bonus itself. Money is
      conserved: what the player gets is what the city loses. */
  lemma BorderArrivalSpec(mafia: bool, value: int, crossing: bool, money: int, cfg: Fields, g: Rng)
    ensures BorderArrival(mafia, value, crossing, money, cfg, g).Success? <==> Bonus(mafia, value, cfg, g).Success?
    ensures Bonus(mafia, value, cfg, g).Success? ==>
              var b := Bonus(mafia, value, cfg, g).value;
              var toll := if crossing then Toll(money, cfg.toll) else 0;
              BorderArrival(mafia, value, crossing, money, cfg, g) == Success(Arrival(b.amount - toll, value - b.amount + toll, b.rest))
    ensures Bonus(mafia, value, cfg, g).Success? && !crossing ==>
              var b := Bonus(mafia, value, cfg, g).value;
              BorderArrival(mafia, value, crossing, money, cfg, g) == Success(Arrival(b.amount, value - b.amount, b.rest))
    ensures BorderArrival(mafia, value, crossing, money, cfg, g).Success? ==>
              var a := BorderArrival(mafia, value, crossing, money, cfg, g).value;
              a.net + a.valueAfter == value
  {
  }

  /** The money spent at a capital lies in [0, money + b], the city keeps it,
      and the player's balance after adding the result is never negative when
      money + b is not. */
  lemma CapitalArrivalSpec(mafia: bool, value: int, crossing: bool, money: int, cfg: Fields, g: Rng)
    requires BorderArrival(mafia, value, crossing, money, cfg, g).Success?
    requires money + BorderArrival(mafia, value, crossing, money, cfg, g).value.net >= 0
    ensures CapitalArrival(mafia, value, crossing, money, cfg, g).Success?
    ensures var a := BorderArrival(mafia, value, crossing, money, cfg, g).value;
            var c := CapitalArrival(mafia, value, crossing, money, cfg, g).value;
            var spent := a.net - c.net;
            0 <= spent <= money + a.net && c.valueAfter == a.valueAfter + spent && c.rest == Advance(a.rest)
            && money + c.net >= 0
  {
  }

  /** A border result that would leave the player below zero (a robbery
      bigger than the balance, say) gives nextInt a bound of at most 0: it throws. */
  lemma CapitalArrivalThrows(mafia: bool, value: int, crossing: bool, money: int, cfg: Fields, g: Rng)
    requires BorderArrival(mafia, value, crossing, money, cfg, g).Success?
    requires money + BorderArrival(mafia, value, crossing, money, cfg, g).value.net < 0
    ensures CapitalArrival(mafia, value, crossing, money, cfg, g) == Failure(IllegalArgument)
  {
  }
}

=== FILE: search.dfy ===
/** SmartPlayer's route search: a bounded depth-first search over the roads of
    the map that builds PlayerPath stacks, scores them by the values of the
    cities they pass (discounted for repeated visits and for distance), and
    keeps the best under a three-level comparison. */
module Search {
  import opened Results
  import opened JavaText
  import opened Network

  /** The search looks at most this many steps ahead. */
  const MAX_DEPTH: int := 200

  function Min(a: int, b: int): int { if a <= b then a else b }

  // ---------------------------------------------------------------------
  // Paths
  // ---------------------------------------------------------------------

  /** The state of a PlayerPath: the road stack (bottom first, so the last
      element is the top, the first road to take), the length and the value. */
  datatype PathState = PathState(edges: seq<Road>, length: int, value: real)

  const EmptyPath: PathState := PathState([], 0, 0.0)

  function Top(p: PathState): Road
    requires p.edges != []
  {
    p.edges[|p.edges| - 1]
  }

  /** x to the power n. */
  function Power(x: real, n: nat): (y: real)
    ensures x > 0.0 ==> y > 0.0
  {
    if n == 0 then 1.0 else x * Power(x, n - 1)
  }

  /** Math.pow(2, e) for any integer exponent. */
  function Pow2(e: int): (y: real)
    ensures y > 0.0
  {
    if e >= 0 then Power(2.0, e) else 1.0 / Power(2.0, -e)
  }

  /** The propensity to prefer shorter paths. */
  const IMPULSIVENESS: real := 1.1

  /** valueFrom and valueTo: a city's value divided by 2^(penalty-1) and by
      the impulsiveness to the power of the path size. */
  function Share(cityValue: int, penalty: int, size: nat): real
  {
    cityValue as real / (Pow2(penalty - 1) * Power(IMPULSIVENESS, size))
  }

  /** PlayerPath.addRoad: a road may go on top only when it ends where the
      current top road starts; the first road also scores its start city. The
      road is pushed, its length added and its end city scored at the new size. */
  function Extend(p: PathState, r: Road, penalty: int, fromValue: int, toValue: int): Result<PathState>
  {
    if p.edges != [] && !CityEquals(Top(p).from, r.to) then Failure(InvalidRoad)
    else
      var v := if p.edges == [] then p.value + Share(fromValue, penalty, 0) else p.value;
      Success(PathState(p.edges + [r], p.length + r.length, v + Share(toValue, penalty, |p.edges| + 1)))
  }

  /** The roads, read from the top of the stack down, form a walk: each road
      ends where the road above it starts. */
  predicate Contiguous(edges: seq<Road>)
  {
    forall j :: 0 <= j < |edges| - 1 ==> CityEquals(edges[j].from, edges[j + 1].to)
  }

  function SumLengths(edges: seq<Road>): int
  {
    if edges == [] then 0 else SumLengths(edges[..|edges| - 1]) + edges[|edges| - 1].length
  }

  /** What a path built by addRoad alone satisfies. */
  predicate WalkInvariant(p: PathState)
  {
    Contiguous(p.edges) && p.length == SumLengths(p.edges)
  }

  /** addRoad on a non-empty path fails exactly when the road does not end
      where the top road starts; on success the road is the new top, the
      length grows by its length, and the walk invariant is kept. */
  lemma ExtendSpec(p: PathState, r: Road, penalty: int, fromValue: int, toValue: int)
    requires WalkInvariant(p)
    ensures Extend(p, r, penalty, fromValue, toValue).Failure? <==> p.edges != [] && !CityEquals(Top(p).from, r.to)
    ensures Extend(p, r, penalty, fromValue, toValue).Success? ==>
              var q := Extend(p, r, penalty, fromValue, toValue).value;
              WalkInvariant(q) && Top(q) == r && q.edges[..|p.edges|] == p.edges && q.length == p.length + r.length
  {
    if Extend(p, r, penalty, fromValue, toValue).Success? {
      var q := Extend(p, r, penalty, fromValue, toValue).value;
      assert q.edges[..|q.edges| - 1] == p.edges;
    }
  }

  /** PlayerPath.compareTo: higher value first, then shorter length, then
      Road.compareTo of the top roads, which needs both stacks non-empty. */
  function PathCompare(a: PathState, b: PathState): Result<int>
  {
    if a.value > b.value then Success(1)
    else if a.value < b.value then Success(-1)
    else if a.length < b.length then Success(1)
    else if a.length > b.length then Success(-1)
    else if a.edges == [] || b.edges == [] then Failure(EmptyStack)
    else Success(RoadCompare(Top(a), Top(b)))
  }

  /** The replacement test of the search: compareTo returns exactly 1. */
  predicate Beats(a: PathState, b: PathState)
  {
    PathCompare(a, b) == Success(1)
  }

  /** a is at least as good as b on the first two levels: no lower value, and
      no longer when the values tie. */
  predicate NotWorse(a: PathState, b: PathState)
  {
    a.value > b.value || (a.value == b.value && a.length <= b.length)
  }

  /** compareTo negates when its arguments are swapped, it fails only when the
      values and lengths tie and a stack is empty, and a path that wins is
      never worse on value and length. */
  lemma PathCompareLaws(a: PathState, b: PathState)
    ensures PathCompare(a, b).Failure? <==> a.value == b.value && a.length == b.length && (a.edges == [] || b.edges == [])
    ensures PathCompare(a, b).Success? ==> PathCompare(b, a) == Success(-PathCompare(a, b).value)
    ensures Beats(a, b) ==> NotWorse(a, b)
    ensures PathCompare(a, b).Success? && !Beats(a, b) ==> NotWorse(b, a)
  {
    if a.edges != [] && b.edges != [] {
      RoadCompareLaws(Top(a), Top(b));
    }
  }

  lemma NotWorseTransitive(a: PathState, b: PathState, c: PathState)
    requires NotWorse(a, b) && NotWorse(b, c)
    ensures NotWorse(a, c)
  {
  }

  class PlayerPath {
    var edges: seq<Road>
    var length: int
    var value: real

    function State(): PathState
      reads this
    {
      PathState(edges, length, value)
    }

    /** An empty stack, length 0, value 0. */
    constructor ()
      ensures State() == EmptyPath
    {
      edges := [];
      length := 0;
      value := 0.0;
    }

    /** addRoad: throws and changes nothing on a road that does not join the path. */
    method AddRoad(r: Road, penalty: int) returns (out: Outcome)
      modifies this
      ensures var e := Extend(old(State()), r, penalty, r.from.value, r.to.value);
              (e.Failure? ==> out == Fail(e.error) && State() == old(State())) &&
              (e.Success? ==> out == Pass && State() == e.value)
    {
      if edges != [] {
        var top := edges[|edges| - 1];
        if !CityEquals(top.from, r.to) {
          return Fail(InvalidRoad);
        }
      } else {
        value := value + Share(r.from.value, penalty, |edges|);
      }
      edges := edges + [r];
      length := length + r.length;
      value := value + Share(r.to.value, penalty, |edges|);
      return Pass;
    }

    /** getRoad: the top of the stack; peek on an empty stack throws. */
    function GetRoad(): (r: Result<Road>)
      reads this
      ensures r.Failure? <==> edges == []
      ensures r.Success? ==> r.value == Top(State())
    {
      if edges == [] then Failure(EmptyStack) else Success(edges[|edges| - 1])
    }

    predicate IsEmpty()
      reads this
    {
      edges == []
    }
  }

  // ---------------------------------------------------------------------
  // The search
  // ---------------------------------------------------------------------

  /** The identity of a HashMap key City: what City.equals compares. */
  datatype CityKey = CityKey(name: string, countryName: string, mafia: bool, kind: CityKind)

  function Key(c: City): CityKey
  {
    CityKey(c.name, c.country.name, c.country.mafia, c.kind)
  }

  /** Equal cities are one key of the visit map. */
  lemma KeyIdentity(a: City, b: City)
    ensures Key(a) == Key(b) <==> CityEquals(a, b)
  {
  }

  /** The visit count of a city, 0 when absent. */
  function Visits(visits: map<CityKey, int>, c: City): int
  {
    if Key(c) in visits then visits[Key(c)] else 0
  }

  /** The candidate reached over road r: the branch's own copy of the visit
      map with the destination's count raised by one, the best path from the
      destination within the remaining budget, and r added with that count
      as the penalty. */
  ghost function Candidate(K: set<Country>, C: set<City>, visits: map<CityKey, int>, n: int, r: Road): Result<PathState>
    requires Closed(K, C) && r.from in C && r.to in C && 1 <= r.length <= n
    reads K, C
    decreases n, 0, 0
  {
    var v := Visits(visits, r.to) + 1;
    var sub :- Best(K, C, visits[Key(r.to) := v], r.to, n - r.length);
    Extend(sub, r, v, r.from.value, r.to.value)
  }

  /** The loop over roads[k..], starting from the best path so far. */
  ghost function BestFrom(K: set<Country>, C: set<City>, visits: map<CityKey, int>, c: City, n: int,
                          roads: seq<Road>, k: nat, p: PathState): Result<PathState>
    requires Closed(K, C) && c in C && roads == c.country.GetRoads(c) && k <= |roads|
    reads K, C
    decreases n, 1, |roads| - k
  {
    if k == |roads| then Success(p)
    else
      ClosedRoads(K, C, c.country, c);
      var r := roads[k];
      if r.length <= n then
        var cand :- Candidate(K, C, visits, n, r);
        var cmp :- PathCompare(cand, p);
        BestFrom(K, C, visits, c, n, roads, k + 1, if cmp == 1 then cand else p)
      else BestFrom(K, C, visits, c, n, roads, k + 1, p)
  }

  /** maximizeValue(visits, c, i): the best path from c within min(200, i) steps. */
  ghost function Best(K: set<Country>, C: set<City>, visits: map<CityKey, int>, c: City, i: int): Result<PathState>
    requires Closed(K, C) && c in C
    reads K, C
    decreases i, 2, 0
  {
    BestFrom(K, C, visits, c, Min(MAX_DEPTH, i), c.country.GetRoads(c), 0, EmptyPath)
  }

  /** One iteration of the loop over roads. */
  lemma BestFromStep(K: set<Country>, C: set<City>, visits: map<CityKey, int>, c: City, n: int,
                     roads: seq<Road>, k: nat, p: PathState)
    requires Closed(K, C) && c in C && roads == c.country.GetRoads(c) && k < |roads|
    ensures roads[k] in roads && roads[k].from in C && roads[k].to in C && roads[k].length >= 1
    ensures roads[k].length > n ==> BestFrom(K, C, visits, c, n, roads, k, p) == BestFrom(K, C, visits, c, n, roads, k + 1, p)
    ensures roads[k].length <= n ==>
              BestFrom(K, C, visits, c, n, roads, k, p) ==
              match Candidate(K, C, visits, n, roads[k])
              case Failure(e) => Failure(e)
              case Success(cand) =>
                match PathCompare(cand, p)
                case Failure(e) => Failure(e)
                case Success(cmp) => BestFrom(K, C, visits, c, n, roads, k + 1, if cmp == 1 then cand else p)
  {
    ClosedRoads(K, C, c.country, c);
    assert roads[k] in roads;
  }

  /** The candidate over r in terms of the search from r's destination. */
  lemma CandidateStep(K: set<Country>, C: set<City>, visits: map<CityKey, int>, n: int, r: Road)
    requires Closed(K, C) && r.from in C && r.to in C && 1 <= r.length <= n
    ensures var v := Visits(visits, r.to) + 1;
            Candidate(K, C, visits, n, r) ==
            match Best(K, C, visits[Key(r.to) := v], r.to, n - r.length)
            case Failure(e) => Failure(e)
            case Success(sub) => Extend(sub, r, v, r.from.value, r.to.value)
  {
  }

  /** maximizeValue(visits, c, i), recursively with a loop over the roads of c. */
  method MaximizeValue(ghost K: set<Country>, ghost C: set<City>, visits: map<CityKey, int>, c: City, i: int)
    returns (best: Result<PlayerPath>)
    requires Closed(K, C) && c in C
    decreases i, 2, 0
    ensures best.Success? ==> fresh(best.value) && Best(K, C, visits, c, i) == Success(best.value.State())
    ensures best.Failure? ==> Best(K, C, visits, c, i) == Failure(best.error)
  {
    var n := Min(MAX_DEPTH, i);
    var roads := c.country.GetRoads(c);
    var p := new PlayerPath();
    var k := 0;
    while k < |roads|
      invariant 0 <= k <= |roads|
      invariant fresh(p)
      invariant BestFrom(K, C, visits, c, n, roads, k, p.State()) == Best(K, C, visits, c, i)
    {
      var next := TryRoad(K, C, visits, c, n, roads, k, p);
      if next.Failure? {
        return Failure(next.error);
      }
      p := next.value;
      k := k + 1;
    }
    return Success(p);
  }

  /** The body of the loop: a road longer than the budget is skipped;
      otherwise the candidate over it is kept when it compares as 1 against
      the best so far. */
  method TryRoad(ghost K: set<Country>, ghost C: set<City>, visits: map<CityKey, int>, c: City, n: int,
                 roads: seq<Road>, k: nat, p: PlayerPath)
    returns (next: Result<PlayerPath>)
    requires Closed(K, C) && c in C && roads == c.country.GetRoads(c) && k < |roads|
    decreases n, 1, 0
    ensures next.Success? ==> (next.value == p || fresh(next.value))
    ensures next.Success? ==>
              BestFrom(K, C, visits, c, n, roads, k, p.State()) == BestFrom(K, C, visits, c, n, roads, k + 1, next.value.State())
    ensures next.Failure? ==> BestFrom(K, C, visits, c, n, roads, k, p.State()) == Failure(next.error)
  {
    BestFromStep(K, C, visits, c, n, roads, k, p.State());
    var r := roads[k];
    if r.length > n {
      return Success(p);
    }
    var path := CandidatePath(K, C, visits, n, r);
    if path.Failure? {
      return Failure(path.error);
    }
    var cmp := PathCompare(path.value.State(), p.State());
    if cmp.Failure? {
      return Failure(cmp.error);
    }
    if cmp.value == 1 {
      return Success(path.value);
    }
    return Success(p);
  }

  /** The candidate over road r: search on from its destination with the
      destination's visit count raised in the branch's own copy of the map,
      then push r with that count as the penalty. */
  method CandidatePath(ghost K: set<Country>, ghost C: set<City>, visits: map<CityKey, int>, n: int, r: Road)
    returns (path: Result<PlayerPath>)
    requires Closed(K, C) && r.from in C && r.to in C && 1 <= r.length <= n
    decreases n, 0, 0
    ensures path.Success? ==> fresh(path.value) && Candidate(K, C, visits, n, r) == Success(path.value.State())
    ensures path.Failure? ==> Candidate(K, C, visits, n, r) == Failure(path.error)
  {
    var to := r.to;
    var v := Visits(visits, to) + 1;
    var sub := MaximizeValue(K, C, visits[Key(to) := v], to, n - r.length);
    if sub.Failure? {
      CandidateStep(K, C, visits, n, r);
      return Failure(sub.error);
    }
    ghost var before := sub.value.State();
    var added := sub.value.AddRoad(r, v);
    CandidateStep(K, C, visits, n, r);
    assert Candidate(K, C, visits, n, r) == Extend(before, r, v, r.from.value, r.to.value);
    if added.Fail? {
      return Failure(added.error);
    }
    return Success(sub.value);
  }

  // ---------------------------------------------------------------------
  // What the search guarantees
  // ---------------------------------------------------------------------

  /** The shape of every path a search returns from c within budget n: empty,
      or a walk whose top road is a road of c, whose length is the sum of its
      road lengths and at most n. */
  predicate PathFrom(c: City, roads: seq<Road>, n: int, p: PathState)
  {
    WalkInvariant(p) &&
    (p.edges == [] ==> p == EmptyPath) &&
    (p.edges != [] ==> Top(p) in roads && p.length <= n)
  }

  /** A candidate over r is a walk topped by r and within the budget. */
  lemma {:induction false} CandidateShape(K: set<Country>, C: set<City>, visits: map<CityKey, int>, n: int, r: Road)
    requires Closed(K, C) && r.from in C && r.to in C && 1 <= r.length <= n
    requires Candidate(K, C, visits, n, r).Success?
    ensures var cand := Candidate(K, C, visits, n, r).value;
            WalkInvariant(cand) && cand.edges != [] && Top(cand) == r && cand.length <= n
    decreases n, 0, 1
  {
    var v := Visits(visits, r.to) + 1;
    CandidateStep(K, C, visits, n, r);
    var sub := Best(K, C, visits[Key(r.to) := v], r.to, n - r.length).value;
    BestShape(K, C, visits[Key(r.to) := v], r.to, n - r.length);
    ExtendSpec(sub, r, v, r.from.value, r.to.value);
  }

  lemma {:induction false} BestFromShape(K: set<Country>, C: set<City>, visits: map<CityKey, int>, c: City, n: int,
                                         roads: seq<Road>, k: nat, p: PathState)
    requires Closed(K, C) && c in C && roads == c.country.GetRoads(c) && k <= |roads|
    requires PathFrom(c, roads, n, p)
    requires BestFrom(K, C, visits, c, n, roads, k, p).Success?
    ensures PathFrom(c, roads, n, BestFrom(K, C, visits, c, n, roads, k, p).value)
    decreases n, 1, |roads| - k
  {
    if k < |roads| {
      BestFromStep(K, C, visits, c, n, roads, k, p);
      var r := roads[k];
      if r.length <= n {
        CandidateShape(K, C, visits, n, r);
        var cand := Candidate(K, C, visits, n, r).value;
        var cmp := PathCompare(cand, p).value;
        BestFromShape(K, C, visits, c, n, roads, k + 1, if cmp == 1 then cand else p);
      } else {
        BestFromShape(K, C, visits, c, n, roads, k + 1, p);
      }
    }
  }

  /** Every path maximizeValue returns from c is empty or a contiguous walk
      that starts with a road of c and has total length at most min(200, i),
      equal to the sum of its road lengths. */
  lemma {:induction false} BestShape(K: set<Country>, C: set<City>, visits: map<CityKey, int>, c: City, i: int)
    requires Closed(K, C) && c in C
    requires Best(K, C, visits, c, i).Success?
    ensures PathFrom(c, c.country.GetRoads(c), Min(MAX_DEPTH, i), Best(K, C, visits, c, i).value)
    decreases i, 2, 0
  {
    BestFromShape(K, C, visits, c, Min(MAX_DEPTH, i), c.country.GetRoads(c), 0, EmptyPath);
  }

  /** The loop never ends worse than its starting path, and ends no worse
      than any candidate it considered. */
  lemma {:induction false} BestFromOptimal(K: set<Country>, C: set<City>, visits: map<CityKey, int>, c: City, n: int,
                                           roads: seq<Road>, k: nat, p: PathState, j: nat)
    requires Closed(K, C) && c in C && roads == c.country.GetRoads(c) && k <= |roads|
    requires BestFrom(K, C, visits, c, n, roads, k, p).Success?
    ensures NotWorse(BestFrom(K, C, visits, c, n, roads, k, p).value, p)
    ensures k <= j < |roads| && roads[j].length <= n ==>
              roads[j] in roads &&
              Candidate(K, C, visits, n, roads[j]).Success? &&
              NotWorse(BestFrom(K, C, visits, c, n, roads, k, p).value, Candidate(K, C, visits, n, roads[j]).value)
    decreases |roads| - k
  {
    if k < |roads| {
      ClosedRoads(K, C, c.country, c);
      var r := roads[k];
      assert r in roads;
      var res := BestFrom(K, C, visits, c, n, roads, k, p).value;
      if r.length <= n {
        var cand := Candidate(K, C, visits, n, r).value;
        PathCompareLaws(cand, p);
        var next := if PathCompare(cand, p).value == 1 then cand else p;
        BestFromOptimal(K, C, visits, c, n, roads, k + 1, next, j);
        NotWorseTransitive(res, next, p);
        if j == k {
          NotWorseTransitive(res, next, cand);
        }
      } else {
        BestFromOptimal(K, C, visits, c, n, roads, k + 1, p, j);
      }
    }
  }

  /** The path maximizeValue returns has a value of at least 0 (the empty
      path's), and every road of c within the budget leads to a candidate
      with no higher value, and no shorter length at an equal value. */
  lemma BestOptimal(K: set<Country>, C: set<City>, visits: map<CityKey, int>, c: City, i: int, j: nat)
    requires Closed(K, C) && c in C
    requires Best(K, C, visits, c, i).Success?
    ensures Best(K, C, visits, c, i).value.value >= 0.0
    ensures j < |c.country.GetRoads(c)| && c.country.GetRoads(c)[j].length <= Min(MAX_DEPTH, i) ==>
              var r := c.country.GetRoads(c)[j];
              r in c.country.GetRoads(c) &&
              Candidate(K, C, visits, Min(MAX_DEPTH, i), r).Success? &&
              NotWorse(Best(K, C, visits, c, i).value, Candidate(K, C, visits, Min(MAX_DEPTH, i), r).value)
  {
    BestFromOptimal(K, C, visits, c, Min(MAX_DEPTH, i), c.country.GetRoads(c), 0, EmptyPath, j);
  }

  /** maximizeValue(c, n): the destination of the best path's first road, or
      c itself when no path beats the empty one. */
  ghost function NextStop(K: set<Country>, C: set<City>, c: City, n: int): Result<City>
    requires Closed(K, C) && c in C
    reads K, C
  {
    var best :- Best(K, C, map[Key(c) := 1], c, n);
    if best.edges == [] then Success(c) else Success(Top(best).to)
  }

  /** The next stop is c or the end of one of c's roads. */
  lemma NextStopIsNeighbour(K: set<Country>, C: set<City>, c: City, n: int)
    requires Closed(K, C) && c in C
    requires NextStop(K, C, c, n).Success?
    ensures var d := NextStop(K, C, c, n).value;
            d == c || exists r :: r in c.country.GetRoads(c) && r.to == d
  {
    BestShape(K, C, map[Key(c) := 1], c, n);
  }

  /** maximizeValue(c, n) with the visit map {c: 1}. */
  method MaximizeNext(ghost K: set<Country>, ghost C: set<City>, c: City, n: int) returns (next: Result<City>)
    requires Closed(K, C) && c in C
    ensures next == NextStop(K, C, c, n)
  {
    var visited := map[Key(c) := 1];
    var best := MaximizeValue(K, C, visited, c, n);
    if best.Failure? {
      return Failure(best.error);
    }
    if best.value.IsEmpty() {
      return Success(c);
    }
    var road := best.value.GetRoad();
    return Success(road.value.to);
  }
}

=== FILE: settings.dfy ===
/** Settings: which AI players are active, the toll percentage, the robbery
    risk and loss range, and the game speed, with the six-line text format in
    which they are stored (one value per line, every line ended by CR LF). */
module SettingsFile {
  import opened Results
  import opened JavaText

  /** The values a Settings object holds; `active` is the three-element array
      of AI-player flags (0 = random, 1 = greedy, 2 = smart). */
  datatype Fields = Fields(active: seq<bool>, toll: int, risk: int, minLoss: int, maxLoss: int, speed: int)

  /** The values of `new Settings()`. */
  const Defaults: Fields := Fields([true, true, true], 20, 20, 10, 50, 2)

  /** The values any Settings object can hold: three flags, 32-bit integers. */
  predicate Storable(f: Fields)
  {
    |f.active| == 3 && IsInt32(f.toll) && IsInt32(f.risk) && IsInt32(f.minLoss)
    && IsInt32(f.maxLoss) && IsInt32(f.speed)
  }

  // ---------------------------------------------------------------------
  // The text format: toString
  // ---------------------------------------------------------------------

  function FlagChar(b: bool): char { if b then '1' else '0' }

  /** The flags written one character each, in order. */
  function FlagsText(a: seq<bool>): (s: string)
    ensures |s| == |a|
    ensures forall j :: 0 <= j < |a| ==> s[j] == FlagChar(a[j])
  {
    if a == [] then "" else FlagsText(a[..|a| - 1]) + [FlagChar(a[|a| - 1])]
  }

  /** Every line followed by CR LF. */
  function Terminated(lines: seq<string>): string
  {
    if lines == [] then "" else lines[0] + "\r\n" + Terminated(lines[1..])
  }

  /** The six lines of the format: the flags, then toll, risk, minimum loss,
      maximum loss and speed in decimal. */
  function FormatLines(f: Fields): seq<string>
  {
    [FlagsText(f.active), IntToString(f.toll), IntToString(f.risk), IntToString(f.minLoss),
     IntToString(f.maxLoss), IntToString(f.speed)]
  }

  /** Settings.toString: the flags, then each number, every line ended by CR LF. */
  function Format(f: Fields): string
  {
    FlagsText(f.active) + "\r\n" + IntToString(f.toll) + "\r\n" + IntToString(f.risk) + "\r\n"
    + IntToString(f.minLoss) + "\r\n" + IntToString(f.maxLoss) + "\r\n" + IntToString(f.speed) + "\r\n"
  }

  // ---------------------------------------------------------------------
  // The text format: the parser
  // ---------------------------------------------------------------------

  /** s.replace("\r", ""). */
  function RemoveCR(s: string): (r: string)
    ensures '\r' !in r
  {
    if s == [] then "" else (if s[0] == '\r' then "" else [s[0]]) + RemoveCR(s[1..])
  }

  /** All pieces between line feeds, empty ones included. */
  function SplitAll(s: string): (r: seq<string>)
    ensures |r| >= 1
  {
    if s == [] then [""]
    else
      var rest := SplitAll(s[1..]);
      if s[0] == '\n' then [""] + rest else [[s[0]] + rest[0]] + rest[1..]
  }

  function DropTrailingEmpty(p: seq<string>): seq<string>
  {
    if p != [] && p[|p| - 1] == "" then DropTrailingEmpty(p[..|p| - 1]) else p
  }

  /** s.split("\n"): the input itself when it holds no line feed, and otherwise
      the pieces between line feeds with trailing empty pieces removed. */
  function SplitLines(s: string): seq<string>
  {
    if '\n' !in s then [s] else DropTrailingEmpty(SplitAll(s))
  }

  /** The effect of line k of the loop in Settings(String) on the values read so far. */
  function ApplyLine(d: Fields, k: int, line: string): (r: Result<Fields>)
  {
    if k == 0 then
      if |line| != 3 then Failure(WrongFlagCount(|line|))
      else Success(d.(active := [line[0] == '1', line[1] == '1', line[2] == '1']))
    else if k == 1 then var v :- ParseInt(line); Success(d.(toll := v))
    else if k == 2 then var v :- ParseInt(line); Success(d.(risk := v))
    else if k == 3 then var v :- ParseInt(line); Success(d.(minLoss := v))
    else if k == 4 then var v :- ParseInt(line); Success(d.(maxLoss := v))
    else if k == 5 then var v :- ParseInt(line); Success(d.(speed := v))
    else Success(d)
  }

  /** Lines k.. applied in order, stopping at the first exception. */
  function ApplyFrom(d: Fields, lines: seq<string>, k: nat): Result<Fields>
    decreases |lines| - k
  {
    if k >= |lines| then Success(d)
    else
      var d' :- ApplyLine(d, k, lines[k]);
      ApplyFrom(d', lines, k + 1)
  }

  /** Settings(String): the values the parser produces, or the exception it throws. */
  function ParseFields(text: string): Result<Fields>
  {
    var lines := SplitLines(RemoveCR(text));
    if |lines| != 6 then Failure(WrongLineCount(|lines|))
    else ApplyFrom(Defaults, lines, 0)
  }

  /** Settings(String[]): the lines joined, each followed by CR LF, and parsed. */
  function ParseLines(lines: seq<string>): Result<Fields>
  {
    ParseFields(Terminated(lines))
  }

  // ---------------------------------------------------------------------
  // Properties of the format
  // ---------------------------------------------------------------------

  lemma {:induction false} RemoveCRAppend(a: string, b: string)
    ensures RemoveCR(a + b) == RemoveCR(a) + RemoveCR(b)
  {
    if a == [] {
      assert a + b == b;
    } else {
      var h := if a[0] == '\r' then "" else [a[0]];
      assert (a + b)[0] == a[0] && (a + b)[1..] == a[1..] + b;
      RemoveCRAppend(a[1..], b);
      assert RemoveCR(a + b) == h + RemoveCR(a[1..] + b);
      assert RemoveCR(a) == h + RemoveCR(a[1..]);
    }
  }

  lemma {:induction false} RemoveCRKeeps(a: string)
    requires '\r' !in a
    ensures RemoveCR(a) == a
  {
    if a != [] {
      RemoveCRKeeps(a[1..]);
      assert a == [a[0]] + a[1..];
    }
  }

  /** Every line followed by a bare line feed. */
  function LfTerminated(lines: seq<string>): string
  {
    if lines == [] then "" else lines[0] + "\n" + LfTerminated(lines[1..])
  }

  lemma {:induction false} TerminatedSnoc(lines: seq<string>, x: string)
    ensures Terminated(lines + [x]) == Terminated(lines) + x + "\r\n"
  {
    if lines == [] {
      assert [] + [x] == [x];
    } else {
      TerminatedSnoc(lines[1..], x);
      assert (lines + [x])[1..] == lines[1..] + [x];
    }
  }

  predicate PlainLine(s: string) { '\r' !in s && '\n' !in s }

  lemma {:induction false} RemoveCRTerminated(lines: seq<string>)
    requires forall i :: 0 <= i < |lines| ==> PlainLine(lines[i])
    ensures RemoveCR(Terminated(lines)) == LfTerminated(lines)
  {
    if lines != [] {
      RemoveCRTerminated(lines[1..]);
      var l := lines[0];
      RemoveCRAppend(l + "\r\n", Terminated(lines[1..]));
      RemoveCRAppend(l, "\r\n");
      RemoveCRKeeps(l);
      assert RemoveCR("\r\n") == "\n";
      assert Terminated(lines) == (l + "\r\n") + Terminated(lines[1..]);
      assert LfTerminated(lines) == (l + "\n") + LfTerminated(lines[1..]);
    }
  }

  lemma {:induction false} SplitAllLine(x: string, rest: string)
    requires '\n' !in x
    ensures SplitAll(x + "\n" + rest) == [x] + SplitAll(rest)
  {
    if x == [] {
      assert x + "\n" + rest == "\n" + rest;
      assert ("\n" + rest)[1..] == rest;
    } else {
      SplitAllLine(x[1..], rest);
      assert (x + "\n" + rest)[1..] == x[1..] + "\n" + rest;
      assert [x[0]] + x[1..] == x;
    }
  }

  lemma {:induction false} SplitAllTerminated(lines: seq<string>)
    requires forall i :: 0 <= i < |lines| ==> '\n' !in lines[i]
    ensures SplitAll(LfTerminated(lines)) == lines + [""]
  {
    if lines != [] {
      SplitAllTerminated(lines[1..]);
      SplitAllLine(lines[0], LfTerminated(lines[1..]));
      assert lines == [lines[0]] + lines[1..];
    }
  }

  lemma DropOneEmpty(lines: seq<string>)
    requires lines != [] && lines[|lines| - 1] != ""
    ensures DropTrailingEmpty(lines + [""]) == lines
  {
    var p := lines + [""];
    assert p[..|p| - 1] == lines;
  }

  /** Splitting text written as terminated lines gives back exactly those lines,
      provided the last one is not empty: the final line feed's empty piece is dropped. */
  lemma SplitLinesTerminated(lines: seq<string>)
    requires lines != [] && lines[|lines| - 1] != ""
    requires forall i :: 0 <= i < |lines| ==> '\n' !in lines[i]
    ensures SplitLines(LfTerminated(lines)) == lines
  {
    SplitAllTerminated(lines);
    var t := LfTerminated(lines);
    assert t == lines[0] + "\n" + LfTerminated(lines[1..]);
    assert t[|lines[0]|] == '\n';
    DropOneEmpty(lines);
  }

  lemma IntToStringPlain(n: int)
    ensures PlainLine(IntToString(n)) && IntToString(n) != ""
  {
    var s := IntToString(n);
    forall i | 0 <= i < |s| ensures s[i] != '\r' && s[i] != '\n' {
      assert IsDigit(s[i]) || s[i] == '-';
    }
  }

  lemma FlagsPlain(a: seq<bool>)
    ensures PlainLine(FlagsText(a))
  {
    var s := FlagsText(a);
    forall i | 0 <= i < |s| ensures s[i] != '\r' && s[i] != '\n' {
      assert s[i] == FlagChar(a[i]);
    }
  }

  /** toString writes exactly the six lines, each followed by CR LF. */
  lemma FormatTerminated(f: Fields)
    ensures Format(f) == Terminated(FormatLines(f))
  {
    var a, b, c, d, e, g := FlagsText(f.active), IntToString(f.toll), IntToString(f.risk),
                            IntToString(f.minLoss), IntToString(f.maxLoss), IntToString(f.speed);
    TerminatedSnoc([], a);
    assert [] + [a] == [a] && "" + a == a;
    TerminatedSnoc([a], b);
    assert [a] + [b] == [a, b];
    TerminatedSnoc([a, b], c);
    assert [a, b] + [c] == [a, b, c];
    TerminatedSnoc([a, b, c], d);
    assert [a, b, c] + [d] == [a, b, c, d];
    TerminatedSnoc([a, b, c, d], e);
    assert [a, b, c, d] + [e] == [a, b, c, d, e];
    TerminatedSnoc([a, b, c, d, e], g);
    assert [a, b, c, d, e] + [g] == FormatLines(f);
  }

  /** The text of plain, non-empty-ended lines splits back into those lines. */
  lemma TerminatedSplits(ls: seq<string>)
    requires ls != [] && ls[|ls| - 1] != ""
    requires forall i :: 0 <= i < |ls| ==> PlainLine(ls[i])
    ensures SplitLines(RemoveCR(Terminated(ls))) == ls
  {
    RemoveCRTerminated(ls);
    SplitLinesTerminated(ls);
  }

  /** The six lines of a storable value are read back into that value. */
  lemma ApplyFormatLines(f: Fields)
    requires Storable(f)
    ensures ApplyFrom(Defaults, FormatLines(f), 0) == Success(f)
  {
    var ls := FormatLines(f);
    var flags := ls[0];
    assert [flags[0] == '1', flags[1] == '1', flags[2] == '1'] == f.active;
    ParseIntToString(f.toll);
    ParseIntToString(f.risk);
    ParseIntToString(f.minLoss);
    ParseIntToString(f.maxLoss);
    ParseIntToString(f.speed);
    var d1 := Defaults.(active := f.active);
    var d2 := d1.(toll := f.toll);
    var d3 := d2.(risk := f.risk);
    var d4 := d3.(minLoss := f.minLoss);
    var d5 := d4.(maxLoss := f.maxLoss);
    assert ApplyFrom(f, ls, 6) == Success(f);
    assert ApplyFrom(d5, ls, 5) == ApplyFrom(f, ls, 6);
    assert ApplyFrom(d4, ls, 4) == ApplyFrom(d5, ls, 5);
    assert ApplyFrom(d3, ls, 3) == ApplyFrom(d4, ls, 4);
    assert ApplyFrom(d2, ls, 2) == ApplyFrom(d3, ls, 3);
    assert ApplyFrom(d1, ls, 1) == ApplyFrom(d2, ls, 2);
    assert ApplyFrom(Defaults, ls, 0) == ApplyFrom(d1, ls, 1);
  }

  lemma FormatLinesPlain(f: Fields)
    ensures var ls := FormatLines(f);
            |ls| == 6 && ls[5] != "" && forall i :: 0 <= i < 6 ==> PlainLine(ls[i])
  {
    FlagsPlain(f.active);
    IntToStringPlain(f.toll);
    IntToStringPlain(f.risk);
    IntToStringPlain(f.minLoss);
    IntToStringPlain(f.maxLoss);
    IntToStringPlain(f.speed);
  }

  /** Settings(String[]) on the six lines of a storable value rebuilds that value. */
  lemma ParseLinesFormat(f: Fields)
    requires Storable(f)
    ensures ParseLines(FormatLines(f)) == Success(f)
  {
    FormatLinesPlain(f);
    TerminatedSplits(FormatLines(f));
    ApplyFormatLines(f);
  }

  /** Parsing the output of toString reproduces every field. */
  lemma ParseFormat(f: Fields)
    requires Storable(f)
    ensures ParseFields(Format(f)) == Success(f)
  {
    FormatTerminated(f);
    ParseLinesFormat(f);
  }

  /** Text that does not split into exactly six lines is refused with a SettingsException. */
  lemma WrongLineCountRefused(text: string)
    requires |SplitLines(RemoveCR(text))| != 6
    ensures ParseFields(text) == Failure(WrongLineCount(|SplitLines(RemoveCR(text))|))
  {
  }

  /** With six lines, a first line whose length is not 3 is refused with a SettingsException. */
  lemma WrongFlagLineRefused(text: string)
    requires |SplitLines(RemoveCR(text))| == 6
    requires |SplitLines(RemoveCR(text))[0]| != 3
    ensures ParseFields(text) == Failure(WrongFlagCount(|SplitLines(RemoveCR(text))[0]|))
  {
  }

  lemma {:induction false} ApplyFromBadInt(d: Fields, lines: seq<string>, k: nat, bad: nat)
    requires k <= bad && 1 <= bad < |lines| && bad <= 5
    requires ParseInt(lines[bad]).Failure?
    requires forall j :: k <= j < bad ==> ApplyLine(d, j, lines[j]).Success? || ApplyLine(d, j, lines[j]).error == NumberFormat
    requires k == 0 ==> |lines[0]| == 3
    ensures ApplyFrom(d, lines, k) == Failure(NumberFormat)
    decreases bad - k
  {
    if k == bad {
      assert ApplyLine(d, k, lines[k]) == Failure(NumberFormat);
    } else {
      match ApplyLine(d, k, lines[k])
      case Failure(e) =>
      case Success(d') =>
        forall j | k + 1 <= j < bad
          ensures ApplyLine(d', j, lines[j]).Success? || ApplyLine(d', j, lines[j]).error == NumberFormat
        {
          assert j >= 1;
        }
        ApplyFromBadInt(d', lines, k + 1, bad);
    }
  }

  /** A first line of three characters followed by a non-integer on one of
      lines 2 to 6 raises NumberFormatException, not SettingsException. */
  lemma NonIntegerRefused(text: string, bad: nat)
    requires |SplitLines(RemoveCR(text))| == 6
    requires |SplitLines(RemoveCR(text))[0]| == 3
    requires 1 <= bad <= 5 && ParseInt(SplitLines(RemoveCR(text))[bad]).Failure?
    ensures ParseFields(text) == Failure(NumberFormat)
  {
    var lines := SplitLines(RemoveCR(text));
    forall j | 0 <= j < bad
      ensures ApplyLine(Defaults, j, lines[j]).Success? || ApplyLine(Defaults, j, lines[j]).error == NumberFormat
    {
    }
    ApplyFromBadInt(Defaults, lines, 0, bad);
  }

  lemma {:induction false} ApplyFromFlags(d: Fields, lines: seq<string>, k: nat, f: Fields)
    requires 1 <= k
    requires ApplyFrom(d, lines, k) == Success(f)
    ensures f.active == d.active
    decreases |lines| - k
  {
    if k < |lines| {
      var d' := ApplyLine(d, k, lines[k]).value;
      ApplyFromFlags(d', lines, k + 1, f);
    }
  }

  /** After a successful parse, AI player j is active exactly when character j
      of the first line is '1'; any other character means inactive. */
  lemma ParsedFlags(text: string, j: nat)
    requires ParseFields(text).Success?
    requires j < 3
    ensures var lines := SplitLines(RemoveCR(text));
            |lines| == 6 && |lines[0]| == 3 && |ParseFields(text).value.active| == 3 &&
            (ParseFields(text).value.active[j] <==> lines[0][j] == '1')
  {
    var lines := SplitLines(RemoveCR(text));
    assert |lines| == 6;
    var d1 := ApplyLine(Defaults, 0, lines[0]).value;
    ApplyFromFlags(d1, lines, 1, ParseFields(text).value);
  }

  // ---------------------------------------------------------------------
  // The Settings object
  // ---------------------------------------------------------------------

  class Settings {
    var activePlayers: array<bool>
    var tollSize: int
    var robRisk: int
    var minLoss: int
    var maxLoss: int
    var gameSpeed: int

    ghost predicate Valid()
      reads this
    {
      activePlayers.Length == 3
    }

    /** The values this object holds. */
    function Data(): Fields
      reads this, activePlayers
    {
      Fields(activePlayers[..], tollSize, robRisk, minLoss, maxLoss, gameSpeed)
    }

    /** Settings(): all players active, toll 20, risk 20, loss 10..50, speed 2. */
    constructor ()
      ensures Valid() && fresh(activePlayers)
      ensures Data() == Defaults
    {
      var flags := new bool[3];
      flags[0], flags[1], flags[2] := true, true, true;
      activePlayers := flags;
      tollSize, robRisk, minLoss, maxLoss, gameSpeed := 20, 20, 10, 50, 2;
      new;
      assert activePlayers[..] == [true, true, true];
    }

    /** Settings(Settings): copies every field, the flags into an array of its own. */
    constructor Copy(s: Settings)
      requires s.Valid()
      ensures Valid() && fresh(activePlayers)
      ensures Data() == s.Data()
      ensures unchanged(s, s.activePlayers)
    {
      var flags := new bool[3];
      for i := 0 to 3
        invariant flags[..i] == s.activePlayers[..i]
      {
        flags[i] := s.activePlayers[i];
      }
      activePlayers := flags;
      tollSize, robRisk, minLoss, maxLoss, gameSpeed := s.tollSize, s.robRisk, s.minLoss, s.maxLoss, s.gameSpeed;
      new;
      assert activePlayers[..] == s.activePlayers[..3];
    }

    /** Settings(String): starts from the defaults and assigns one field per line. */
    static method Parse(text: string) returns (r: Result<Settings>)
      ensures r.Success? ==> fresh(r.value) && fresh(r.value.activePlayers) && r.value.Valid()
      ensures r.Success? ==> ParseFields(text) == Success(r.value.Data())
      ensures r.Failure? ==> ParseFields(text) == Failure(r.error)
    {
      var s := new Settings();
      var lines := SplitLines(RemoveCR(text));
      if |lines| != 6 {
        return Failure(WrongLineCount(|lines|));
      }
      var i := 0;
      while i < |lines|
        invariant 0 <= i <= 6
        invariant fresh(s) && fresh(s.activePlayers) && s.Valid()
        invariant ApplyFrom(s.Data(), lines, i) == ParseFields(text)
      {
        var line := lines[i];
        var next := ApplyLine(s.Data(), i, line);
        if i == 0 {
          if |line| != 3 {
            return Failure(WrongFlagCount(|line|));
          }
          ghost var before := s.Data();
          for j := 0 to 3
            invariant fresh(s) && fresh(s.activePlayers) && s.Valid()
            invariant forall m :: 0 <= m < j ==> s.activePlayers[m] == (line[m] == '1')
            invariant s.Data() == before.(active := s.activePlayers[..])
          {
            s.activePlayers[j] := line[j] == '1';
          }
          assert s.activePlayers[..] == [line[0] == '1', line[1] == '1', line[2] == '1'];
        } else {
          var v := ParseInt(line);
          if v.Failure? {
            return Failure(v.error);
          }
          if i == 1 {
            s.tollSize := v.value;
          } else if i == 2 {
            s.robRisk := v.value;
          } else if i == 3 {
            s.minLoss := v.value;
          } else if i == 4 {
            s.maxLoss := v.value;
          } else {
            s.gameSpeed := v.value;
          }
        }
        assert next == Success(s.Data());
        i := i + 1;
      }
      return Success(s);
    }

    /** collectStrings: every line followed by CR LF, appended in order. */
    static method CollectStrings(lines: seq<string>) returns (text: string)
      ensures text == Terminated(lines)
    {
      text := "";
      for i := 0 to |lines|
        invariant text == Terminated(lines[..i])
      {
        TerminatedSnoc(lines[..i], lines[i]);
        assert lines[..i + 1] == lines[..i] + [lines[i]];
        text := text + lines[i] + "\r\n";
      }
      assert lines[..|lines|] == lines;
    }

    /** Settings(String[]): the joined lines handed to the text parser. */
    static method ParseFromLines(lines: seq<string>) returns (r: Result<Settings>)
      ensures r.Success? ==> fresh(r.value) && fresh(r.value.activePlayers) && r.value.Valid()
      ensures r.Success? ==> ParseLines(lines) == Success(r.value.Data())
      ensures r.Failure? ==> ParseLines(lines) == Failure(r.error)
    {
      var text := CollectStrings(lines);
      r := Parse(text);
    }

    /** Settings.toString. */
    method ToString() returns (text: string)
      requires Valid()
      ensures text == Format(Data())
    {
      var flags := "";
      for i := 0 to 3
        invariant flags == FlagsText(activePlayers[..i])
      {
        flags := flags + [if activePlayers[i] then '1' else '0'];
        assert activePlayers[..i + 1][..i] == activePlayers[..i];
      }
      assert activePlayers[..3] == activePlayers[..];
      text := flags + "\r\n" + IntToString(tollSize) + "\r\n";
      text := text + IntToString(robRisk) + "\r\n";
      text := text + IntToString(minLoss) + "\r\n";
      text := text + IntToString(maxLoss) + "\r\n";
      text := text + IntToString(gameSpeed) + "\r\n";
    }

    /** isActive: the flag of AI player `player` (0 = random, 1 = greedy, 2 = smart). */
    function IsActive(player: int): (b: bool)
      requires Valid() && 0 <= player < 3
      reads this, activePlayers
      ensures b == Data().active[player]
    {
      activePlayers[player]
    }

    method SetActive(player: int, active: bool)
      requires Valid() && 0 <= player < 3
      modifies activePlayers
      ensures Valid() && Data() == old(Data()).(active := old(Data()).active[player := active])
    {
      activePlayers[player] := active;
    }

    method SetTollToBePaid(tollSize: int)
      modifies this
      ensures activePlayers == old(activePlayers)
      ensures Data() == old(Data()).(toll := tollSize)
    {
      this.tollSize := tollSize;
    }

    method SetRisk(robRisk: int)
      modifies this
      ensures activePlayers == old(activePlayers)
      ensures Data() == old(Data()).(risk := robRisk)
    {
      this.robRisk := robRisk;
    }

    method SetMinMaxRobbery(min: int, max: int)
      modifies this
      ensures activePlayers == old(activePlayers)
      ensures Data() == old(Data()).(minLoss := min, maxLoss := max)
    {
      minLoss, maxLoss := min, max;
    }

    method SetGameSpeed(gameSpeed: int)
      modifies this
      ensures activePlayers == old(activePlayers)
      ensures Data() == old(Data()).(speed := gameSpeed)
    {
      this.gameSpeed := gameSpeed;
    }
  }
}

=== FILE: sorting.dfy ===
/** Collections.sort on a list ordered by a name (String.compareTo), as the
    game uses it for its countries (Game.addCountry) and its players
    (Player.compareTo, Game.step, Game.reset). The library sort is stable; the
    model is a stable insertion sort. */
module Sorting {
  import opened JavaText

  /** Every element's name sorts before or equals the names of all later elements. */
  predicate SortedBy<T>(s: seq<T>, name: T -> string)
  {
    forall i, j :: 0 <= i < j < |s| ==> StrLe(name(s[i]), name(s[j]))
  }

  /** Places x after every element whose name does not sort strictly after x's. */
  function Insert<T>(x: T, s: seq<T>, name: T -> string): (r: seq<T>)
    ensures multiset(r) == multiset(s) + multiset{x}
    ensures |r| == |s| + 1
  {
    if s == [] then [x]
    else if StrLess(name(x), name(s[0])) then [x] + s
    else
      assert s == [s[0]] + s[1..];
      [s[0]] + Insert(x, s[1..], name)
  }

  /** Collections.sort by name: inserts the elements one by one, left to right. */
  function SortBy<T>(s: seq<T>, name: T -> string): (r: seq<T>)
    ensures multiset(r) == multiset(s)
    ensures |r| == |s|
  {
    if s == [] then []
    else
      assert s == s[..|s| - 1] + [s[|s| - 1]];
      Insert(s[|s| - 1], SortBy(s[..|s| - 1], name), name)
  }

  lemma {:induction false} InsertSorted<T>(x: T, s: seq<T>, name: T -> string)
    requires SortedBy(s, name)
    ensures SortedBy(Insert(x, s, name), name)
  {
    if s != [] && !StrLess(name(x), name(s[0])) {
      InsertSorted(x, s[1..], name);
      var r := Insert(x, s, name);
      var t := Insert(x, s[1..], name);
      assert r == [s[0]] + t;
      StrLeTotalTransitive(name(s[0]), name(x), name(x));
      assert StrLe(name(s[0]), name(x)) by {
        CompareAntisymmetric(name(x), name(s[0]));
      }
      forall j | 0 < j < |r|
        ensures StrLe(name(r[0]), name(r[j]))
      {
        assert r[j] == t[j - 1];
        assert r[j] in multiset(t);
        if r[j] != x {
          assert r[j] in multiset(s[1..]);
          var k :| 0 <= k < |s[1..]| && s[1..][k] == r[j];
          assert s[k + 1] == r[j];
        }
      }
    } else if s != [] {
      var r := Insert(x, s, name);
      forall i, j | 0 <= i < j < |r|
        ensures StrLe(name(r[i]), name(r[j]))
      {
        if i == 0 {
          StrLeTotalTransitive(name(x), name(s[0]), name(r[j]));
        }
      }
    }
  }

  /** The sorted list is ordered by name and is a permutation of the input. */
  lemma {:induction false} SortBySorted<T>(s: seq<T>, name: T -> string)
    ensures SortedBy(SortBy(s, name), name)
    ensures multiset(SortBy(s, name)) == multiset(s)
  {
    if s != [] {
      SortBySorted(s[..|s| - 1], name);
      InsertSorted(s[|s| - 1], SortBy(s[..|s| - 1], name), name);
    }
  }

  /** The elements named n, in their order in s. */
  function Named<T>(s: seq<T>, name: T -> string, n: string): (r: seq<T>)
    ensures forall x :: x in r ==> x in s && name(x) == n
  {
    if s == [] then []
    else (if name(s[0]) == n then [s[0]] else []) + Named(s[1..], name, n)
  }

  lemma {:induction false} NamedAppend<T>(s: seq<T>, t: seq<T>, name: T -> string, n: string)
    ensures Named(s + t, name, n) == Named(s, name, n) + Named(t, name, n)
  {
    if s == [] {
      assert s + t == t;
    } else {
      assert (s + t)[0] == s[0] && (s + t)[1..] == s[1..] + t;
      NamedAppend(s[1..], t, name, n);
    }
  }

  /** In a sorted list whose first name sorts after n, nothing is named n. */
  lemma NamedNoneAfter<T>(s: seq<T>, name: T -> string, n: string)
    requires SortedBy(s, name) && s != [] && StrLess(n, name(s[0]))
    ensures Named(s, name, n) == []
  {
    if Named(s, name, n) != [] {
      var x := Named(s, name, n)[0];
      assert x in Named(s, name, n);
      var j :| 0 <= j < |s| && s[j] == x;
      if j > 0 {
        assert StrLe(name(s[0]), name(s[j]));
      }
      CompareAntisymmetric(n, name(s[0]));
      assert false;
    }
  }

  /** Insertion puts x after the elements of its own name. */
  lemma {:induction false} InsertNamed<T>(x: T, s: seq<T>, name: T -> string, n: string)
    requires SortedBy(s, name)
    ensures Named(Insert(x, s, name), name, n) == Named(s, name, n) + Named([x], name, n)
  {
    var nx := Named([x], name, n);
    NamedAppend([x], [], name, n);
    assert [x] + [] == [x];
    if s == [] {
      assert Insert(x, s, name) == [x];
    } else if StrLess(name(x), name(s[0])) {
      assert Insert(x, s, name) == [x] + s;
      NamedAppend([x], s, name, n);
      if name(x) == n {
        NamedNoneAfter(s, name, n);
      } else {
        assert nx == [];
      }
    } else {
      var hd := Named([s[0]], name, n);
      var t := Named(s[1..], name, n);
      assert SortedBy(s[1..], name);
      InsertNamed(x, s[1..], name, n);
      var r := Insert(x, s, name);
      assert r == [s[0]] + Insert(x, s[1..], name);
      NamedAppend([s[0]], Insert(x, s[1..], name), name, n);
      assert s == [s[0]] + s[1..];
      NamedAppend([s[0]], s[1..], name, n);
      assert Named(r, name, n) == hd + (t + nx);
      assert hd + (t + nx) == (hd + t) + nx;
    }
  }

  /** Collections.sort is stable: the elements of any one name keep their
      relative order. */
  lemma {:induction false} SortByStable<T>(s: seq<T>, name: T -> string, n: string)
    ensures Named(SortBy(s, name), name, n) == Named(s, name, n)
  {
    if s != [] {
      var p, l := s[..|s| - 1], s[|s| - 1];
      SortByStable(p, name, n);
      SortBySorted(p, name);
      InsertNamed(l, SortBy(p, name), name, n);
      assert s == p + [l];
      NamedAppend(p, [l], name, n);
    }
  }

  /** No element occurs twice. */
  predicate Distinct<T(==)>(s: seq<T>)
  {
    forall i, j :: 0 <= i < j < |s| ==> s[i] != s[j]
  }

  lemma {:induction false} DistinctCounts<T>(s: seq<T>, x: T)
    requires Distinct(s)
    ensures multiset(s)[x] <= 1
  {
    if s != [] {
      assert s == [s[0]] + s[1..];
      DistinctCounts(s[1..], x);
      if s[0] == x {
        assert x !in s[1..];
      }
    }
  }

  lemma RepeatCounts<T>(s: seq<T>, i: nat, j: nat)
    requires i < j < |s| && s[i] == s[j]
    ensures multiset(s)[s[i]] >= 2
  {
    assert s == s[..i] + [s[i]] + s[i + 1..j] + [s[j]] + s[j + 1..];
  }

  /** Sorting a list without repetitions gives a list without repetitions. */
  lemma SortByDistinct<T>(s: seq<T>, name: T -> string)
    requires Distinct(s)
    ensures Distinct(SortBy(s, name))
  {
    var t := SortBy(s, name);
    forall i, j | 0 <= i < j < |t| ensures t[i] != t[j] {
      if t[i] == t[j] {
        RepeatCounts(t, i, j);
        DistinctCounts(s, t[i]);
        assert false;
      }
    }
  }
}
